=== FILE: README.md ===
# ai-lifestyle-coach, core logic in Dafny

This project models the application logic of the ai-lifestyle-coach backend and its onboarding form. The rest of that code base is Express, Mongoose, Gemini and React plumbing. The model covers:

- **Legacy chat service** (`LegacyChatService`, from `chatService_old.js`):
  - a two-state follow-up machine, idle or awaiting `meal_time_change`;
  - the free-text time parser, the regular expression `(\d{1,2})[:\.](\d{2})|(\d{1,2})`;
  - the fixed-priority keyword matchers;
  - the update-keyword test and the keyword fallback.
- **Current chat service** (`ChatService`, from `chatService.js`):
  - detection of `[UPDATE_PLAN: …]` with lazy capture of the instruction;
  - removal of the tag and trimming of the reply;
  - the fallback priority chain, keyed on the error message and on keywords.
- **Chat controller** (`ChatController`, from `chatController.js`):
  - message validation, with status codes 400, 404 and 500;
  - the handler as the route registers it, unbound, so a reply with a plan update fails on `this.updateUserPlan`;
  - the follow-up state rule;
  - the chat history, limited to the last 50 entries;
  - the meal-time merge, which rewrites matching events and re-sorts them by time string.
- **Plan generator** (`GeminiService`, from `geminiService.js`):
  - the deterministic fallback plan, and the sort that throws on an absent bedtime;
  - the greedy `{…}` extraction in `parseResponse`;
  - `generateDailyPlan`, which falls back on any failure of the remote call or the parse;
  - how `buildPrompt` chooses its optional block and lists the enabled features.
- **Profile route** (`UserRoutes`, from `routes/users.js`):
  - the Joi schema: the anchored time pattern, the inclusive numeric bounds and the enumerations;
  - `PUT /profile`, which answers 400 and changes nothing when the body is invalid.
- **Onboarding form** (`Onboarding`, from `Onboarding.tsx`):
  - the default profile;
  - the goal and preference toggles;
  - the body the form submits.
- **Shared pieces**:
  - `Base`: Option, Result and filter;
  - `Text`: JavaScript `includes`/`indexOf`, `toLowerCase`, `trim`, `padStart`, and code-point order;
  - `Events`: the daily plan and its stable sort by time string, `Array.prototype.sort` with `localeCompare`;
  - `Profiles`: the profile record;
  - `ChatTypes`: the reply, the follow-up state and history entries.
- **Clock order** (`ClockOrder`):
  - string order against clock order for the times the schema admits;
  - the corrected fallback plan, which pads the profile's times first.
- **End to end** (`Conversation`):
  - the controller wired to either service;
  - the two-message meal-time conversation.

The remote model call is never made. It is a parameter `remote: Result<string>`, holding either the generated text or the message of the thrown error. `JSON.parse` is a parameter `parseJson: string -> Option<Plan>`. The controller's chat service is a parameter `Service`, and a service that throws is `Err`. Replies built from a template are `Canned(<template and the values it embeds>)`; their wording is not reproduced. Every keyword the services look for is reproduced character for character.

Behaviour of the code that is easy to misread, and which the model follows:

- **Merge titles.**
  - There is no single canonical "lunch" title.
  - The merge writes `Mindful Lunch` when the old title contains `Lunch`, and `ארוחת צהריים מודעת` otherwise.
  - The merge also matches titles containing `Lunch`, which the legacy resolver's meal filter does not.
  - The resolver's `originalEvents` play no part in the merge (`Conversation.MergeIgnoresOriginalEvents`).
- **Time format.**
  - Stored times are not always zero-padded `HH:MM`. The route's pattern accepts `7:00`, which the fallback plan then sorts after `19:30` (see Findings).
  - The follow-up parser zero-pads the hour but checks no range, so `99` becomes `99:00`.
- **Which service the controller uses.**
  - The controller imports the current service, not the follow-up machine. The current service ignores the stored state and never opens a follow-up (`Conversation.CurrentServiceOnlyRecords`).
  - The legacy machine is modelled on its own and wired in separately in `Conversation`.
- **Errors are not always recovered.**
  - The controller answers 500 with the error's message when the service throws.
  - The route passes `chatController.sendMessage` unbound, so every reply carrying a plan update ends in 500 (see Findings).
  - The fallback plan's sort throws when the bedtime was never sent, and the plan route answers 500 (see Findings).
- **JSON extraction.**
  - The reply is not scanned for the first well-formed JSON object. The code parses the span from the first `{` to the last `}`.

## Model

| member | source | states |
|---|---|---|
| Base.Filter | frontend/src/pages/Onboarding.tsx:41 | The result keeps exactly the elements that pass the test, each as often as in the input and in input order. |
| Base.FilterAppend | frontend/src/pages/Onboarding.tsx:41 | Filtering a concatenation is the concatenation of the filtered parts. |
| Text.IndexOf | backend/src/services/chatService.js:28 | The result is the leftmost occurrence of the substring, or none when it occurs nowhere. |
| Text.ContainsAny | backend/src/services/chatService_old.js:85-87 | `some(includes)` holds exactly when one of the keywords occurs in the string. |
| Text.Lower | backend/src/services/chatService_old.js:91 | Lower-casing keeps the length, maps each character on its own and leaves no ASCII capital. |
| Text.LowerKeepsCaselessMatch | backend/src/services/chatService_old.js:91 | Lower-casing cannot create or destroy an occurrence of a keyword with no ASCII letter in it. |
| Text.Trim | backend/src/controllers/chatController.js:12 | Only whitespace is stripped, at both ends, and the result is empty exactly when the string is all whitespace. |
| Text.PadStart2 | backend/src/services/chatService_old.js:170 | Strings shorter than two characters get leading zeros up to length two, and longer ones are unchanged. |
| Events.Insert | backend/src/services/geminiService.js:182 | Inserting adds exactly the one event to the multiset of events. |
| Text.LexLeTransitive | backend/src/services/geminiService.js:182 | The string order the sort uses is transitive; `LexLeTotal`, `LexLeReflexive` and `LexLeAntisymmetric` give the rest of a total order. |
| Events.SortByTime | backend/src/services/geminiService.js:182 | The sort returns a permutation of its input that is ascending by time string. |
| Events.InsertKeepsSorted | backend/src/controllers/chatController.js:95 | Inserting one event into a sorted list keeps it sorted. |
| Events.SortOfSortedIsIdentity | backend/src/controllers/chatController.js:95 | Sorting a list already in time order changes nothing, ties included, because the sort is stable. |
| Events.SortIdempotent | backend/src/controllers/chatController.js:95 | Sorting twice is sorting once. |
| Events.SortSameElements | backend/src/services/geminiService.js:182 | An event is in the sorted list exactly when it is in the input. |
| Profiles.Set | frontend/src/pages/Onboarding.tsx:49-52 | The spread update sets one key and leaves every other key as it was. |
| LegacyChatService.AsksMealChange | backend/src/services/chatService_old.js:94-96 | The meal-change matcher on the lower-cased message: `מעדיף` ("prefer") with `לא` ("not"); `אוכל` ("food") with `שתים` ("two"), `14:00` or `צהריים` ("noon"); or `ארוחה` ("meal") with `זמן` ("time"). |
| LegacyChatService.AsksPlan | backend/src/services/chatService_old.js:117 | The plan matcher: `תוכנית` ("plan") or `לוח זמנים` ("schedule"). |
| LegacyChatService.AsksWater | backend/src/services/chatService_old.js:128 | The water matcher: `מים` ("water"), `כוס` ("cup") or `שתיה` ("drinking"). |
| LegacyChatService.AsksSleep | backend/src/services/chatService_old.js:139 | The sleep matcher: `שינה` ("sleep"), `ישן` ("sleeps") or `לישון` ("to sleep"). |
| LegacyChatService.AsksExercise | backend/src/services/chatService_old.js:148 | The exercise matcher: `ספורט` ("sport"), `פעילות` ("activity") or `תרגיל` ("exercise"). |
| LegacyChatService.SaysThanks | backend/src/services/chatService_old.js:215 | The thanks matcher: `תודה` ("thanks") or `תודה רבה` ("thanks a lot"). |
| LegacyChatService.AsksHelp | backend/src/services/chatService_old.js:223 | The help matcher: `עזרה` ("help") or `?`. |
| LegacyChatService.MealEvents | backend/src/services/chatService_old.js:99-101 | The meal events are the plan events with category `nutrition` or a meal keyword in the title, in plan order and with their multiplicities. |
| LegacyChatService.MealChangeState | backend/src/services/chatService_old.js:107-111 | The state the meal prompt opens waits in `meal_time_change`, is well formed and carries the listed events. |
| LegacyChatService.TryLocalResponse | backend/src/services/chatService_old.js:90-157 | A reply exists exactly when some matcher fires. Each template is chosen exactly when its matcher is the first to fire, and the first two need a plan whose event list exists (it may be empty). Only the meal prompt opens a state, and no local reply asks for a plan update. |
| LegacyChatService.LocalWithoutPlan | backend/src/services/chatService_old.js:211-212 | Without a plan only the water, sleep and exercise matchers can fire. |
| LegacyChatService.TimeAt | backend/src/services/chatService_old.js:164-174 | The match starting at a digit, normalised, always has the form `DD:DD`. |
| LegacyChatService.ExtractTime | backend/src/services/chatService_old.js:164-174 | The parser finds a time exactly when the message holds an ASCII digit, and the time it finds has the form `DD:DD`. |
| LegacyChatService.ExtractTimeRoundTrip | backend/src/services/chatService_old.js:164-170 | A normalised time after digit-free text is read back unchanged, whatever follows it, and so is its `HH.MM` spelling. |
| LegacyChatService.ExtractTimeOneDigitHour | backend/src/services/chatService_old.js:164-170 | A one-digit hour before `:` or `.` and two digits is padded with a zero. |
| LegacyChatService.ExtractTimeBareHour | backend/src/services/chatService_old.js:164-173 | A two-digit hour not followed by a separator and two digits becomes `HH:00`, with no range check. |
| LegacyChatService.ExtractTimeBareOneDigit | backend/src/services/chatService_old.js:164-173 | A lone one-digit hour, followed by neither a digit nor a separator and two digits, is left-padded and gets `:00`. |
| LegacyChatService.ExtractTimeExamples | backend/src/services/chatService_old.js:164-174 | Worked examples: `12:30` gives `12:30`, `9.15` gives `09:15`, `13` gives `13:00`, `99` gives `99:00`, `123:45` gives `12:00`, `at 7:30 please` gives `07:30`, `at 7 pm` gives `07:00`, and a sentence without digits gives none. |
| LegacyChatService.HandleFollowUp | backend/src/services/chatService_old.js:159-205 | In `meal_time_change`, a message with a digit yields the plan update with the parsed time and the stored events and clears the state. A message without one re-prompts and keeps the state. Any other context starts over and clears it. |
| LegacyChatService.CheckIfPlanUpdateNeeded | backend/src/services/chatService_old.js:79-88 | The result is true exactly when the lower-cased message contains one of the thirteen update keywords. |
| LegacyChatService.FallbackResponse | backend/src/services/chatService_old.js:207-236 | The fallback never asks for a plan update or touches the state. When a local matcher fires without a plan, its reply is the fallback. Otherwise it gives thanks, then help, then the generic reply, in that order. |
| LegacyChatService.HandleUserMessage | backend/src/services/chatService_old.js:9-49 | While a follow-up is pending only the resolver answers. Otherwise a local reply wins, then the remote text flagged by the update keywords, then the fallback. Any state it opens is well formed and waiting, and a plan update only ever comes from a pending follow-up. |
| LegacyChatService.PendingFollowUpOnlyResolves | backend/src/services/chatService_old.js:14-16 | While waiting, the reply does not depend on the profile, the plan or the remote call; it is one of the resolver's three replies and opens no state. |
| LegacyChatService.FailedRemoteGivesKeywordFallback | backend/src/services/chatService_old.js:41-47 | When the matchers found nothing and the remote call failed, the reply is thanks, help or generic, chosen by keyword. |
| LegacyChatService.MealTimeFlow | backend/src/services/chatService_old.js:94-188 | From idle, a meal-change trigger opens `meal_time_change` with the plan's meal events. The next message, if it has a digit, emits the plan update with the parsed time and clears the state; otherwise the state stays. |
| ChatService.ScanClose | backend/src/services/chatService.js:22 | The lazy `(.*?)\]` stops at the first `]` reached before any line terminator, or fails when none is reached. |
| ChatService.FindTagFrom | backend/src/services/chatService.js:22 | The match found from a position is the leftmost one at or after it, with the earliest closing bracket; none means no match from there on. |
| ChatService.FindTag | backend/src/services/chatService.js:22-23 | A match found is an `[UPDATE_PLAN: …]` tag: the opening text, an instruction with no line terminator, and a closing bracket. |
| ChatService.FindTagLeftmost | backend/src/services/chatService.js:22-23 | The match found is the leftmost one with the earliest closing bracket, and there is none exactly when the pattern matches nowhere. |
| ChatService.RemoveFirst | backend/src/services/chatService.js:28 | `replace` with a string pattern cuts out the first literal occurrence, or changes nothing when there is none. |
| ChatService.ReplaceHitsTheMatch | backend/src/services/chatService.js:22-28 | The first literal occurrence of the matched text is the regular-expression match itself. |
| ChatService.CopyOfMatchIsMatch | backend/src/services/chatService.js:22 | Wherever the matched text occurs, the pattern matches there too. |
| ChatService.FallbackWith | backend/src/services/chatService.js:78-111 | The priority chain: network-filter error (`418` or `NetFree`), then thanks, then help or `?`, then generic. Each branch is chosen exactly when its test is the first to hold, and no branch asks for an update or touches the state. |
| ChatService.FallbackResponse | backend/src/services/chatService.js:78-111 | The fallback as written, with the mis-encoded keywords: one of the four replies, never an update, never a state change. |
| ChatService.MojibakeNeverMatchesHebrew | backend/src/services/chatService.js:91-99 | A message without `×` never gets the thanks reply, and gets the help reply only if it holds `?`. |
| ChatService.HebrewThanksExample | backend/src/services/chatService.js:91-97 | Hebrew "thanks" after a quota error gets the generic reply as written and the thanks reply as intended. |
| ChatService.FallbackResponseIntended | backend/src/services/chatService.js:90-105 | The fallback with the keywords spelled in Hebrew: a message with "thanks" gets the thanks reply, and one with "help" and no "thanks" gets the help reply. |
| ChatService.ThanksMuchHoldsThanks | backend/src/services/chatService.js:91 | A message holding "thanks a lot" holds "thanks". |
| ChatService.HandleUserMessage | backend/src/services/chatService.js:9-46 | The update flag is set exactly when the remote text holds the tag. With a tag, the reply is the text without the match, trimmed, and the profile carries the captured instruction. Without a tag the text is passed through untrimmed. A failed call gives the fallback. The state is never touched. |
| ChatService.InstructionIsBracketFree | backend/src/services/chatService.js:22-27 | The captured instruction holds no `]` and no line terminator. |
| ChatService.TagRoundTrip | backend/src/services/chatService.js:22-37 | When the text is a body without `[` followed by a tag with a well-formed instruction, the reply is flagged, shows the trimmed body and hands back exactly that instruction. |
| ChatService.IgnoresChatState | backend/src/services/chatService.js:9-46 | The stored follow-up state has no influence on the result. |
| ChatController.NextChatState | backend/src/controllers/chatController.js:41-45 | A returned state wins. Otherwise a clear request stores the idle record, and otherwise the stored state stays. |
| ChatController.NextChatStateKeepsStoredOk | backend/src/controllers/chatController.js:41-45 | The state rule keeps the stored state readable. A waiting state after the rule was either returned by the service or was already stored. |
| ChatController.Window | backend/src/controllers/chatController.js:60-62 | The kept history is the trailing part of at most 50 entries, and a history within the limit is kept whole. |
| ChatController.AppendHistory | backend/src/controllers/chatController.js:52-62 | The new entry is always last, nothing is dropped below 50 entries, and the length never exceeds 50. |
| ChatController.AppendAllIsWindow | backend/src/controllers/chatController.js:52-62 | Any run of messages leaves the trailing window of the old history followed by the new entries. |
| ChatController.WindowOfWindowPlus | backend/src/controllers/chatController.js:60-62 | Trimming before appending a block loses nothing the window would keep. |
| ChatController.FiftyOneMessages | backend/src/controllers/chatController.js:52-62 | Fifty-one messages into an empty history leave the last fifty; the oldest is evicted. |
| ChatController.Rewrite | backend/src/controllers/chatController.js:84-91 | A target event gets the new time and the fixed title for its kind. Any other event is unchanged, and description, category and duration are always kept. |
| ChatController.LunchTitleMatches | backend/src/controllers/chatController.js:90 | The English replacement title still holds `Lunch`. |
| ChatController.HebrewTitleDoesNotMatch | backend/src/controllers/chatController.js:90 | The Hebrew replacement title holds no `Lunch`. |
| ChatController.RewriteIdempotent | backend/src/controllers/chatController.js:84-91 | Rewriting a rewritten event changes nothing. |
| ChatController.RewriteAll | backend/src/controllers/chatController.js:84-92 | The `forEach` rewrites each event in place and keeps the order. |
| ChatController.Merge | backend/src/controllers/chatController.js:84-95 | The merged list has the same length, is a permutation of the rewritten events, and is sorted by time string. |
| ChatController.UpdateUserPlan | backend/src/controllers/chatController.js:80-98 | Only a `meal_time_change` on a plan whose event list exists (possibly empty) changes anything, and then only the event list. |
| ChatController.MergeElementsAreRewrites | backend/src/controllers/chatController.js:84-95 | Every merged event is the rewrite of an input event. |
| ChatController.MergeMovesEveryTarget | backend/src/controllers/chatController.js:84-95 | After a merge every target event carries the new time. |
| ChatController.MergeIdempotent | backend/src/controllers/chatController.js:84-95 | Merging the same meal-time change twice is merging it once. |
| ChatController.UpdateUserPlanIdempotent | backend/src/controllers/chatController.js:80-98 | Applying the same plan update twice is applying it once. |
| ChatController.BlankMessage | backend/src/controllers/chatController.js:12 | A message is refused as blank when it is missing or trims to nothing. |
| ChatController.ApplyReply | backend/src/controllers/chatController.js:36-62 | The profile is kept. The plan changes only through a returned plan update, the state follows the state rule, and the exchange is pushed onto the bounded history. |
| ChatController.SendMessage | backend/src/routes/chat.js:8 | The handler as routed, with `this` undefined. A blank or missing message is 400 whatever the user, and a missing user is 404. The request succeeds exactly when the service answers without a plan update, and then agrees with the bound handler. Otherwise it is 500, with the service's error or the `updateUserPlan` TypeError, and nothing saved. |
| ChatController.SendMessageBound | backend/src/controllers/chatController.js:5-78 | The handler with `this` bound. 400 and 404 as above. The request succeeds exactly when the service answers, and a throwing service is 500 with its message and nothing saved. On success the response carries the reply's message and update flag, and the reply, plan update included, is applied to the returned user. |
| ChatController.BindingMattersOnlyForPlanUpdates | backend/src/controllers/chatController.js:36-38 | The routed and the bound handler give different results exactly when the service's reply carries a plan update. |
| ChatController.SendMessageKeepsInvariant | backend/src/controllers/chatController.js:41-62 | A successful request, under either handler, keeps the history within 50 entries and the stored state readable, provided the service returns only readable states. |
| GeminiService.ExerciseTime | backend/src/services/geminiService.js:151 | The movement time is the work end time, or `17:00` when that is empty, and is never empty. |
| GeminiService.PushedEvents | backend/src/services/geminiService.js:116-179 | The events in push order: hydration, breakfast, lunch, movement, dinner, sleep, each only when its toggle is on. |
| GeminiService.PushedOrder | backend/src/services/geminiService.js:116-179 | One event per toggle that is on, three for nutrition; hydration is first and sleep last whenever they are pushed. |
| GeminiService.MiddayEvents | backend/src/services/geminiService.js:126-168 | The meals and the movement event never have an empty time, and none is pushed exactly when nutrition and movement are both off. |
| GeminiService.Shown | backend/src/services/geminiService.js:185 | A template literal never prints an empty value: an absent one prints `undefined`, a present one itself. |
| GeminiService.FallbackRecommendations | backend/src/services/geminiService.js:183-187 | All three recommendations are non-empty, and the sleep one names the bedtime and the wake time as the template prints them. |
| GeminiService.FallbackPlan | backend/src/services/geminiService.js:111-189 | The corrected fallback, with an absent time compared as the empty string. Its events are a permutation of the pushed events, sorted by time string, with the fixed recommendations. |
| GeminiService.InsertUnder | backend/src/services/geminiService.js:182 | Inserting an event under a substitute key adds exactly that event. |
| GeminiService.InsertUnderOwnTime | backend/src/services/geminiService.js:182 | Under the event's own time, the substitute-key insertion is the ordinary one. |
| GeminiService.InsertUnderAfterAll | backend/src/services/geminiService.js:182 | A key after every time puts the event last. |
| GeminiService.GenerateFallbackPlan | backend/src/services/geminiService.js:111-189 | The fallback as written. It throws the `localeCompare` TypeError exactly when an event after the first has no time. Otherwise its events are a permutation of the pushed events, with the fixed recommendations. |
| GeminiService.SortAsWritten | backend/src/services/geminiService.js:182 | The order the sort leaves is a permutation of its input, and is the time-string sort whenever the first event has a time. |
| GeminiService.AbsentFirstSortsLast | backend/src/services/geminiService.js:182 | A first event without a time is compared as `undefined` and ends up after every time that starts with a digit. |
| GeminiService.PushedTimes | backend/src/services/geminiService.js:116-179 | An event after the first without a time can only be the sleep event, last in the list, with its toggle on. |
| GeminiService.FallbackThrowsExactly | backend/src/services/geminiService.js:170-182 | The fallback as written throws exactly when the sleep toggle is on, the bedtime is absent and some other event is pushed. |
| GeminiService.PushedFirst | backend/src/services/geminiService.js:116-179 | With hydration on, the first pushed event is hydration. Otherwise the first event lacks a time only when the sleep event is the whole list. |
| GeminiService.FallbackAsWrittenAgrees | backend/src/services/geminiService.js:111-189 | When every sleep time the plan uses is present, the fallback as written is the corrected plan. |
| GeminiService.PushedAfterWake | backend/src/services/geminiService.js:116-179 | With hydration on, hydration is first, and every later event has a digit-led time when the meals, movement and bedtime do. |
| GeminiService.AbsentWakeSortsLast | backend/src/services/geminiService.js:116-182 | An absent wake time on its own does not throw: the hydration event goes after all other events, which are sorted by time. |
| GeminiService.FallbackCount | backend/src/services/geminiService.js:116-179 | The number of events is hydration + 3 × nutrition + movement + sleep, counting each toggle that is on as 1. |
| GeminiService.FallbackIgnoresOtherToggles | backend/src/services/geminiService.js:111-189 | The relaxation, digital-wellness and outdoor toggles have no influence on the plan. |
| GeminiService.FallbackAllOff | backend/src/services/geminiService.js:111-182 | With the four toggles off the event list is empty. |
| GeminiService.PushedMembers | backend/src/services/geminiService.js:113-179 | The pushed list holds exactly the events whose toggle is on. |
| GeminiService.FallbackMembers | backend/src/services/geminiService.js:111-189 | The plan holds exactly the events whose toggle is on. |
| GeminiService.FallbackCategories | backend/src/services/geminiService.js:116-182 | Every event's category is hydration, nutrition, movement or sleep. |
| GeminiService.OriginCategory | backend/src/services/geminiService.js:116-179 | An event of a category can only come from that category's toggle. |
| GeminiService.FallbackCategoryPresence | backend/src/services/geminiService.js:116-182 | The plan has an event of a category exactly when that category's toggle is on. |
| GeminiService.FallbackEventTimes | backend/src/services/geminiService.js:116-178 | Events sit at these times: hydration at wake time; meals at 08:30, 13:00 and 19:30; movement at the exercise time; sleep at bedtime with duration 0. The movement text is the high-intensity one exactly for activity level `high`. |
| GeminiService.FirstOf | backend/src/services/geminiService.js:101 | The first index holding the character, or none. |
| GeminiService.LastOf | backend/src/services/geminiService.js:101 | The last index holding the character, or none. |
| GeminiService.ExtractJson | backend/src/services/geminiService.js:101-102 | A match exists exactly when some `{` comes before some `}`. It runs from the first `{` to the last `}`. |
| GeminiService.ExtractJsonRoundTrip | backend/src/services/geminiService.js:101 | An object wrapped in text without braces comes out whole. |
| GeminiService.ParseResponse | backend/src/services/geminiService.js:98-109 | Success means the extracted text parsed. No match and a failed parse both give "Invalid AI response format". |
| GeminiService.GenerateDailyPlan | backend/src/services/geminiService.js:12-37 | As written: a failed call or a failed parse gives the fallback as written, and a parsed plan is returned as is. The only failure is the fallback's `localeCompare` TypeError. |
| GeminiService.GenerateDailyPlanIntended | backend/src/services/geminiService.js:12-37 | As intended: the same choices, with the corrected fallback, so a plan always results. |
| GeminiService.IntendedPlanAlwaysProduced | backend/src/services/geminiService.js:12-37 | On a fallback, the intended plan holds exactly the events whose toggles are on. With both sleep times present, the generator as written gives the intended plan. |
| GeminiService.EmptyProfilePlanFails | backend/src/routes/plans.js:15-32 | For the profile stored from the body `{}`, a failed remote call makes the generator throw. The intended generator still gives a plan. |
| GeminiService.BracelessReplyFallsBack | backend/src/services/geminiService.js:12-37 | A reply with no `{` gives the fallback plan as written. |
| GeminiService.EnabledAmong | backend/src/services/geminiService.js:48 | A name is listed exactly when its key is among the given keys and its toggle is on. |
| GeminiService.EnabledFeatures | backend/src/services/geminiService.js:48 | A preference name is listed exactly when its toggle is on, and the list is a subsequence of the seven names in declaration order. As the names are distinct, this fixes the list. |
| GeminiService.AllFeaturesEnabled | backend/src/services/geminiService.js:48 | With every toggle on, the seven names are listed in declaration order. |
| GeminiService.BuildPrompt | backend/src/services/geminiService.js:39-66 | The current-plan block appears exactly when there is a plan and a non-empty modification, the important line exactly when there is a modification but no plan, and neither otherwise. The block carries the plan's events, or none. |
| UserRoutes.ValidTime | backend/src/routes/users.js:15 | The anchored pattern `^([0-1]?[0-9]\|2[0-3]):[0-5][0-9]$`: a one-digit hour, or a two-character hour up to 23, then a colon and two minute digits up to 59. |
| UserRoutes.Valid | backend/src/routes/users.js:9-33 | The schema: inclusive numeric bounds, the activity-level and goal enumerations, and the time pattern on each present time; every key optional. |
| UserRoutes.ValidTimeIsClockTime | backend/src/routes/users.js:15 | Every accepted string is a clock time from 0:00 to 23:59, written with or without the hour's leading zero. |
| UserRoutes.ClockTimeIsValid | backend/src/routes/users.js:15 | Every clock time from 0:00 to 23:59 is accepted, padded or not, and reads back as itself. |
| UserRoutes.TimePatternExamples | backend/src/routes/users.js:15-16 | `24:00`, `9:5`, `12:60` and `12:30 ` are rejected; `7:05`, `07:05` and `23:59` are accepted. |
| UserRoutes.FirstViolation | backend/src/routes/users.js:9-33 | No violation is reported exactly when the body satisfies the schema. An age violation is reported exactly when the age is out of range, and an unknown-goal violation names a body with a goal outside the four. |
| UserRoutes.EmptyBodyValid | backend/src/routes/users.js:9-33 | Every key is optional: the empty body is valid. |
| UserRoutes.BoundsInclusive | backend/src/routes/users.js:10-12 | The age, height and weight bounds are inclusive at both ends. |
| UserRoutes.UpdateProfile | backend/src/routes/users.js:46-64 | An invalid body gives 400 with its first violation and leaves the account untouched. A valid one gives 200, stores the body as the profile and marks the user onboarded. |
| UserRoutes.StoredProfileValid | backend/src/routes/users.js:46-64 | A profile stored by the route satisfies the schema. |
| Onboarding.DefaultProfile | frontend/src/pages/Onboarding.tsx:11-35 | The starting form has every toggle on, no goal, no instruction and all four times in `HH:MM` form the schema accepts. |
| Onboarding.ToggleGoal | frontend/src/pages/Onboarding.tsx:37-44 | A present goal is removed everywhere and the others keep their order and counts. An absent goal is appended, and nothing else in the profile changes. |
| Onboarding.ToggleAbsentGoalTwice | frontend/src/pages/Onboarding.tsx:37-44 | Toggling an absent goal twice restores the profile. |
| Onboarding.ToggleKeepsNoDuplicates | frontend/src/pages/Onboarding.tsx:37-44 | A goal list without duplicates stays without duplicates under every toggle. |
| Onboarding.TogglePreference | frontend/src/pages/Onboarding.tsx:46-54 | Exactly one preference is negated; every other preference and profile field is unchanged. |
| Onboarding.TogglePreferenceTwice | frontend/src/pages/Onboarding.tsx:46-54 | Toggling a preference twice restores the profile. |
| Onboarding.ToBody | frontend/src/pages/Onboarding.tsx:62 | The submitted body carries every field of the form's profile: age, height, weight, activity level, work schedule, sleep schedule, goals and all seven preferences. |
| Onboarding.ToBodyLossless | frontend/src/pages/Onboarding.tsx:62 | Two forms with the same instruction submit the same body exactly when they are the same form. |
| Onboarding.DefaultProfileValid | frontend/src/pages/Onboarding.tsx:11-35 | The default profile passes the server's schema and is stored with status 200. |
| Onboarding.FormBoundsMatchServer | frontend/src/pages/Onboarding.tsx:89-116 | The number inputs' `min`/`max` admit exactly the values the server accepts. |
| Onboarding.OfferedGoalsAreServerGoals | frontend/src/pages/Onboarding.tsx:199-204 | The offered goals are exactly the goals the server accepts. |
| Onboarding.ClickKeepsValid | frontend/src/pages/Onboarding.tsx:37-54 | One checkbox click keeps the submitted body valid and the goals free of duplicates. |
| Onboarding.ClicksKeepValid | frontend/src/pages/Onboarding.tsx:37-54 | Any run of checkbox clicks keeps the submitted body valid. |
| Onboarding.DefaultFormAlwaysAccepted | frontend/src/pages/Onboarding.tsx:11-54 | From the default form, every run of checkbox clicks submits a body the server accepts. |
| ClockOrder.PaddedOrderIsClockOrder | backend/src/services/geminiService.js:182 | On valid `HH:MM` strings, string order is clock order. |
| ClockOrder.PadTime | backend/src/routes/users.js:15 | A valid time becomes its `HH:MM` spelling of the same clock time, and anything else is unchanged. |
| ClockOrder.SortedPaddedIsChronological | backend/src/services/geminiService.js:182 | A list sorted by time string whose times are all `HH:MM` is in clock order. |
| ClockOrder.PaddedProfileEvents | backend/src/services/geminiService.js:116-179 | Every fallback event of a padded profile has an `HH:MM` time. |
| ClockOrder.PadProfilePadded | backend/src/routes/users.js:20-21 | Padding a profile whose times the schema accepts leaves `HH:MM` times. |
| ClockOrder.FallbackPlanChronological | backend/src/services/geminiService.js:111-189 | The corrected fallback plan has only valid `HH:MM` times and is in clock order. |
| ClockOrder.ChronologicalAgreesOnPaddedProfiles | backend/src/services/geminiService.js:111-189 | For profiles already written `HH:MM` the corrected plan is the plan as written. |
| ClockOrder.EarlyRiserPlan | backend/src/services/geminiService.js:111-182 | For a 7:00 riser with meals and hydration on, the plan as written is breakfast, lunch, dinner, then hydration. |
| ClockOrder.OneDigitHourSortsLate | backend/src/services/geminiService.js:182 | A profile the schema accepts gets a fallback plan, as written, that is not in clock order. |
| Conversation.LegacyRequestKeepsInvariant | backend/src/routes/chat.js:8 | With the legacy service and the handler as routed, a non-blank message to a stored user is answered exactly when the reply has no plan update; otherwise it is the `updateUserPlan` 500. An answered request keeps the bounded history and readable state. |
| Conversation.LegacyRequestBoundKeepsInvariant | backend/src/controllers/chatController.js:5-78 | With the legacy service and the bound handler, a non-blank message to a stored user never gets 500, and the bounded history and readable state are kept. |
| Conversation.CurrentServiceOnlyRecords | backend/src/controllers/chatController.js:26-57 | With the current service, plan, profile and follow-up state never change. The flag is the tag test, and the message is recorded last in the history. |
| Conversation.MergeIgnoresOriginalEvents | backend/src/controllers/chatController.js:80-98 | The plan update's `originalEvents` play no part in the merge. |
| Conversation.MealTimeConversation | backend/src/controllers/chatController.js:26-45 | Through the bound handler, a meal-change trigger stores a waiting state and changes no plan. An answer with a digit then flags the update, stores the idle record and merges the plan with the parsed time. |
| Conversation.MealTimeAnswerRejected | backend/src/routes/chat.js:8 | Through the handler as routed, the trigger is answered and stores the waiting state, but the answer with a digit is the `updateUserPlan` 500. |
| Conversation.StuckAwaitingMealTime | backend/src/controllers/chatController.js:36-38 | As routed, a user waiting for the meal time never leaves that state. An answer with a digit is 500 and saves nothing; any other message keeps the state and the plan. |
| Conversation.PhaseTransitions | backend/src/services/chatService_old.js:9-205 | The legacy follow-up machine through the bound handler, by phase. From idle, the next phase is idle or waiting in `meal_time_change`, and it is waiting exactly for a meal-change question on a plan whose event list exists, even an empty one. A wait closes exactly when its context is not `meal_time_change` or the answer has a digit, and otherwise stays as it was. |

## Left out

- Remote model calls: `generateContent`, the model names, the API key and the prompt wording. The remote result is a parameter.
- `JSON.parse`: a parameter, because it is library behaviour.
- The chat prompts (`buildChatPrompt` in both chat services): their text is only sent to the remote model.
- Timestamps (`new Date().toISOString()`) and all logging: clock and I/O.
- `getChatHistory` and `GET /profile`: a plain read of the stored record.
- Persistence and HTTP: Mongoose, Express, authentication and the React rendering.
  - The user document is a value, and `user.save()` is the returned `Sent.user`.
  - Mongoose strict mode would also drop a `planModifications` key written on the profile. The current service's profile change is returned in `ChatService.Handled` and is not saved by the controller.
- BMI and the water-glass count (`Math.round(weight * 0.035)`): floating-point arithmetic. `WaterAdvice` carries the weight only.
- The wording of every canned reply. Each is a `Canned` template with the values it embeds.
- Number and time inputs of the onboarding form, other than the checkboxes, and the submit handler's navigation and error display.
- `Text.Lower`: it lower-cases ASCII letters only, where JavaScript's `toLowerCase` covers all of Unicode. No keyword holds a cased letter (`Text.LowerKeepsCaselessMatch`). The one exception is `Lunch`, which is matched on titles without lower-casing.
- `Events.SortByTime`: it compares by code point, where `localeCompare` uses ICU collation. The two agree on the zero-padded `HH:MM` strings both services write. On one-digit hours ICU may also order `:` against digits differently, but the finding below holds for both orders, because `7` sorts after `1`.
- `UserRoutes.FirstViolation`: it reports a `Violation` value instead of Joi's message text. The model does not cover Joi's type coercion of numeric strings, its rejection of unknown keys, or the `workDays` item type.
- `ChatController.SendMessage`: a request body whose `message` is not a string is not modelled, as the message is `Option<string>`. In the source a falsy non-string (`0`, `false`, `null`) is 400 "Message is required". A truthy non-string (`5`, `true`, `[]`, `{}`) throws at `message.trim` and is answered 500 "Internal server error: message.trim is not a function", with nothing saved.
- `LegacyService`: a stored waiting `meal_time_change` record without data is an error as soon as it is read. The source throws only on reaching `chatState.data.originalEvents` after a time was parsed. The controller never stores such a record (`ChatController.SendMessageKeepsInvariant`).
- `GeminiService.SortThrows`: it assumes the engine's comparator argument order for short arrays. A run scan compares each element with the one before, then binary insertion compares the inserted element with the sorted prefix. So every element after the first is passed as `a`, and the first only as `b`.
- `ChatController.Merge`: it does not model stored plan events without a time. The sort is the same `localeCompare` sort, but events come from a stored plan, whose times the model takes as present.
- `LegacyChatService.HandleUserMessage`: `buildChatPrompt` runs outside the `try`, so a profile missing its schedules would throw there. Profiles are total records, so this case is absent. A missing string field is the empty string, where the template would print `undefined`.
- `LegacyChatService.TryLocalResponse`: `userProfile?.weight || 70` is modelled as weight 0 becoming 70. An absent profile is not modelled, because the controller always passes the stored one.

## Findings

| source | as written | input that shows it | evidently intended | confidence | as-written member | corrected member |
|---|---|---|---|---|---|---|
| backend/src/services/chatService.js:91-99 | The thanks and help keywords are UTF-8 Hebrew read back as Windows-1252 (`×ª×•×“×”`), so Hebrew input never matches them. | Message `תודה` after the error "quota exceeded" gets the generic reply. | The Hebrew keywords `תודה`, `תודה רבה` and `עזרה`, as in the legacy service, so "thanks" gets the thanks reply. | not executed | ChatService.HebrewThanksExample | ChatService.FallbackResponseIntended |
| backend/src/controllers/chatController.js:36-38 | The route registers `chatController.sendMessage` unbound (routes/chat.js:8), so `this.updateUserPlan` reads a property of `undefined`. The TypeError is caught and answered with 500, and nothing is saved. | With the legacy service, a meal-change question, then an answer `12:30`: the answer gets 500, and the user stays waiting for ever. | The handler bound to the controller (`.bind` or an arrow function), so the plan update is merged and the state cleared. | not executed | Conversation.MealTimeAnswerRejected | Conversation.MealTimeConversation |
| backend/src/services/geminiService.js:170-182 | `a.time.localeCompare(b.time)` reads `time` of the sleep event. The schema leaves the bedtime optional, so it may be `undefined`, and the sort throws. The error escapes `generateDailyPlan`, and the plan route answers 500. | Profile stored from the body `{}` (all toggles default on), with the remote call failing: the fallback sort throws. | A fallback that always gives a plan, with an absent time compared as the empty string. | not executed | GeminiService.EmptyProfilePlanFails | GeminiService.GenerateDailyPlanIntended |
| backend/src/routes/users.js:15-21 | The schema accepts one-digit hours such as `7:00`, and the fallback plan sorts by time string, so `7:00` comes after `19:30`. | Wake time `7:00` with nutrition and hydration on gives breakfast, lunch, dinner, then the 7:00 hydration. | Events in clock order, as with zero-padded times; pad the profile's times before sorting. | not executed | ClockOrder.OneDigitHourSortsLate | ClockOrder.FallbackPlanChronological |

=== FILE: base.dfy ===
/** Failure-carrying wrappers shared by every module of the model. */
module Base {

  /** A JavaScript value that may be `undefined`/`null`. */
  datatype Option<T> = None | Some(value: T) {
    function GetOr(default: T): T {
      match this
      case Some(v) => v
      case None => default
    }
  }

  /** The outcome of a call that may throw: either a value or the thrown error's message. */
  datatype Result<T> = Ok(value: T) | Err(message: string)

  /** `a` is `b` with some elements left out, the rest in their original order. */
  predicate Subsequence<T(==)>(a: seq<T>, b: seq<T>) {
    a == [] || (b != [] && (if a[0] == b[0] then Subsequence(a[1..], b[1..]) else Subsequence(a, b[1..])))
  }

  /** Putting an element in front keeps every subsequence a subsequence. */
  lemma {:induction false} SubsequenceCons<T>(a: seq<T>, b: seq<T>, x: T)
    requires Subsequence(a, b)
    ensures Subsequence(a, [x] + b)
    decreases |b|, 1
  {
    if a != [] && a[0] == x {
      SubsequenceTail(a, b);
      assert ([x] + b)[1..] == b;
    }
  }

  /** Dropping the first element of a subsequence keeps it a subsequence. */
  lemma {:induction false} SubsequenceTail<T>(a: seq<T>, b: seq<T>)
    requires a != [] && Subsequence(a, b)
    ensures Subsequence(a[1..], b)
    decreases |b|, 0
  {
    assert b == [b[0]] + b[1..];
    if a[0] == b[0] {
      SubsequenceCons(a[1..], b[1..], b[0]);
    } else {
      SubsequenceTail(a, b[1..]);
      SubsequenceCons(a[1..], b[1..], b[0]);
    }
  }

  /** `s.filter(p)`: the elements satisfying `p`, each as often as in `s`, in order. */
  function Filter<T(!new)>(s: seq<T>, p: T -> bool): (r: seq<T>)
    ensures |r| <= |s|
    ensures forall i :: 0 <= i < |r| ==> p(r[i])
    ensures forall x :: multiset(r)[x] == if p(x) then multiset(s)[x] else 0
    ensures Subsequence(r, s)
  {
    if s == [] then []
    else
      assert s == [s[0]] + s[1..];
      if p(s[0]) then [s[0]] + Filter(s[1..], p) else Filter(s[1..], p)
  }

  /** Filtering a concatenation filters each part. */
  lemma {:induction false} FilterAppend<T(!new)>(s: seq<T>, t: seq<T>, p: T -> bool)
    ensures Filter(s + t, p) == Filter(s, p) + Filter(t, p)
  {
    if s == [] {
      assert s + t == t;
    } else {
      assert (s + t)[0] == s[0];
      assert (s + t)[1..] == s[1..] + t;
      FilterAppend(s[1..], t, p);
    }
  }

  /** A filter every element passes changes nothing. */
  lemma {:induction false} FilterKeepsAll<T(!new)>(s: seq<T>, p: T -> bool)
    requires forall i :: 0 <= i < |s| ==> p(s[i])
    ensures Filter(s, p) == s
  {
    if s != [] {
      FilterKeepsAll(s[1..], p);
    }
  }
}

=== FILE: chat_controller.dfy ===
/** The chat controller (`chatController.js`): it validates the message, calls a
    chat service with the stored profile, plan and follow-up state, applies the
    service's plan update and state instruction, and appends to a bounded
    chat history. The service is a parameter; a service that throws is `Err`. */
module ChatController {
  import opened Base
  import opened Text
  import opened Events
  import opened Profiles
  import opened ChatTypes

  /** The stored user document, as far as the controller touches it. */
  datatype User = User(
    profile: Profile,
    currentPlan: Option<Plan>,
    chatHistory: seq<HistoryEntry>,
    chatState: Option<ChatState>)

  /** A chat service: message, profile, plan and follow-up state in; a reply,
      or the message of the error it throws, out. */
  type Service = (string, Profile, Option<Plan>, ChatState) -> Result<Reply>

  /** The outcome of `sendMessage`: an error status with its message, or the
      JSON reply together with the user document as saved. */
  datatype SendResult =
    | Rejected(status: nat, error: string)
    | Sent(response: ReplyText, needsPlanUpdate: bool, user: User)

  // ---------------------------------------------------------------------------
  // The follow-up state rule
  // ---------------------------------------------------------------------------

  /** `if (response.chatState) ... else if (response.clearChatState) ...`. */
  function NextChatState(stored: Option<ChatState>, r: Reply): (s: Option<ChatState>)
    ensures r.chatState.Some? ==> s == r.chatState
    ensures r.chatState.None? && r.clearChatState ==> s == Some(IdleState)
    ensures KeepsState(r) ==> s == stored
  {
    if r.chatState.Some? then r.chatState
    else if r.clearChatState then Some(IdleState)
    else stored
  }

  /** A stored state the services can read: nothing, or a well-formed record. */
  predicate StoredOk(s: Option<ChatState>) {
    s.None? || WellFormed(s.value)
  }

  /** The state rule keeps the stored state readable whenever the reply's own
      state is: the idle record and the old state are both readable. */
  lemma NextChatStateKeepsStoredOk(stored: Option<ChatState>, r: Reply)
    requires StoredOk(stored)
    requires r.chatState.Some? ==> WellFormed(r.chatState.value)
    ensures StoredOk(NextChatState(stored, r))
    ensures NextChatState(stored, r).Some? && NextChatState(stored, r).value.isWaitingForResponse ==>
      r.chatState.Some? || (KeepsState(r) && stored.Some? && stored.value.isWaitingForResponse)
  {
  }

  // ---------------------------------------------------------------------------
  // The bounded history
  // ---------------------------------------------------------------------------

  /** The history keeps at most this many entries. */
  const HistoryLimit: nat := 50

  /** `h.length > 50 ? h.slice(-50) : h`. */
  function Window(h: seq<HistoryEntry>): (r: seq<HistoryEntry>)
    ensures |r| <= HistoryLimit
    ensures |h| <= HistoryLimit ==> r == h
    ensures |h| > HistoryLimit ==> |r| == HistoryLimit
    ensures forall k :: 0 <= k < |r| ==> r[k] == h[|h| - |r| + k]
  {
    if |h| > HistoryLimit then h[|h| - HistoryLimit..] else h
  }

  /** Push one entry, then keep the trailing window. */
  function AppendHistory(h: seq<HistoryEntry>, e: HistoryEntry): (r: seq<HistoryEntry>)
    ensures 0 < |r| <= HistoryLimit && r[|r| - 1] == e
    ensures |h| < HistoryLimit ==> r == h + [e]
    ensures |h| >= HistoryLimit ==> |r| == HistoryLimit
  {
    Window(h + [e])
  }

  /** Pushing entries one by one, each time keeping the window, leaves the
      trailing window of everything pushed. */
  function AppendAll(h: seq<HistoryEntry>, es: seq<HistoryEntry>): seq<HistoryEntry>
    decreases |es|
  {
    if es == [] then h else AppendAll(AppendHistory(h, es[0]), es[1..])
  }

  /** Any run of messages leaves exactly the last (at most 50) entries of the
      old history followed by the new ones. */
  lemma {:induction false} AppendAllIsWindow(h: seq<HistoryEntry>, es: seq<HistoryEntry>)
    requires es != []
    ensures AppendAll(h, es) == Window(h + es)
    decreases |es|
  {
    var a := AppendHistory(h, es[0]);
    if |es| == 1 {
      assert es == [es[0]];
    } else {
      calc {
        AppendAll(h, es);
        AppendAll(a, es[1..]);
        { AppendAllIsWindow(a, es[1..]); }
        Window(Window(h + [es[0]]) + es[1..]);
        { WindowOfWindowPlus(h + [es[0]], es[1..]); }
        Window(h + [es[0]] + es[1..]);
        { assert h + [es[0]] + es[1..] == h + es; }
        Window(h + es);
      }
    }
  }

  /** Trimming before appending a block loses nothing the window would keep. */
  lemma {:induction false} WindowOfWindowPlus(h: seq<HistoryEntry>, es: seq<HistoryEntry>)
    ensures Window(Window(h) + es) == Window(h + es)
    decreases |es|
  {
    if |h| > HistoryLimit {
      var w := Window(h);
      var a := w + es;
      var b := h + es;
      assert |a| >= HistoryLimit;
      forall k | 0 <= k < |Window(a)| ensures Window(a)[k] == Window(b)[k] {
        var p := |a| - |Window(a)| + k;
        assert Window(a)[k] == a[p];
        assert Window(b)[k] == b[|b| - |Window(b)| + k];
        if p < |w| {
          assert a[p] == w[p] == h[|h| - HistoryLimit + p];
        } else {
          assert a[p] == es[p - |w|];
        }
      }
    }
  }

  /** Fifty-one messages into an empty history leave fifty entries: the first
      one has dropped out. */
  lemma FiftyOneMessages(es: seq<HistoryEntry>)
    requires |es| == HistoryLimit + 1
    ensures AppendAll([], es) == es[1..]
  {
    AppendAllIsWindow([], es);
    assert [] + es == es;
  }

  // ---------------------------------------------------------------------------
  // The meal-time merge
  // ---------------------------------------------------------------------------

  const FoodWord: string := "אוכל"
  const MealWord: string := "ארוחה"
  const LunchWord: string := "Lunch"
  const MindfulLunch: string := "Mindful Lunch"
  const MindfulMealHebrew: string := "ארוחת צהריים מודעת"

  /** The events a meal-time change moves. */
  predicate IsMergeTarget(e: DailyEvent) {
    e.category == Nutrition || Contains(e.title, FoodWord) || Contains(e.title, MealWord)
    || Contains(e.title, LunchWord)
  }

  /** One step of the `forEach`: a target gets the new time and a fixed title,
      anything else is left as it is. */
  function Rewrite(e: DailyEvent, newTime: string): (r: DailyEvent)
    ensures !IsMergeTarget(e) ==> r == e
    ensures IsMergeTarget(e) ==> r.time == newTime
    ensures IsMergeTarget(e) ==> r.title == (if Contains(e.title, LunchWord) then MindfulLunch else MindfulMealHebrew)
    ensures r.description == e.description && r.category == e.category && r.duration == e.duration
  {
    if IsMergeTarget(e) then
      e.(time := newTime, title := if Contains(e.title, LunchWord) then MindfulLunch else MindfulMealHebrew)
    else e
  }

  /** The English replacement title holds `Lunch`. */
  lemma LunchTitleMatches()
    ensures Contains(MindfulLunch, LunchWord)
  {
    assert MindfulLunch[8..13] == LunchWord;
    ContainsAt(MindfulLunch, LunchWord, 8);
  }

  /** The Hebrew replacement title holds no `Lunch`. */
  lemma HebrewTitleDoesNotMatch()
    ensures !Contains(MindfulMealHebrew, LunchWord)
  {
    assert forall k :: 0 <= k < |MindfulMealHebrew| ==> MindfulMealHebrew[k] != 'L';
    NotContainsWithoutFirstChar(MindfulMealHebrew, LunchWord);
  }

  /** Rewriting a rewritten event changes nothing: a target that still matches
      already has the new time and gets the same title again. */
  lemma RewriteIdempotent(e: DailyEvent, newTime: string)
    ensures Rewrite(Rewrite(e, newTime), newTime) == Rewrite(e, newTime)
  {
    LunchTitleMatches();
    HebrewTitleDoesNotMatch();
  }

  /** The events after the `forEach`, in their original order. */
  function RewriteAll(events: seq<DailyEvent>, newTime: string): (r: seq<DailyEvent>)
    ensures |r| == |events|
    ensures forall k :: 0 <= k < |r| ==> r[k] == Rewrite(events[k], newTime)
  {
    seq(|events|, k requires 0 <= k < |events| => Rewrite(events[k], newTime))
  }

  /** The rewritten and re-sorted event list. */
  function Merge(events: seq<DailyEvent>, newTime: string): (r: seq<DailyEvent>)
    ensures |r| == |events|
    ensures multiset(r) == multiset(RewriteAll(events, newTime))
    ensures Sorted(r)
  {
    SortByTime(RewriteAll(events, newTime))
  }

  /** `updateUserPlan`: only a `meal_time_change` with a plan that has events
      changes anything, and then only the event list. */
  function UpdateUserPlan(plan: Option<Plan>, u: PlanUpdate): (r: Option<Plan>)
    ensures u.kind != MealTimeChange || plan.None? || plan.value.dailyEvents.None? ==> r == plan
    ensures u.kind == MealTimeChange && plan.Some? && plan.value.dailyEvents.Some? ==>
      r == Some(plan.value.(dailyEvents := Some(Merge(plan.value.dailyEvents.value, u.newTime))))
  {
    if u.kind == MealTimeChange && plan.Some? && plan.value.dailyEvents.Some? then
      Some(plan.value.(dailyEvents := Some(Merge(plan.value.dailyEvents.value, u.newTime))))
    else plan
  }

  /** Every event of a merged list comes from rewriting some input event. */
  lemma MergeElementsAreRewrites(events: seq<DailyEvent>, newTime: string, x: DailyEvent)
    requires x in Merge(events, newTime)
    ensures exists k :: 0 <= k < |events| && x == Rewrite(events[k], newTime)
  {
    var w := RewriteAll(events, newTime);
    SortSameElements(w, x);
    var k :| 0 <= k < |w| && w[k] == x;
  }

  /** After a merge every event the merge targets carries the new time. */
  lemma MergeMovesEveryTarget(events: seq<DailyEvent>, newTime: string)
    ensures forall x :: x in Merge(events, newTime) && IsMergeTarget(x) ==> x.time == newTime
  {
    forall x | x in Merge(events, newTime) && IsMergeTarget(x) ensures x.time == newTime {
      MergeElementsAreRewrites(events, newTime, x);
    }
  }

  /** Applying the same meal-time change twice is applying it once. */
  lemma {:induction false} MergeIdempotent(events: seq<DailyEvent>, newTime: string)
    ensures Merge(Merge(events, newTime), newTime) == Merge(events, newTime)
  {
    var once := Merge(events, newTime);
    var again := RewriteAll(once, newTime);
    forall k | 0 <= k < |once| ensures again[k] == once[k] {
      MergeElementsAreRewrites(events, newTime, once[k]);
      var j :| 0 <= j < |events| && once[k] == Rewrite(events[j], newTime);
      RewriteIdempotent(events[j], newTime);
    }
    assert again == once;
    SortOfSortedIsIdentity(once);
  }

  /** The same for the whole plan. */
  lemma UpdateUserPlanIdempotent(plan: Option<Plan>, u: PlanUpdate)
    ensures UpdateUserPlan(UpdateUserPlan(plan, u), u) == UpdateUserPlan(plan, u)
  {
    if u.kind == MealTimeChange && plan.Some? && plan.value.dailyEvents.Some? {
      MergeIdempotent(plan.value.dailyEvents.value, u.newTime);
    }
  }

  // ---------------------------------------------------------------------------
  // sendMessage
  // ---------------------------------------------------------------------------

  /** `!message || message.trim().length === 0`. */
  predicate BlankMessage(message: Option<string>) {
    message.None? || Trim(message.value) == []
  }

  /** The user document after a reply: the plan update applied, the state rule
      applied and the exchange pushed onto the history. */
  function ApplyReply(u: User, message: string, r: Reply): (v: User)
    ensures v.profile == u.profile
    ensures v.chatState == NextChatState(u.chatState, r)
    ensures v.chatHistory == AppendHistory(u.chatHistory, HistoryEntry(message, r.message, r.needsPlanUpdate))
    ensures r.planUpdate.None? ==> v.currentPlan == u.currentPlan
    ensures r.planUpdate.Some? ==> v.currentPlan == UpdateUserPlan(u.currentPlan, r.planUpdate.value)
  {
    var plan := if r.planUpdate.Some? then UpdateUserPlan(u.currentPlan, r.planUpdate.value) else u.currentPlan;
    User(u.profile, plan, AppendHistory(u.chatHistory, HistoryEntry(message, r.message, r.needsPlanUpdate)),
         NextChatState(u.chatState, r))
  }

  /** The error `this.updateUserPlan(...)` throws. The route registers
      `chatController.sendMessage` without binding it to the instance, so in
      the class's strict-mode code `this` is `undefined` (`routes/chat.js`). */
  const UnboundError: string := "Cannot read properties of undefined (reading 'updateUserPlan')"

  /** `sendMessage` as the route calls it. A blank message is refused before
      the user is looked up, a missing user is 404 and a throwing service is
      500. A reply carrying a plan update reaches `this.updateUserPlan` with
      `this` undefined: 500, nothing saved. Any other reply is applied and
      returned. */
  function SendMessage(message: Option<string>, user: Option<User>, service: Service): (res: SendResult)
    ensures BlankMessage(message) ==> res == Rejected(400, "Message is required")
    ensures !BlankMessage(message) && user.None? ==> res == Rejected(404, "User not found")
    ensures res.Sent? <==>
      !BlankMessage(message) && user.Some?
      && var e := service(message.value, user.value.profile, user.value.currentPlan,
                          user.value.chatState.GetOr(IdleState));
         e.Ok? && e.value.planUpdate.None?
    ensures res.Sent? ==> res == SendMessageBound(message, user, service)
    ensures res.Rejected? && res.status == 500 ==>
      var e := service(message.value, user.value.profile, user.value.currentPlan,
                       user.value.chatState.GetOr(IdleState));
      || (e.Err? && res.error == "Internal server error: " + e.message)
      || (e.Ok? && e.value.planUpdate.Some? && res.error == "Internal server error: " + UnboundError)
  {
    if BlankMessage(message) then Rejected(400, "Message is required")
    else if user.None? then Rejected(404, "User not found")
    else
      var u := user.value;
      match service(message.value, u.profile, u.currentPlan, u.chatState.GetOr(IdleState))
      case Err(e) => Rejected(500, "Internal server error: " + e)
      case Ok(r) =>
        if r.planUpdate.Some? then Rejected(500, "Internal server error: " + UnboundError)
        else Sent(r.message, r.needsPlanUpdate, ApplyReply(u, message.value, r))
  }

  /** `sendMessage` with `this` bound to the controller, as its code evidently
      intends: a blank message is 400, a missing user 404, a throwing service
      500 with nothing saved, and otherwise the reply, plan update included, is
      applied and returned. */
  function SendMessageBound(message: Option<string>, user: Option<User>, service: Service): (res: SendResult)
    ensures BlankMessage(message) ==> res == Rejected(400, "Message is required")
    ensures !BlankMessage(message) && user.None? ==> res == Rejected(404, "User not found")
    ensures res.Sent? <==>
      !BlankMessage(message) && user.Some?
      && service(message.value, user.value.profile, user.value.currentPlan, user.value.chatState.GetOr(IdleState)).Ok?
    ensures res.Sent? ==>
      var r := service(message.value, user.value.profile, user.value.currentPlan,
                       user.value.chatState.GetOr(IdleState)).value;
      && res.response == r.message && res.needsPlanUpdate == r.needsPlanUpdate
      && res.user == ApplyReply(user.value, message.value, r)
    ensures res.Rejected? && res.status == 500 ==>
      var e := service(message.value, user.value.profile, user.value.currentPlan,
                       user.value.chatState.GetOr(IdleState));
      e.Err? && res.error == "Internal server error: " + e.message
  {
    if BlankMessage(message) then Rejected(400, "Message is required")
    else if user.None? then Rejected(404, "User not found")
    else
      var u := user.value;
      match service(message.value, u.profile, u.currentPlan, u.chatState.GetOr(IdleState))
      case Err(e) => Rejected(500, "Internal server error: " + e)
      case Ok(r) => Sent(r.message, r.needsPlanUpdate, ApplyReply(u, message.value, r))
  }

  /** The two handlers part ways exactly on a reply that carries a plan update:
      the routed one answers 500, the bound one merges the update. */
  lemma BindingMattersOnlyForPlanUpdates(message: Option<string>, u: User, service: Service)
    requires !BlankMessage(message)
    ensures var e := service(message.value, u.profile, u.currentPlan, u.chatState.GetOr(IdleState));
      (SendMessage(message, Some(u), service) != SendMessageBound(message, Some(u), service))
        <==> e.Ok? && e.value.planUpdate.Some?
  {
  }

  /** What the controller keeps true of every stored user between requests:
      a history within the bound and a follow-up state the services can read. */
  predicate UserInvariant(u: User) {
    |u.chatHistory| <= HistoryLimit && StoredOk(u.chatState)
  }

  /** A request that reaches the service keeps the invariant, under either
      handler, as long as the service only hands back readable states. */
  lemma SendMessageKeepsInvariant(message: Option<string>, u: User, service: Service)
    requires UserInvariant(u)
    requires var s := SendMessageBound(message, Some(u), service);
      s.Sent? ==>
        var r := service(message.value, u.profile, u.currentPlan, u.chatState.GetOr(IdleState)).value;
        r.chatState.Some? ==> WellFormed(r.chatState.value)
    ensures var s := SendMessageBound(message, Some(u), service); s.Sent? ==> UserInvariant(s.user)
    ensures var s := SendMessage(message, Some(u), service); s.Sent? ==> UserInvariant(s.user)
  {
    var s := SendMessageBound(message, Some(u), service);
    if s.Sent? {
      var r := service(message.value, u.profile, u.currentPlan, u.chatState.GetOr(IdleState)).value;
      NextChatStateKeepsStoredOk(u.chatState, r);
    }
  }
}

=== FILE: chat_service.dfy ===
/** The current chat service (`chatService.js`): it always asks the remote model,
    recognises a plan-update request by the tag `[UPDATE_PLAN: <instruction>]`
    in the reply, and answers from a keyword fallback when the call fails. The
    remote call is the parameter `remote`: its text, or the thrown error's message. */
module ChatService {
  import opened Base
  import opened Text
  import opened Events
  import opened Profiles
  import opened ChatTypes

  // ---------------------------------------------------------------------------
  // The tag /\[UPDATE_PLAN: (.*?)\]/
  // ---------------------------------------------------------------------------

  const TagOpen: string := "[UPDATE_PLAN: "

  /** The ranges `[k, j)` free of line terminators (`.` matches anything else). */
  predicate NoLineTerminator(t: string, k: int, j: int)
    requires 0 <= k && j <= |t|
  {
    forall m :: k <= m < j ==> !IsLineTerminator(t[m])
  }

  /** The pattern matches `t[i..j + 1]`: the opening text at `i`, then any
      characters but line terminators, then `]` at `j`. */
  predicate TagMatch(t: string, i: int, j: int) {
    && OccursAt(t, TagOpen, i)
    && i + |TagOpen| <= j < |t|
    && t[j] == ']'
    && NoLineTerminator(t, i + |TagOpen|, j)
  }

  /** The lazy `(.*?)\]` from `k`: the first `]` before any line terminator. */
  function ScanClose(t: string, k: nat): (r: Option<nat>)
    requires k <= |t|
    ensures r.Some? ==> k <= r.value < |t| && t[r.value] == ']' && NoLineTerminator(t, k, r.value)
    ensures r.Some? ==> forall m :: k <= m < r.value ==> t[m] != ']'
    ensures r.None? ==> forall j :: k <= j < |t| && t[j] == ']' ==> !NoLineTerminator(t, k, j)
    decreases |t| - k
  {
    if k == |t| || IsLineTerminator(t[k]) then None
    else if t[k] == ']' then Some(k)
    else
      var r := ScanClose(t, k + 1);
      assert forall j :: k + 1 <= j < |t| && NoLineTerminator(t, k, j) ==> NoLineTerminator(t, k + 1, j);
      r
  }

  /** The leftmost match starting at or after `i`, with its lazy closing bracket. */
  function FindTagFrom(t: string, i: nat): (r: Option<(nat, nat)>)
    ensures r.Some? ==> i <= r.value.0 && TagMatch(t, r.value.0, r.value.1)
    ensures r.Some? ==> forall j :: j < r.value.1 ==> !TagMatch(t, r.value.0, j)
    ensures r.Some? ==> forall a, j :: i <= a < r.value.0 ==> !TagMatch(t, a, j)
    ensures r.None? ==> forall a, j :: i <= a ==> !TagMatch(t, a, j)
    decreases |t| - i
  {
    if i + |TagOpen| > |t| then None
    else if t[i..i + |TagOpen|] == TagOpen then
      match ScanClose(t, i + |TagOpen|)
      case Some(j) => Some((i, j))
      case None => FindTagFrom(t, i + 1)
    else FindTagFrom(t, i + 1)
  }

  /** `text.match(/\[UPDATE_PLAN: (.*?)\]/)`: the leftmost, lazily closed match. */
  function FindTag(t: string): (r: Option<(nat, nat)>)
    ensures r.Some? ==> TagMatch(t, r.value.0, r.value.1)
  {
    FindTagFrom(t, 0)
  }

  /** The match found is the leftmost one, closed at its earliest `]`, and
      there is none exactly when the pattern matches nowhere. */
  lemma FindTagLeftmost(t: string)
    ensures var r := FindTag(t);
      r.Some? ==> forall a, j :: (a < r.value.0 || (a == r.value.0 && j < r.value.1)) ==> !TagMatch(t, a, j)
    ensures FindTag(t).None? <==> forall a, j :: !TagMatch(t, a, j)
  {
  }

  /** The captured instruction `updateMatch[1]`. */
  function Instruction(t: string, m: (nat, nat)): string
    requires TagMatch(t, m.0, m.1)
  {
    t[m.0 + |TagOpen|..m.1]
  }

  /** `text.replace(updateMatch[0], '')`: a string pattern, so the first
      literal occurrence of the matched text is cut out. */
  function RemoveFirst(t: string, piece: string): (r: string)
    ensures IndexOf(t, piece).None? ==> r == t
    ensures IndexOf(t, piece).Some? ==>
      var k := IndexOf(t, piece).value; r == t[..k] + t[k + |piece|..]
  {
    match IndexOf(t, piece)
    case Some(k) => t[..k] + t[k + |piece|..]
    case None => t
  }

  /** The literal `replace` cuts out exactly the regular-expression match: an
      earlier copy of the matched text would itself be an earlier match. */
  lemma {:induction false} ReplaceHitsTheMatch(t: string)
    requires FindTag(t).Some?
    ensures var m := FindTag(t).value; IndexOf(t, t[m.0..m.1 + 1]) == Some(m.0)
  {
    var m := FindTag(t).value;
    FindTagLeftmost(t);
    var piece := t[m.0..m.1 + 1];
    assert OccursAt(t, piece, m.0);
    var k := IndexOf(t, piece).value;
    CopyOfMatchIsMatch(t, m.0, m.1, k);
  }

  /** Cutting out the first literal copy of the matched text leaves the text
      before and after the match. */
  lemma CutTheMatch(t: string)
    requires FindTag(t).Some?
    ensures var m := FindTag(t).value;
      RemoveFirst(t, t[m.0..m.1 + 1]) == t[..m.0] + t[m.1 + 1..]
  {
    var m := FindTag(t).value;
    var piece := t[m.0..m.1 + 1];
    ReplaceHitsTheMatch(t);
    assert IndexOf(t, piece) == Some(m.0);
    assert m.0 + |piece| == m.1 + 1;
  }

  /** Wherever the text of a match occurs again, the pattern matches there too. */
  lemma CopyOfMatchIsMatch(t: string, i: nat, j: nat, k: nat)
    requires TagMatch(t, i, j)
    requires OccursAt(t, t[i..j + 1], k)
    ensures TagMatch(t, k, k + (j - i))
  {
    var piece := t[i..j + 1];
    forall n | 0 <= n < |piece| ensures t[k + n] == piece[n] {
      assert t[k + n] == t[k..k + |piece|][n];
    }
    assert t[k..k + |TagOpen|] == piece[..|TagOpen|] == TagOpen;
    forall n | k + |TagOpen| <= n < k + (j - i) ensures !IsLineTerminator(t[n]) {
      assert t[n] == piece[n - k];
    }
    assert t[k + (j - i)] == piece[j - i];
  }

  // ---------------------------------------------------------------------------
  // getFallbackResponse
  // ---------------------------------------------------------------------------

  /** The keywords as the file spells them: the UTF-8 bytes of the Hebrew words
      for "thanks", "thanks a lot" and "help" read back as Windows-1252. */
  const ThanksMojibake: string := "\U{00D7}\U{00AA}\U{00D7}\U{2022}\U{00D7}\U{201C}\U{00D7}\U{201D}"
  const ThanksMuchMojibake: string :=
    "\U{00D7}\U{00AA}\U{00D7}\U{2022}\U{00D7}\U{201C}\U{00D7}\U{201D} \U{00D7}\U{00A8}\U{00D7}\U{2018}\U{00D7}\U{201D}"
  const HelpMojibake: string := "\U{00D7}\U{00A2}\U{00D7}\U{2013}\U{00D7}\U{00A8}\U{00D7}\U{201D}"

  /** The same words in Hebrew. */
  const ThanksHebrew: string := "תודה"
  const ThanksMuchHebrew: string := "תודה רבה"
  const HelpHebrew: string := "עזרה"

  /** Error messages that point at the network filter. */
  predicate NetworkBlockedError(error: string) {
    Contains(error, "418") || Contains(error, "NetFree")
  }

  /** The fallback chain for given thanks and help keywords: the network-filter
      error, then thanks, then help or `?`, then the generic reply. */
  function FallbackWith(message: string, error: string, thanks: string, thanksMuch: string, help: string): (r: Reply)
    ensures !r.needsPlanUpdate && r.chatState.None? && !r.clearChatState && r.planUpdate.None?
    ensures r.message.Canned?
    ensures r.message.template.NetworkBlocked? <==> NetworkBlockedError(error)
    ensures var m := Lower(message);
      r.message.template.Thanks? <==>
        !NetworkBlockedError(error) && (Contains(m, thanks) || Contains(m, thanksMuch))
    ensures var m := Lower(message);
      r.message.template.Help? <==>
        !NetworkBlockedError(error) && !(Contains(m, thanks) || Contains(m, thanksMuch))
        && (Contains(m, help) || Contains(m, "?"))
    ensures r.message.template in {NetworkBlocked, Thanks, Help, Generic}
  {
    var m := Lower(message);
    if NetworkBlockedError(error) then Plain(Canned(NetworkBlocked))
    else if Contains(m, thanks) || Contains(m, thanksMuch) then Plain(Canned(Thanks))
    else if Contains(m, help) || Contains(m, "?") then Plain(Canned(Help))
    else Plain(Canned(Generic))
  }

  /** `getFallbackResponse` as written, with the mis-encoded keywords. */
  function FallbackResponse(message: string, error: string): (r: Reply)
    ensures !r.needsPlanUpdate && KeepsState(r) && r.planUpdate.None?
    ensures r.message.Canned? && r.message.template in {NetworkBlocked, Thanks, Help, Generic}
  {
    FallbackWith(message, error, ThanksMojibake, ThanksMuchMojibake, HelpMojibake)
  }

  /** `getFallbackResponse` with the keywords spelled as intended. */
  function FallbackResponseIntended(message: string, error: string): (r: Reply)
    ensures !r.needsPlanUpdate && KeepsState(r) && r.planUpdate.None?
    ensures !NetworkBlockedError(error) && Contains(Lower(message), ThanksHebrew) ==>
      r.message == Canned(Thanks)
    ensures (!NetworkBlockedError(error) && !Contains(Lower(message), ThanksHebrew)
             && Contains(Lower(message), HelpHebrew)) ==> r.message == Canned(Help)
  {
    ThanksMuchHoldsThanks(Lower(message));
    FallbackWith(message, error, ThanksHebrew, ThanksMuchHebrew, HelpHebrew)
  }

  /** "Thanks a lot" in Hebrew starts with "thanks". */
  lemma ThanksMuchHoldsThanks(s: string)
    ensures Contains(s, ThanksMuchHebrew) ==> Contains(s, ThanksHebrew)
  {
    if Contains(s, ThanksMuchHebrew) {
      assert ThanksMuchHebrew == ThanksHebrew + " רבה";
      ContainsPrefixOf(s, ThanksHebrew, " רבה");
    }
  }

  /** Every mis-encoded keyword starts with the character `×`, which Hebrew
      text never holds: a message without it gets neither the thanks reply nor,
      unless it has a `?`, the help reply. */
  lemma MojibakeNeverMatchesHebrew(message: string, error: string)
    requires forall k :: 0 <= k < |message| ==> message[k] != '\U{00D7}'
    ensures FallbackResponse(message, error).message != Canned(Thanks)
    ensures !Contains(Lower(message), "?") ==> FallbackResponse(message, error).message != Canned(Help)
  {
    var m := Lower(message);
    assert forall k :: 0 <= k < |m| ==> m[k] != '\U{00D7}';
    NotContainsWithoutFirstChar(m, ThanksMojibake);
    NotContainsWithoutFirstChar(m, ThanksMuchMojibake);
    NotContainsWithoutFirstChar(m, HelpMojibake);
  }

  /** A quota error does not point at the network filter. */
  lemma QuotaErrorNotBlocked()
    ensures !NetworkBlockedError("quota exceeded")
  {
    var e := "quota exceeded";
    assert forall k :: 0 <= k < |e| ==> e[k] != '4' && e[k] != 'N';
    NotContainsWithoutFirstChar(e, "418");
    NotContainsWithoutFirstChar(e, "NetFree");
  }

  /** Hebrew "thanks" is its own lower case and holds no `?`. */
  lemma ThanksLowered()
    ensures Lower(ThanksHebrew) == ThanksHebrew
    ensures Contains(Lower(ThanksHebrew), ThanksHebrew)
    ensures !Contains(Lower(ThanksHebrew), "?")
    ensures forall k :: 0 <= k < |ThanksHebrew| ==> ThanksHebrew[k] != '\U{00D7}'
  {
    var m := Lower(ThanksHebrew);
    assert m == ThanksHebrew;
    assert forall k :: 0 <= k < |m| ==> m[k] != '?';
    NotContainsWithoutFirstChar(m, "?");
    ContainsSelfAndEmpty(m);
  }

  /** The smallest witness: "thanks" in Hebrew gets the generic reply as
      written and the thanks reply as intended. */
  lemma HebrewThanksExample()
    ensures FallbackResponse(ThanksHebrew, "quota exceeded").message == Canned(Generic)
    ensures FallbackResponseIntended(ThanksHebrew, "quota exceeded").message == Canned(Thanks)
  {
    ThanksLowered();
    QuotaErrorNotBlocked();
    MojibakeNeverMatchesHebrew(ThanksHebrew, "quota exceeded");
  }

  // ---------------------------------------------------------------------------
  // handleUserMessage
  // ---------------------------------------------------------------------------

  /** A reply and the profile after the call (the service writes the captured
      instruction into `profile.planModifications`). */
  datatype Handled = Handled(reply: Reply, profile: Profile)

  /** `handleUserMessage`. The incoming follow-up state plays no part, and the
      reply never carries `chatState`, `clearChatState` or `planUpdate`. */
  function HandleUserMessage(message: string, profile: Profile, plan: Option<Plan>,
                             state: ChatState, remote: Result<string>): (h: Handled)
    ensures KeepsState(h.reply) && h.reply.planUpdate.None?
    ensures h.reply.needsPlanUpdate <==> remote.Ok? && FindTag(remote.value).Some?
    ensures remote.Ok? && FindTag(remote.value).None? ==>
      h == Handled(Plain(Free(remote.value)), profile)
    ensures remote.Ok? && FindTag(remote.value).Some? ==>
      var t := remote.value;
      var m := FindTag(t).value;
      && h.reply.message == Free(Trim(t[..m.0] + t[m.1 + 1..]))
      && h.profile == profile.(planModifications := Some(Instruction(t, m)))
    ensures remote.Err? ==> h == Handled(FallbackResponse(message, remote.message), profile)
  {
    match remote
    case Ok(text) =>
      if FindTag(text).Some? then
        var m := FindTag(text).value;
        var cut := RemoveFirst(text, text[m.0..m.1 + 1]);
        CutTheMatch(text);
        assert cut == text[..m.0] + text[m.1 + 1..];
        Handled(Reply(Free(Trim(cut)), true, None, false, None),
                profile.(planModifications := Some(Instruction(text, m))))
      else Handled(Plain(Free(text)), profile)
    case Err(error) => Handled(FallbackResponse(message, error), profile)
  }

  /** The captured instruction is the text up to the first `]`: it holds no
      `]` and no line terminator. */
  lemma InstructionIsBracketFree(t: string)
    requires FindTag(t).Some?
    ensures var s := Instruction(t, FindTag(t).value);
      forall n :: 0 <= n < |s| ==> s[n] != ']' && !IsLineTerminator(s[n])
  {
    var m := FindTag(t).value;
    FindTagLeftmost(t);
    var s := Instruction(t, m);
    forall n | 0 <= n < |s| ensures s[n] != ']' && !IsLineTerminator(s[n]) {
      var p := m.0 + |TagOpen| + n;
      assert s[n] == t[p];
      if t[p] == ']' {
        assert TagMatch(t, m.0, p);
      }
    }
  }

  /** The tagging convention the prompt asks the model for: a reply ending in
      `[UPDATE_PLAN: <instruction>]` is flagged, hands back the instruction and
      shows the rest of the reply trimmed, provided the visible part has no `[`
      and the instruction no `]` or line break. */
  lemma {:induction false} TagRoundTrip(message: string, profile: Profile, plan: Option<Plan>, state: ChatState,
                                        body: string, instruction: string)
    requires forall n :: 0 <= n < |body| ==> body[n] != '['
    requires forall n :: 0 <= n < |instruction| ==> instruction[n] != ']' && !IsLineTerminator(instruction[n])
    ensures var h := HandleUserMessage(message, profile, plan, state, Ok(body + TagOpen + instruction + "]"));
      && h.reply.needsPlanUpdate
      && h.reply.message == Free(Trim(body))
      && h.profile.planModifications == Some(instruction)
  {
    var t := body + TagOpen + instruction + "]";
    var i := |body|;
    var j := |body| + |TagOpen| + |instruction|;
    assert t[i..i + |TagOpen|] == TagOpen;
    assert t[j] == ']';
    forall n | i + |TagOpen| <= n < j ensures t[n] == instruction[n - i - |TagOpen|] {}
    assert TagMatch(t, i, j);
    forall a | 0 <= a < i ensures !OccursAt(t, TagOpen, a) {
      assert t[a] == body[a];
      assert TagOpen[0] == '[';
    }
    FindTagLeftmost(t);
    var m := FindTag(t).value;
    assert m.0 == i;
    forall n | i + |TagOpen| <= n < j ensures !TagMatch(t, i, n) {
      assert t[n] == instruction[n - i - |TagOpen|];
    }
    assert m.1 == j;
    assert t[..i] == body && t[j + 1..] == [];
    assert Instruction(t, m) == instruction;
    assert t[..m.0] + t[m.1 + 1..] == body;
  }

  /** The stored follow-up state never influences this service's reply. */
  lemma IgnoresChatState(message: string, profile: Profile, plan: Option<Plan>, s1: ChatState, s2: ChatState,
                         remote: Result<string>)
    ensures HandleUserMessage(message, profile, plan, s1, remote) == HandleUserMessage(message, profile, plan, s2, remote)
  {
  }
}

=== FILE: chat_types.dfy ===
/** What the chat services hand back to the controller, the follow-up state the
    controller stores between messages, and a chat-history entry. */
module ChatTypes {
  import opened Base
  import opened Events

  /** The one follow-up context any service opens. */
  const MealTimeChange: string := "meal_time_change"

  /** The data a follow-up keeps between messages: `data: { originalEvents }`. */
  datatype ChatData = ChatData(originalEvents: seq<DailyEvent>)

  /** The stored follow-up record `{ isWaitingForResponse, context, data }`. */
  datatype ChatState = ChatState(
    isWaitingForResponse: bool,
    context: Option<string>,
    data: Option<ChatData>)

  /** The idle record: both the `{ false, null, null }` a cleared state is
      overwritten with and the `{ isWaitingForResponse: false }` the controller
      passes when nothing is stored (`null` and `undefined` are both `None`). */
  const IdleState: ChatState := ChatState(false, None, None)

  /** The state-machine reading of a record: idle, or awaiting a follow-up in a context. */
  datatype Phase = Idle | Awaiting(context: Option<string>)

  function PhaseOf(s: ChatState): (p: Phase)
    ensures p.Idle? <==> !s.isWaitingForResponse
  {
    if s.isWaitingForResponse then Awaiting(s.context) else Idle
  }

  /** A waiting `meal_time_change` record carries its data: the only records
      the services create have this shape, and the resolver reads the data. */
  predicate WellFormed(s: ChatState) {
    s.isWaitingForResponse && s.context == Some(MealTimeChange) ==> s.data.Some?
  }

  /** `planUpdate: { type, newTime, originalEvents }`. */
  datatype PlanUpdate = PlanUpdate(kind: string, newTime: string, originalEvents: seq<DailyEvent>)

  /** The canned replies, each carrying the values its template embeds. */
  datatype Canned =
    | MealTimePrompt(mealEvents: seq<DailyEvent>)
    | PlanOverview(events: seq<DailyEvent>)
    | WaterAdvice(weight: real)
    | SleepAdvice(bedtime: string, wakeTime: string)
    | ExerciseAdvice(activityLevel: string)
    | MealTimeConfirmed(newTime: string)
    | TimeNotUnderstood
    | StartOver
    | Thanks
    | Help
    | Generic
    | NetworkBlocked

  /** A reply's text: either free text from the remote model or a canned template. */
  datatype ReplyText = Free(text: string) | Canned(template: Canned)

  /** `{ message, needsPlanUpdate, chatState?, clearChatState?, planUpdate? }`;
      an absent `clearChatState` is `false`. */
  datatype Reply = Reply(
    message: ReplyText,
    needsPlanUpdate: bool,
    chatState: Option<ChatState>,
    clearChatState: bool,
    planUpdate: Option<PlanUpdate>)

  /** A reply that only talks: no plan update, no state change. */
  function Plain(message: ReplyText): (r: Reply)
    ensures r.message == message && !r.needsPlanUpdate
    ensures r.chatState.None? && !r.clearChatState && r.planUpdate.None?
  {
    Reply(message, false, None, false, None)
  }

  /** A reply that leaves the stored follow-up state as it is. */
  predicate KeepsState(r: Reply) {
    r.chatState.None? && !r.clearChatState
  }

  /** `{ userMessage, aiResponse, needsPlanUpdate }`. */
  datatype HistoryEntry = HistoryEntry(userMessage: string, aiResponse: ReplyText, needsPlanUpdate: bool)
}

=== FILE: clock_order.dfy ===
/** Time strings against clock times. The fallback plan sorts events by their
    time strings, and the profile schema admits one-digit hours such as "7:00".
    On zero-padded times string order is clock order; on "7:00" it is not, so
    the morning event lands after dinner. Padding the profile's times before
    building the plan restores clock order. */
module ClockOrder {
  import opened Base
  import opened Text
  import opened Events
  import opened Profiles
  import opened UserRoutes
  import opened GeminiService

  /** Minutes since midnight of a valid time. */
  function Minutes(s: string): (n: nat)
    requires ValidTime(s)
    ensures n < 24 * 60
  {
    ValidTimeIsClockTime(s);
    60 * TimeHour(s) + TimeMinute(s)
  }

  /** A valid time written `HH:MM`. */
  predicate Padded(s: string) {
    ValidTime(s) && |s| == 5
  }

  /** String order on two `HH:MM` strings compares the four digits in turn. */
  lemma LexLeOfPadded(a: string, b: string)
    requires |a| == 5 && |b| == 5 && a[2] == ':' && b[2] == ':'
    ensures LexLe(a, b) <==>
      a[0] < b[0] || (a[0] == b[0] && (a[1] < b[1] || (a[1] == b[1] &&
        (a[3] < b[3] || (a[3] == b[3] && a[4] <= b[4])))))
  {
    var a1, b1 := a[1..], b[1..];
    var a2, b2 := a[2..], b[2..];
    var a3, b3 := a[3..], b[3..];
    var a4, b4 := a[4..], b[4..];
    assert a1[1..] == a2 && b1[1..] == b2;
    assert a2[1..] == a3 && b2[1..] == b3;
    assert a3[1..] == a4 && b3[1..] == b4;
    assert a4[1..] == [] && b4[1..] == [];
    assert LexLe(a4, b4) <==> a[4] <= b[4] by {
      assert a4[0] == a[4] && b4[0] == b[4];
    }
    assert LexLe(a3, b3) <==> a[3] < b[3] || (a[3] == b[3] && LexLe(a4, b4)) by {
      assert a3[0] == a[3] && b3[0] == b[3];
    }
    assert LexLe(a2, b2) <==> LexLe(a3, b3) by {
      assert a2[0] == ':' == b2[0];
    }
    assert LexLe(a1, b1) <==> a[1] < b[1] || (a[1] == b[1] && LexLe(a2, b2)) by {
      assert a1[0] == a[1] && b1[0] == b[1];
    }
  }

  /** On `HH:MM` strings, string order is clock order. */
  lemma PaddedOrderIsClockOrder(a: string, b: string)
    requires Padded(a) && Padded(b)
    ensures LexLe(a, b) <==> Minutes(a) <= Minutes(b)
  {
    LexLeOfPadded(a, b);
    var x0, x1, x3, x4 := DigitValue(a[0]), DigitValue(a[1]), DigitValue(a[3]), DigitValue(a[4]);
    var y0, y1, y3, y4 := DigitValue(b[0]), DigitValue(b[1]), DigitValue(b[3]), DigitValue(b[4]);
    assert x3 < 6 && y3 < 6;
    assert Minutes(a) == 600 * x0 + 60 * x1 + 10 * x3 + x4;
    assert Minutes(b) == 600 * y0 + 60 * y1 + 10 * y3 + y4;
  }

  /** `HH:MM` for any valid time; other strings are left alone. */
  function PadTime(s: string): (r: string)
    ensures ValidTime(s) ==> Padded(r) && Minutes(r) == Minutes(s)
    ensures ValidTime(s) && |s| == 5 ==> r == s
    ensures !ValidTime(s) ==> r == s
  {
    if ValidTime(s) then
      ValidTimeIsClockTime(s);
      ClockTimeIsValid(TimeHour(s), TimeMinute(s), true);
      Render(TimeHour(s), TimeMinute(s), true)
    else s
  }

  /** The profile with its wake, bed and work-end times padded. */
  function PadProfile(p: Profile): (q: Profile)
    ensures q.preferences == p.preferences && q.activityLevel == p.activityLevel
  {
    p.(sleepSchedule := SleepSchedule(PadTime(p.sleepSchedule.bedtime), PadTime(p.sleepSchedule.wakeTime)),
       workSchedule := p.workSchedule.(endTime := PadTime(p.workSchedule.endTime)))
  }

  /** The events with valid times are in clock order. */
  predicate Chronological(es: seq<DailyEvent>) {
    forall i, j :: 0 <= i < j < |es| && ValidTime(es[i].time) && ValidTime(es[j].time) ==>
      Minutes(es[i].time) <= Minutes(es[j].time)
  }

  /** A list sorted by time string whose times are all `HH:MM` is in clock order. */
  lemma SortedPaddedIsChronological(es: seq<DailyEvent>)
    requires Sorted(es)
    requires forall k :: 0 <= k < |es| ==> Padded(es[k].time)
    ensures Chronological(es)
  {
    forall i, j | 0 <= i < j < |es| ensures Minutes(es[i].time) <= Minutes(es[j].time) {
      PaddedOrderIsClockOrder(es[i].time, es[j].time);
    }
  }

  /** A profile whose times the schema accepts (the work end may be absent). */
  predicate SchemaTimes(p: Profile) {
    ValidTime(p.sleepSchedule.wakeTime) && ValidTime(p.sleepSchedule.bedtime)
    && (p.workSchedule.endTime == "" || ValidTime(p.workSchedule.endTime))
  }

  /** Every event of the plan of a padded profile has an `HH:MM` time. */
  lemma PaddedProfileEvents(q: Profile, e: DailyEvent)
    requires Padded(q.sleepSchedule.wakeTime) && Padded(q.sleepSchedule.bedtime)
    requires q.workSchedule.endTime == "" || Padded(q.workSchedule.endTime)
    requires Origin(q, e)
    ensures Padded(e.time)
  {
    assert Padded(Breakfast.time) && Padded(LunchBreak.time) && Padded(Dinner.time);
    assert Padded(ExerciseTime(q)) by {
      assert Padded("17:00");
    }
  }

  /** Padding a profile with schema times leaves `HH:MM` times (or no work end). */
  lemma PadProfilePadded(p: Profile)
    requires SchemaTimes(p)
    ensures var q := PadProfile(p);
      && Padded(q.sleepSchedule.wakeTime) && Padded(q.sleepSchedule.bedtime)
      && (q.workSchedule.endTime == "" || Padded(q.workSchedule.endTime))
  {
    if p.workSchedule.endTime == "" {
      assert !ValidTime("");
    }
  }

  /** The fallback plan built from the padded times. */
  function FallbackPlanChronological(p: Profile): (r: Plan)
    requires SchemaTimes(p)
    ensures r.dailyEvents.Some?
    ensures forall k :: 0 <= k < |r.dailyEvents.value| ==> Padded(r.dailyEvents.value[k].time)
    ensures forall k :: 0 <= k < |r.dailyEvents.value| ==> ValidTime(r.dailyEvents.value[k].time)
    ensures Chronological(r.dailyEvents.value)
  {
    PaddedPlanTimes(PadProfile(p));
    PadProfilePadded(p);
    FallbackPlan(PadProfile(p))
  }

  /** The fallback plan of a padded profile has `HH:MM` times only, so it is in
      clock order. */
  lemma PaddedPlanTimes(q: Profile)
    requires Padded(q.sleepSchedule.wakeTime) && Padded(q.sleepSchedule.bedtime)
    requires q.workSchedule.endTime == "" || Padded(q.workSchedule.endTime)
    ensures forall k :: 0 <= k < |FallbackPlan(q).dailyEvents.value| ==> Padded(FallbackPlan(q).dailyEvents.value[k].time)
    ensures Chronological(FallbackPlan(q).dailyEvents.value)
  {
    var es := FallbackPlan(q).dailyEvents.value;
    forall k | 0 <= k < |es| ensures Padded(es[k].time) {
      FallbackMembers(q, es[k]);
      PaddedProfileEvents(q, es[k]);
    }
    SortedPaddedIsChronological(es);
  }

  /** For profiles already written `HH:MM` the correction changes nothing. */
  lemma ChronologicalAgreesOnPaddedProfiles(p: Profile)
    requires Padded(p.sleepSchedule.wakeTime) && Padded(p.sleepSchedule.bedtime)
    requires p.workSchedule.endTime == "" || Padded(p.workSchedule.endTime)
    ensures FallbackPlanChronological(p) == FallbackPlan(p)
  {
    assert PadProfile(p) == p;
  }

  /** A profile the schema accepts with a wake time of "7:00". */
  const EarlyRiser: Profile := Profile(
    30.0, 170.0, 70.0, "moderate",
    WorkSchedule("09:00", "17:00", []),
    SleepSchedule("23:00", "7:00"),
    [],
    Preferences(true, true, false, false, false, false, false),
    None)

  /** The pushed events of the example: hydration first. */
  lemma EarlyRiserPushed()
    ensures PushedEvents(EarlyRiser) == [HydrationEvent(EarlyRiser), Breakfast, LunchBreak, Dinner]
  {
  }

  /** The three meals are already in string order. */
  lemma MealsSorted()
    ensures SortByTime([Breakfast, LunchBreak, Dinner]) == [Breakfast, LunchBreak, Dinner]
  {
    assert LexLe("13:00", "19:30") && LexLe("08:30", "13:00") && LexLe("08:30", "19:30");
    SortOfSortedIsIdentity([Breakfast, LunchBreak, Dinner]);
  }

  /** "7:00" sorts after each meal time, so it is inserted last. */
  lemma EarlyRiserInsertedLast()
    ensures Insert(HydrationEvent(EarlyRiser), [Breakfast, LunchBreak, Dinner])
      == [Breakfast, LunchBreak, Dinner, HydrationEvent(EarlyRiser)]
  {
    var h := HydrationEvent(EarlyRiser);
    assert !LexLe("7:00", "08:30") && !LexLe("7:00", "13:00") && !LexLe("7:00", "19:30");
    assert [Breakfast, LunchBreak, Dinner][1..] == [LunchBreak, Dinner];
    assert [LunchBreak, Dinner][1..] == [Dinner];
    assert Insert(h, [Dinner]) == [Dinner, h];
    assert Insert(h, [LunchBreak, Dinner]) == [LunchBreak, Dinner, h];
  }

  /** The example's plan as written: the meals, then the 7:00 hydration. */
  lemma EarlyRiserPlan()
    ensures FallbackPlan(EarlyRiser).dailyEvents.value == [Breakfast, LunchBreak, Dinner, HydrationEvent(EarlyRiser)]
  {
    var h := HydrationEvent(EarlyRiser);
    EarlyRiserPushed();
    MealsSorted();
    EarlyRiserInsertedLast();
    var pushed := [h, Breakfast, LunchBreak, Dinner];
    assert pushed[1..] == [Breakfast, LunchBreak, Dinner];
    assert SortByTime(pushed) == Insert(h, SortByTime(pushed[1..]));
  }

  /** As written, the 7:00 hydration event comes last, after the 19:30 dinner:
      the plan is not in clock order, although the schema accepts the profile. */
  lemma OneDigitHourSortsLate()
    ensures SchemaTimes(EarlyRiser)
    ensures !Chronological(FallbackPlan(EarlyRiser).dailyEvents.value)
  {
    EarlyRiserSchemaTimes();
    EarlyRiserPlan();
    var es := FallbackPlan(EarlyRiser).dailyEvents.value;
    DinnerBeforeSevenNotChronological(es);
  }

  /** The example's times match the schema pattern. */
  lemma EarlyRiserSchemaTimes()
    ensures SchemaTimes(EarlyRiser)
  {
    assert ValidTime("7:00") && ValidTime("23:00") && ValidTime("17:00");
  }

  /** A list with 19:30 followed by 7:00 is out of clock order. */
  lemma DinnerBeforeSevenNotChronological(es: seq<DailyEvent>)
    requires |es| == 4 && es[2] == Dinner && es[3].time == "7:00"
    ensures !Chronological(es)
  {
    ExampleMinutes();
  }

  /** The clock values of the example's times. */
  lemma ExampleMinutes()
    ensures ValidTime("08:30") && ValidTime("13:00") && ValidTime("19:30") && ValidTime("7:00")
    ensures Minutes("19:30") == 19 * 60 + 30 && Minutes("7:00") == 7 * 60
  {
  }
}

=== FILE: conversation.dfy ===
/** The controller wired to each chat service: the current service, which the
    controller imports, and the legacy service with the follow-up machine. */
module Conversation {
  import opened Base
  import opened Text
  import opened Events
  import opened Profiles
  import opened ChatTypes
  import opened ChatController
  import LegacyChatService
  import ChatService

  /** What the legacy resolver throws when a waiting `meal_time_change` state
      carries no data. */
  const MissingDataError: string := "Cannot read properties of null (reading 'originalEvents')"

  /** The legacy service behind the controller, for one remote reply. A state
      the service cannot read is the thrown error. */
  function LegacyService(remote: Result<string>): Service {
    (m: string, p: Profile, plan: Option<Plan>, s: ChatState) =>
      if WellFormed(s) then Ok(LegacyChatService.HandleUserMessage(m, p, plan, s, remote))
      else Err(MissingDataError)
  }

  /** The current service behind the controller, for one remote reply; the
      profile it returns is not saved. */
  function CurrentService(remote: Result<string>): Service {
    (m: string, p: Profile, plan: Option<Plan>, s: ChatState) =>
      Ok(ChatService.HandleUserMessage(m, p, plan, s, remote).reply)
  }

  /** With the legacy service, as routed, a non-blank message to a stored user
      is answered unless the legacy reply carries a plan update, which is 500
      with nothing saved; the bounded history and readable state are kept. */
  lemma LegacyRequestKeepsInvariant(message: Option<string>, u: User, remote: Result<string>)
    requires UserInvariant(u) && !BlankMessage(message)
    ensures var r := LegacyChatService.HandleUserMessage(message.value, u.profile, u.currentPlan,
                                                         u.chatState.GetOr(IdleState), remote);
      var res := SendMessage(message, Some(u), LegacyService(remote));
      && (res.Sent? <==> r.planUpdate.None?)
      && (res.Rejected? ==> res == Rejected(500, "Internal server error: " + UnboundError))
      && (res.Sent? ==> UserInvariant(res.user))
  {
    var s := u.chatState.GetOr(IdleState);
    assert WellFormed(s);
    var r := LegacyChatService.HandleUserMessage(message.value, u.profile, u.currentPlan, s, remote);
    assert LegacyService(remote)(message.value, u.profile, u.currentPlan, s) == Ok(r);
    SendMessageKeepsInvariant(message, u, LegacyService(remote));
  }

  /** With the legacy service behind the bound handler every non-blank message
      to a stored user is answered (never 500), and the stored history and
      state stay within the invariant. */
  lemma LegacyRequestBoundKeepsInvariant(message: Option<string>, u: User, remote: Result<string>)
    requires UserInvariant(u) && !BlankMessage(message)
    ensures var res := SendMessageBound(message, Some(u), LegacyService(remote));
      res.Sent? && UserInvariant(res.user)
  {
    var s := u.chatState.GetOr(IdleState);
    assert WellFormed(s);
    var r := LegacyChatService.HandleUserMessage(message.value, u.profile, u.currentPlan, s, remote);
    assert LegacyService(remote)(message.value, u.profile, u.currentPlan, s) == Ok(r);
    SendMessageKeepsInvariant(message, u, LegacyService(remote));
  }

  /** With the current service the stored plan, profile and follow-up state
      never change; only the history grows, and the flag is the tag test. */
  lemma CurrentServiceOnlyRecords(message: Option<string>, u: User, remote: Result<string>)
    requires !BlankMessage(message)
    ensures var res := SendMessage(message, Some(u), CurrentService(remote));
      && res.Sent?
      && res.user.chatState == u.chatState && res.user.currentPlan == u.currentPlan
      && res.user.profile == u.profile
      && (res.needsPlanUpdate <==> remote.Ok? && ChatService.FindTag(remote.value).Some?)
      && res.user.chatHistory[|res.user.chatHistory| - 1].userMessage == message.value
  {
  }

  /** The plan update's copy of the original events plays no part in the merge. */
  lemma MergeIgnoresOriginalEvents(plan: Option<Plan>, u: PlanUpdate, other: seq<DailyEvent>)
    ensures UpdateUserPlan(plan, u) == UpdateUserPlan(plan, u.(originalEvents := other))
  {
  }

  /** The two-message meal-time conversation through the bound handler: the
      first message stores the awaiting state, the answer with a time merges the
      plan, flags the update and returns the stored state to idle. */
  lemma MealTimeConversation(trigger: string, answer: string, u: User, remote: Result<string>)
    requires UserInvariant(u) && !u.chatState.GetOr(IdleState).isWaitingForResponse
    requires u.currentPlan.Some? && u.currentPlan.value.dailyEvents.Some?
    requires LegacyChatService.AsksMealChange(Lower(trigger))
    requires !BlankMessage(Some(trigger)) && !BlankMessage(Some(answer)) && HasAsciiDigit(answer)
    ensures var first := SendMessageBound(Some(trigger), Some(u), LegacyService(remote));
      && first.Sent? && !first.needsPlanUpdate
      && first.user.currentPlan == u.currentPlan
      && first.user.chatState.Some? && first.user.chatState.value.isWaitingForResponse
      && var second := SendMessageBound(Some(answer), Some(first.user), LegacyService(remote));
         var plan := u.currentPlan.value;
         var t := LegacyChatService.ExtractTime(answer).value;
         && second.Sent? && second.needsPlanUpdate
         && second.user.chatState == Some(IdleState)
         && second.user.currentPlan == Some(plan.(dailyEvents := Some(Merge(plan.dailyEvents.value, t))))
  {
    var s0 := u.chatState.GetOr(IdleState);
    LegacyChatService.MealTimeFlow(trigger, answer, u.profile, u.currentPlan.value, remote);
    assert LegacyChatService.HandleUserMessage(trigger, u.profile, u.currentPlan, s0, remote)
        == LegacyChatService.HandleUserMessage(trigger, u.profile, u.currentPlan, IdleState, remote);
  }

  /** The same conversation through the handler as routed: the trigger is
      answered and stores the awaiting state, but the answer with a time is 500
      and the stored user stays as the trigger left it. */
  lemma MealTimeAnswerRejected(trigger: string, answer: string, u: User, remote: Result<string>)
    requires UserInvariant(u) && !u.chatState.GetOr(IdleState).isWaitingForResponse
    requires u.currentPlan.Some? && u.currentPlan.value.dailyEvents.Some?
    requires LegacyChatService.AsksMealChange(Lower(trigger))
    requires !BlankMessage(Some(trigger)) && !BlankMessage(Some(answer)) && HasAsciiDigit(answer)
    ensures var first := SendMessage(Some(trigger), Some(u), LegacyService(remote));
      && first.Sent?
      && first == SendMessageBound(Some(trigger), Some(u), LegacyService(remote))
      && first.user.chatState.Some? && first.user.chatState.value.isWaitingForResponse
      && SendMessage(Some(answer), Some(first.user), LegacyService(remote))
         == Rejected(500, "Internal server error: " + UnboundError)
  {
    MealTimeConversation(trigger, answer, u, remote);
    var first := SendMessageBound(Some(trigger), Some(u), LegacyService(remote));
    var s0 := u.chatState.GetOr(IdleState);
    LegacyChatService.MealTimeFlow(trigger, answer, u.profile, u.currentPlan.value, remote);
    assert LegacyChatService.HandleUserMessage(trigger, u.profile, u.currentPlan, s0, remote)
        == LegacyChatService.HandleUserMessage(trigger, u.profile, u.currentPlan, IdleState, remote);
    StuckAwaitingMealTime(answer, first.user, remote);
  }

  /** As routed, a user awaiting the meal-time answer never leaves that state:
      an answer with a digit is 500 and saves nothing, and any other message
      is answered with the state and plan unchanged. */
  lemma StuckAwaitingMealTime(message: string, u: User, remote: Result<string>)
    requires UserInvariant(u) && !BlankMessage(Some(message))
    requires u.chatState.Some? && u.chatState.value.isWaitingForResponse
    requires u.chatState.value.context == Some(MealTimeChange)
    ensures var res := SendMessage(Some(message), Some(u), LegacyService(remote));
      && (HasAsciiDigit(message) ==> res == Rejected(500, "Internal server error: " + UnboundError))
      && (!HasAsciiDigit(message) ==>
            res.Sent? && res.user.chatState == u.chatState && res.user.currentPlan == u.currentPlan)
  {
    var s := u.chatState.value;
    assert WellFormed(s);
    var r := LegacyChatService.HandleUserMessage(message, u.profile, u.currentPlan, s, remote);
    assert LegacyService(remote)(message, u.profile, u.currentPlan, s) == Ok(r);
  }

  /** The legacy follow-up machine through the bound handler, read as phases:
      from idle only a meal-change question on a plan with events opens the
      meal-time wait; a wait closes exactly when its context is not
      `meal_time_change` or the answer holds a digit, and otherwise stays. */
  lemma PhaseTransitions(message: string, u: User, remote: Result<string>)
    requires UserInvariant(u) && !BlankMessage(Some(message))
    ensures SendMessageBound(Some(message), Some(u), LegacyService(remote)).Sent?
    ensures var before := PhaseOf(u.chatState.GetOr(IdleState));
      var res := SendMessageBound(Some(message), Some(u), LegacyService(remote));
      var after := PhaseOf(res.user.chatState.GetOr(IdleState));
      && (before.Idle? ==> after.Idle? || after == Awaiting(Some(MealTimeChange)))
      && (before.Idle? ==>
            (after.Awaiting? <==> LegacyChatService.AsksMealChange(Lower(message))
                                  && LegacyChatService.HasEvents(u.currentPlan)))
      && (before.Awaiting? ==>
            (after.Idle? <==> before.context != Some(MealTimeChange) || HasAsciiDigit(message)))
      && (before.Awaiting? && after.Awaiting? ==> after == before)
  {
    var s := u.chatState.GetOr(IdleState);
    assert WellFormed(s);
    var r := LegacyChatService.HandleUserMessage(message, u.profile, u.currentPlan, s, remote);
    assert LegacyService(remote)(message, u.profile, u.currentPlan, s) == Ok(r);
    LegacyRequestBoundKeepsInvariant(Some(message), u, remote);
  }
}

=== FILE: events.dfy ===
/** The daily plan: timed wellness events plus three recommendation strings,
    and the stable sort by time string that both the plan generator and the
    plan merge apply (`events.sort((a, b) => a.time.localeCompare(b.time))`). */
module Events {
  import opened Base
  import opened Text

  /** One scheduled item of the day. Every field is the raw stored value:
      `category` is a free string that the known categories below merely name. */
  datatype DailyEvent = DailyEvent(
    time: string,
    title: string,
    description: string,
    category: string,
    duration: int)

  datatype Recommendations = Recommendations(nutrition: string, sleep: string, movement: string)

  /** A stored plan. `dailyEvents` is `None` when the stored plan has no event
      array (the code tests `currentPlan.dailyEvents` before using it). */
  datatype Plan = Plan(dailyEvents: Option<seq<DailyEvent>>, recommendations: Recommendations)

  const Hydration: string := "hydration"
  const Movement: string := "movement"
  const Nutrition: string := "nutrition"
  const Relaxation: string := "relaxation"
  const SleepCategory: string := "sleep"
  const Digital: string := "digital"

  /** The category enumeration of the plan format. */
  predicate KnownCategory(c: string) {
    c in {Hydration, Movement, Nutrition, Relaxation, SleepCategory, Digital}
  }

  /** `a.time.localeCompare(b.time) <= 0`, read as code-point order. */
  predicate TimeLe(a: DailyEvent, b: DailyEvent) {
    LexLe(a.time, b.time)
  }

  predicate Sorted(s: seq<DailyEvent>) {
    forall i, j :: 0 <= i < j < |s| ==> TimeLe(s[i], s[j])
  }

  /** Places `x` in front of the first element it does not sort after, so that
      `x` stays ahead of every element with an equal time. */
  function Insert(x: DailyEvent, s: seq<DailyEvent>): (r: seq<DailyEvent>)
    ensures multiset(r) == multiset(s) + multiset{x}
    ensures |r| == |s| + 1
  {
    if s == [] then [x]
    else if TimeLe(x, s[0]) then [x] + s
    else
      assert s == [s[0]] + s[1..];
      [s[0]] + Insert(x, s[1..])
  }

  lemma {:induction false} InsertKeepsSorted(x: DailyEvent, s: seq<DailyEvent>)
    requires Sorted(s)
    ensures Sorted(Insert(x, s))
  {
    if s == [] {
    } else if TimeLe(x, s[0]) {
      var r := Insert(x, s);
      forall i, j | 0 <= i < j < |r| ensures TimeLe(r[i], r[j]) {
        if i == 0 && j > 1 {
          LexLeTransitive(x.time, s[0].time, s[j - 1].time);
        }
      }
    } else {
      LexLeTotal(x.time, s[0].time);
      var tail := Insert(x, s[1..]);
      InsertKeepsSorted(x, s[1..]);
      var r := [s[0]] + tail;
      assert r == Insert(x, s);
      forall j | 0 <= j < |tail| ensures TimeLe(s[0], tail[j]) {
        assert tail[j] in multiset(tail);
        if tail[j] != x {
          assert tail[j] in multiset(s[1..]);
          var k :| 0 <= k < |s[1..]| && s[1..][k] == tail[j];
          assert s[k + 1] == tail[j];
        }
      }
      forall i, j | 0 <= i < j < |r| ensures TimeLe(r[i], r[j]) {
        if i == 0 {
          assert r[j] == tail[j - 1];
        } else {
          assert r[i] == tail[i - 1] && r[j] == tail[j - 1];
        }
      }
    }
  }

  /** The stable sort of the event list by time string: a sorted permutation
      of its input. */
  function SortByTime(s: seq<DailyEvent>): (r: seq<DailyEvent>)
    ensures multiset(r) == multiset(s)
    ensures |r| == |s|
    ensures Sorted(r)
  {
    if s == [] then []
    else
      assert s == [s[0]] + s[1..];
      InsertKeepsSorted(s[0], SortByTime(s[1..]));
      Insert(s[0], SortByTime(s[1..]))
  }

  /** Sorting a list that is already in order changes nothing: the sort never
      reorders events whose times are already ascending, ties included. */
  lemma {:induction false} SortOfSortedIsIdentity(s: seq<DailyEvent>)
    requires Sorted(s)
    ensures SortByTime(s) == s
  {
    if s != [] {
      assert Sorted(s[1..]);
      SortOfSortedIsIdentity(s[1..]);
      if |s| > 1 {
        assert TimeLe(s[0], s[1]);
        assert s[1..][0] == s[1];
      }
      assert s == [s[0]] + s[1..];
    }
  }

  /** Sorting is idempotent. */
  lemma SortIdempotent(s: seq<DailyEvent>)
    ensures SortByTime(SortByTime(s)) == SortByTime(s)
  {
    SortOfSortedIsIdentity(SortByTime(s));
  }

  /** Every element of the sorted list comes from the input and vice versa. */
  lemma SortSameElements(s: seq<DailyEvent>, e: DailyEvent)
    ensures e in SortByTime(s) <==> e in s
  {
    assert e in SortByTime(s) <==> e in multiset(SortByTime(s));
    assert e in s <==> e in multiset(s);
  }
}

=== FILE: gemini_service.dfy ===
/** The plan generator (`geminiService.js`): a prompt built from the profile,
    a remote reply cut down to its outermost braces and parsed, and a
    deterministic fallback plan whenever the call or the parse fails. The
    remote reply and the JSON parser are parameters. */
module GeminiService {
  import opened Base
  import opened Text
  import opened Events
  import opened Profiles

  // ---------------------------------------------------------------------------
  // generateFallbackPlan
  // ---------------------------------------------------------------------------

  function HydrationEvent(p: Profile): DailyEvent {
    DailyEvent(p.sleepSchedule.wakeTime, "Morning Hydration", "Start your day with a large glass of water", Hydration, 5)
  }

  const Breakfast: DailyEvent :=
    DailyEvent("08:30", "Energizing Breakfast", "High protein breakfast to start the day", Nutrition, 20)

  const LunchBreak: DailyEvent :=
    DailyEvent("13:00", "Lunch Break", "Balanced meal with vegetables and protein", Nutrition, 30)

  const Dinner: DailyEvent :=
    DailyEvent("19:30", "Dinner", "Light dinner, try to avoid heavy carbs", Nutrition, 30)

  const HighIntensity: string := "HIIT or Cardio session"
  const LowIntensity: string := "Brisk walk or light yoga"

  /** `workSchedule.endTime || "17:00"`. */
  function ExerciseTime(p: Profile): (t: string)
    ensures t != ""
    ensures p.workSchedule.endTime != "" ==> t == p.workSchedule.endTime
  {
    if p.workSchedule.endTime != "" then p.workSchedule.endTime else "17:00"
  }

  function ExerciseEvent(p: Profile): DailyEvent {
    DailyEvent(ExerciseTime(p), "Daily Exercise",
               if p.activityLevel == "high" then HighIntensity else LowIntensity, Movement, 30)
  }

  function SleepEvent(p: Profile): DailyEvent {
    DailyEvent(p.sleepSchedule.bedtime, "Sleep Time", "Lights out, phone away", SleepCategory, 0)
  }

  /** `[e]` when the toggle is on, `[]` otherwise. */
  function When(on: bool, e: DailyEvent): seq<DailyEvent> {
    if on then [e] else []
  }

  /** The events in the order they are pushed: hydration, breakfast, lunch,
      movement, dinner, sleep. */
  function PushedEvents(p: Profile): seq<DailyEvent> {
    When(p.preferences.hydration, HydrationEvent(p)) + MiddayEvents(p) + When(p.preferences.sleep, SleepEvent(p))
  }

  /** One event per toggle that is on, three for nutrition; hydration first
      and sleep last when pushed. */
  lemma PushedOrder(p: Profile)
    ensures var prefs := p.preferences; var r := PushedEvents(p);
      && |r| == Ind(prefs.hydration) + 3 * Ind(prefs.nutrition) + Ind(prefs.movement) + Ind(prefs.sleep)
      && (prefs.hydration ==> r[0] == HydrationEvent(p))
      && (prefs.sleep ==> r[|r| - 1] == SleepEvent(p))
  {
  }

  /** The events pushed between hydration and sleep: breakfast, lunch,
      movement, dinner. Their times never come from the sleep schedule, so
      none is empty. */
  function MiddayEvents(p: Profile): (r: seq<DailyEvent>)
    ensures forall i :: 0 <= i < |r| ==> r[i].time != ""
    ensures |r| == 0 <==> !p.preferences.nutrition && !p.preferences.movement
  {
    var prefs := p.preferences;
    When(prefs.nutrition, Breakfast) + When(prefs.nutrition, LunchBreak)
    + When(prefs.movement, ExerciseEvent(p)) + When(prefs.nutrition, Dinner)
  }

  /** What a template literal prints for a profile string: an absent value
      (the empty string here) prints as `undefined`. */
  function Shown(s: string): (r: string)
    ensures r != ""
    ensures s != "" ==> r == s
  {
    if s == "" then "undefined" else s
  }

  function FallbackRecommendations(p: Profile): (r: Recommendations)
    ensures r.nutrition != "" && r.sleep != "" && r.movement != ""
    ensures Contains(r.sleep, Shown(p.sleepSchedule.bedtime)) && Contains(r.sleep, Shown(p.sleepSchedule.wakeTime))
  {
    var pre := "Try to maintain a consistent sleep schedule between ";
    var bed, wake := Shown(p.sleepSchedule.bedtime), Shown(p.sleepSchedule.wakeTime);
    var sleep := pre + bed + " and " + wake + ".";
    ContainsInConcat(pre, bed, " and " + wake + ".");
    assert sleep == pre + bed + (" and " + wake + ".");
    ContainsInConcat(pre + bed + " and ", wake, ".");
    Recommendations("Focus on whole foods and stay hydrated throughout the day.", sleep,
                    "Aim for at least 30 minutes of moderate activity daily.")
  }

  /** The pushed events sorted by time string, an absent time reading as the
      empty string: `generateFallbackPlan` whenever every pushed time is
      present, and the evidently intended plan otherwise. */
  function FallbackPlan(p: Profile): (r: Plan)
    ensures r.dailyEvents.Some?
    ensures multiset(r.dailyEvents.value) == multiset(PushedEvents(p))
    ensures Sorted(r.dailyEvents.value)
    ensures r.recommendations == FallbackRecommendations(p)
  {
    Plan(Some(SortByTime(PushedEvents(p))), FallbackRecommendations(p))
  }

  /** 1 for a toggle that is on, 0 otherwise. */
  function Ind(b: bool): nat {
    if b then 1 else 0
  }

  /** One hydration, three nutrition, one movement and one sleep event, and
      nothing for the other toggles. */
  lemma FallbackCount(p: Profile)
    ensures var prefs := p.preferences;
      |FallbackPlan(p).dailyEvents.value|
        == Ind(prefs.hydration) + 3 * Ind(prefs.nutrition) + Ind(prefs.movement) + Ind(prefs.sleep)
  {
  }

  /** The toggles without a fallback event play no part. */
  lemma FallbackIgnoresOtherToggles(p: Profile, relaxation: bool, digital: bool, outdoor: bool)
    ensures FallbackPlan(p) ==
      FallbackPlan(p.(preferences := p.preferences.(relaxation := relaxation, digitalWellness := digital,
                                                   outdoorTime := outdoor)))
  {
    var q := p.(preferences := p.preferences.(relaxation := relaxation, digitalWellness := digital,
                                             outdoorTime := outdoor));
    assert HydrationEvent(q) == HydrationEvent(p) && ExerciseEvent(q) == ExerciseEvent(p);
    assert SleepEvent(q) == SleepEvent(p);
    assert PushedEvents(q) == PushedEvents(p);
    assert FallbackRecommendations(q) == FallbackRecommendations(p);
  }

  /** With every toggle off the plan is empty. */
  lemma FallbackAllOff(p: Profile)
    requires !p.preferences.hydration && !p.preferences.nutrition
    requires !p.preferences.movement && !p.preferences.sleep
    ensures FallbackPlan(p).dailyEvents == Some([])
  {
  }

  /** Where an event of the fallback plan can come from. */
  predicate Origin(p: Profile, e: DailyEvent) {
    || (p.preferences.hydration && e == HydrationEvent(p))
    || (p.preferences.nutrition && (e == Breakfast || e == LunchBreak || e == Dinner))
    || (p.preferences.movement && e == ExerciseEvent(p))
    || (p.preferences.sleep && e == SleepEvent(p))
  }

  /** The pushed list holds exactly the events whose toggle is on. */
  lemma PushedMembers(p: Profile, e: DailyEvent)
    ensures e in PushedEvents(p) <==> Origin(p, e)
  {
    var prefs := p.preferences;
    var h := When(prefs.hydration, HydrationEvent(p));
    var b := When(prefs.nutrition, Breakfast);
    var l := When(prefs.nutrition, LunchBreak);
    var m := When(prefs.movement, ExerciseEvent(p));
    var d := When(prefs.nutrition, Dinner);
    var z := When(prefs.sleep, SleepEvent(p));
    assert PushedEvents(p) == h + b + l + m + d + z;
    assert e in h + b + l + m + d + z <==> e in h || e in b || e in l || e in m || e in d || e in z;
  }

  /** The fallback plan holds exactly the events whose toggle is on. */
  lemma FallbackMembers(p: Profile, e: DailyEvent)
    ensures e in FallbackPlan(p).dailyEvents.value <==> Origin(p, e)
  {
    SortSameElements(PushedEvents(p), e);
    PushedMembers(p, e);
  }

  /** Each event of the plan belongs to one of four categories. */
  lemma FallbackCategories(p: Profile)
    ensures var es := FallbackPlan(p).dailyEvents.value;
      forall e :: e in es ==> e.category in {Hydration, Nutrition, Movement, SleepCategory}
  {
    var es := FallbackPlan(p).dailyEvents.value;
    forall e | e in es ensures Origin(p, e) {
      FallbackMembers(p, e);
    }
  }

  /** Some event of `es` has category `c`. */
  predicate HasCategory(es: seq<DailyEvent>, c: string) {
    exists e :: e in es && e.category == c
  }

  /** Each fallback event carries the category its origin gives it. */
  lemma OriginCategory(p: Profile, e: DailyEvent)
    requires Origin(p, e)
    ensures e.category == Hydration ==> p.preferences.hydration
    ensures e.category == Nutrition ==> p.preferences.nutrition
    ensures e.category == Movement ==> p.preferences.movement
    ensures e.category == SleepCategory ==> p.preferences.sleep
  {
  }

  /** Each category present in the plan has its toggle on. */
  lemma FallbackCategoriesToggled(p: Profile)
    ensures forall e :: e in FallbackPlan(p).dailyEvents.value ==>
      && (e.category == Hydration ==> p.preferences.hydration)
      && (e.category == Nutrition ==> p.preferences.nutrition)
      && (e.category == Movement ==> p.preferences.movement)
      && (e.category == SleepCategory ==> p.preferences.sleep)
  {
    forall e | e in FallbackPlan(p).dailyEvents.value
      ensures e.category == Hydration ==> p.preferences.hydration
      ensures e.category == Nutrition ==> p.preferences.nutrition
      ensures e.category == Movement ==> p.preferences.movement
      ensures e.category == SleepCategory ==> p.preferences.sleep
    {
      FallbackMembers(p, e);
      OriginCategory(p, e);
    }
  }

  /** The plan has an event of a category exactly when that category's toggle is on. */
  lemma FallbackCategoryPresence(p: Profile)
    ensures var es := FallbackPlan(p).dailyEvents.value;
      && (HasCategory(es, Hydration) <==> p.preferences.hydration)
      && (HasCategory(es, Nutrition) <==> p.preferences.nutrition)
      && (HasCategory(es, Movement) <==> p.preferences.movement)
      && (HasCategory(es, SleepCategory) <==> p.preferences.sleep)
  {
    FallbackCategoriesToggled(p);
    FallbackMembers(p, HydrationEvent(p));
    FallbackMembers(p, Breakfast);
    FallbackMembers(p, ExerciseEvent(p));
    FallbackMembers(p, SleepEvent(p));
  }

  /** The time and text each kind of fallback event carries. */
  predicate EventTimeOk(p: Profile, e: DailyEvent) {
    && (e.category == Hydration ==> e.time == p.sleepSchedule.wakeTime)
    && (e.category == Nutrition ==> e.time in {"08:30", "13:00", "19:30"})
    && (e.category == Movement ==>
          e.time == ExerciseTime(p) && (e.description == HighIntensity <==> p.activityLevel == "high"))
    && (e.category == SleepCategory ==> e.time == p.sleepSchedule.bedtime && e.duration == 0)
  }

  /** Every possible fallback event sits where its kind belongs. */
  lemma OriginTime(p: Profile, e: DailyEvent)
    requires Origin(p, e)
    ensures EventTimeOk(p, e)
  {
    assert HighIntensity != LowIntensity;
  }

  /** Where each event sits in the day and what the movement event says. */
  lemma FallbackEventTimes(p: Profile)
    ensures var es := FallbackPlan(p).dailyEvents.value;
      forall e :: e in es ==> EventTimeOk(p, e)
  {
    var es := FallbackPlan(p).dailyEvents.value;
    forall e | e in es ensures EventTimeOk(p, e) {
      FallbackMembers(p, e);
      OriginTime(p, e);
    }
  }

  // ---------------------------------------------------------------------------
  // generateFallbackPlan on a profile without its sleep times
  // ---------------------------------------------------------------------------

  /** The TypeError of `a.time.localeCompare(b.time)` when `a.time` is undefined. */
  const LocaleCompareError: string := "Cannot read properties of undefined (reading 'localeCompare')"

  /** Whether `events.sort((a, b) => a.time.localeCompare(b.time))` throws. The
      engine's sort of a short array (a run scan, then binary insertion) hands
      every element after the first to the comparator as `a` at least once, and
      the first element only ever as `b`. An absent time (the empty string here)
      as `a` throws; as `b` it is read as the string "undefined". */
  predicate SortThrows(es: seq<DailyEvent>) {
    |es| >= 2 && exists k :: 1 <= k < |es| && es[k].time == ""
  }

  /** `Insert` with `x` compared under `key` instead of its own time. */
  function InsertUnder(x: DailyEvent, key: string, s: seq<DailyEvent>): (r: seq<DailyEvent>)
    ensures multiset(r) == multiset(s) + multiset{x}
    ensures |r| == |s| + 1
  {
    if s == [] then [x]
    else if LexLe(key, s[0].time) then [x] + s
    else
      assert s == [s[0]] + s[1..];
      [s[0]] + InsertUnder(x, key, s[1..])
  }

  /** Under its own time, `InsertUnder` is `Insert`. */
  lemma {:induction false} InsertUnderOwnTime(x: DailyEvent, s: seq<DailyEvent>)
    ensures InsertUnder(x, x.time, s) == Insert(x, s)
  {
    if s != [] && !LexLe(x.time, s[0].time) {
      InsertUnderOwnTime(x, s[1..]);
    }
  }

  /** A key after every time puts `x` last. */
  lemma {:induction false} InsertUnderAfterAll(x: DailyEvent, key: string, s: seq<DailyEvent>)
    requires forall i :: 0 <= i < |s| ==> !LexLe(key, s[i].time)
    ensures InsertUnder(x, key, s) == s + [x]
  {
    if s != [] {
      InsertUnderAfterAll(x, key, s[1..]);
      assert s == [s[0]] + s[1..];
    }
  }

  /** `generateFallbackPlan` as written. The sort throws when an event after
      the first has no time; a first event without a time is sorted as the
      string "undefined"; otherwise this is `FallbackPlan`. */
  function GenerateFallbackPlan(p: Profile): (r: Result<Plan>)
    ensures r.Err? <==> SortThrows(PushedEvents(p))
    ensures r.Err? ==> r.message == LocaleCompareError
    ensures r.Ok? ==> (r.value.recommendations == FallbackRecommendations(p)
      && r.value.dailyEvents.Some? && multiset(r.value.dailyEvents.value) == multiset(PushedEvents(p)))
  {
    var es := PushedEvents(p);
    if SortThrows(es) then Err(LocaleCompareError)
    else Ok(Plan(Some(SortAsWritten(es)), FallbackRecommendations(p)))
  }

  /** The order the sort leaves when it does not throw: a first event without
      a time is compared as "undefined", every other event by its time. */
  function SortAsWritten(es: seq<DailyEvent>): (r: seq<DailyEvent>)
    ensures multiset(r) == multiset(es)
    ensures es == [] || es[0].time != "" ==> r == SortByTime(es)
  {
    if es != [] && es[0].time == "" then
      assert es == [es[0]] + es[1..];
      InsertUnder(es[0], "undefined", SortByTime(es[1..]))
    else SortByTime(es)
  }

  /** An event without a time that comes first goes after every time written
      with a leading digit. */
  lemma AbsentFirstSortsLast(es: seq<DailyEvent>)
    requires es != [] && es[0].time == ""
    requires forall i :: 1 <= i < |es| ==> es[i].time != "" && IsAsciiDigit(es[i].time[0])
    ensures SortAsWritten(es) == SortByTime(es[1..]) + [es[0]]
  {
    var rest := es[1..];
    assert forall i :: 0 <= i < |rest| ==> rest[i] == es[i + 1];
    SortedDigitTimes(rest);
    InsertUnderAfterAll(es[0], "undefined", SortByTime(rest));
  }

  /** Where an event without a time can sit in the pushed list: hydration
      first, sleep last. */
  lemma PushedTimes(p: Profile)
    ensures var es := PushedEvents(p);
      forall k :: 1 <= k < |es| && es[k].time == "" ==>
        k == |es| - 1 && es[k] == SleepEvent(p) && p.preferences.sleep
  {
    var h := When(p.preferences.hydration, HydrationEvent(p));
    var mid := MiddayEvents(p);
    var z := When(p.preferences.sleep, SleepEvent(p));
    var es := PushedEvents(p);
    forall k | 1 <= k < |es| && es[k].time == ""
      ensures k == |es| - 1 && es[k] == SleepEvent(p) && p.preferences.sleep
    {
      if k >= |h| + |mid| {
        assert es[k] == z[k - |h| - |mid|];
      }
    }
  }

  /** As written, the fallback throws exactly when the sleep event is pushed
      without a bedtime and some other event is pushed too. */
  lemma FallbackThrowsExactly(p: Profile)
    ensures GenerateFallbackPlan(p).Err? <==>
      p.preferences.sleep && p.sleepSchedule.bedtime == ""
      && (p.preferences.hydration || p.preferences.nutrition || p.preferences.movement)
  {
    var es := PushedEvents(p);
    var h := When(p.preferences.hydration, HydrationEvent(p));
    var mid := MiddayEvents(p);
    PushedTimes(p);
    if p.preferences.sleep && (p.preferences.hydration || p.preferences.nutrition || p.preferences.movement) {
      assert |h + mid| >= 1;
      assert es[|es| - 1] == SleepEvent(p);
    } else if !(p.preferences.hydration || p.preferences.nutrition || p.preferences.movement) {
      assert |es| <= 1;
    }
  }

  /** The first pushed event is the hydration event when it is on; otherwise
      it lacks a time only as the sole, sleep, event. */
  lemma PushedFirst(p: Profile)
    requires PushedEvents(p) != []
    ensures p.preferences.hydration ==> PushedEvents(p)[0] == HydrationEvent(p)
    ensures !p.preferences.hydration && PushedEvents(p)[0].time == "" ==>
      PushedEvents(p) == [SleepEvent(p)]
  {
    var mid := MiddayEvents(p);
    if !p.preferences.hydration && mid != [] {
      assert PushedEvents(p)[0] == mid[0];
    }
  }

  /** With both sleep times present where they are used, the fallback as
      written is `FallbackPlan`. */
  lemma FallbackAsWrittenAgrees(p: Profile)
    requires p.sleepSchedule.bedtime != "" || !p.preferences.sleep
    requires p.sleepSchedule.wakeTime != "" || !p.preferences.hydration
    ensures GenerateFallbackPlan(p) == Ok(FallbackPlan(p))
  {
    FallbackThrowsExactly(p);
    if PushedEvents(p) != [] {
      PushedFirst(p);
    }
  }

  /** A wake time missing on its own does not throw: the hydration event is
      sorted as "undefined", after every time written with digits. */
  lemma AbsentWakeSortsLast(p: Profile)
    requires p.preferences.hydration && p.sleepSchedule.wakeTime == ""
    requires forall i :: 0 <= i < |MiddayEvents(p)| ==> IsAsciiDigit(MiddayEvents(p)[i].time[0])
    requires p.preferences.sleep ==> p.sleepSchedule.bedtime != "" && IsAsciiDigit(p.sleepSchedule.bedtime[0])
    ensures var es := PushedEvents(p);
      GenerateFallbackPlan(p) == Ok(Plan(Some(SortByTime(es[1..]) + [HydrationEvent(p)]), FallbackRecommendations(p)))
  {
    var es := PushedEvents(p);
    PushedAfterWake(p);
    assert !SortThrows(es);
    AbsentFirstSortsLast(es);
  }

  /** With hydration on, every pushed event after it has a digit-led time
      when the midday times and a pushed bedtime do. */
  lemma PushedAfterWake(p: Profile)
    requires p.preferences.hydration
    requires forall i :: 0 <= i < |MiddayEvents(p)| ==> IsAsciiDigit(MiddayEvents(p)[i].time[0])
    requires p.preferences.sleep ==> p.sleepSchedule.bedtime != "" && IsAsciiDigit(p.sleepSchedule.bedtime[0])
    ensures var es := PushedEvents(p);
      && es != [] && es[0] == HydrationEvent(p)
      && forall i :: 1 <= i < |es| ==> es[i].time != "" && IsAsciiDigit(es[i].time[0])
  {
    var mid := MiddayEvents(p);
    var z := When(p.preferences.sleep, SleepEvent(p));
    assert PushedEvents(p) == [HydrationEvent(p)] + mid + z;
    DigitLedTail(HydrationEvent(p), mid, z);
  }

  /** The events after `x` in `[x] + mid + z` all have digit-led times when
      `mid` and `z` do. */
  lemma DigitLedTail(x: DailyEvent, mid: seq<DailyEvent>, z: seq<DailyEvent>)
    requires forall i :: 0 <= i < |mid| ==> mid[i].time != "" && IsAsciiDigit(mid[i].time[0])
    requires forall i :: 0 <= i < |z| ==> z[i].time != "" && IsAsciiDigit(z[i].time[0])
    ensures var es := [x] + mid + z;
      forall i :: 1 <= i < |es| ==> es[i].time != "" && IsAsciiDigit(es[i].time[0])
  {
    var es := [x] + mid + z;
    forall i | 1 <= i < |es| ensures es[i].time != "" && IsAsciiDigit(es[i].time[0]) {
      if i <= |mid| {
        assert es[i] == mid[i - 1];
      } else {
        assert es[i] == z[i - 1 - |mid|];
      }
    }
  }

  /** Times that start with a digit stay before "undefined" after sorting. */
  lemma SortedDigitTimes(s: seq<DailyEvent>)
    requires forall i :: 0 <= i < |s| ==> s[i].time != "" && IsAsciiDigit(s[i].time[0])
    ensures forall i :: 0 <= i < |SortByTime(s)| ==> !LexLe("undefined", SortByTime(s)[i].time)
  {
    var sorted := SortByTime(s);
    forall i | 0 <= i < |sorted| ensures !LexLe("undefined", sorted[i].time) {
      assert sorted[i] in multiset(s);
      var k :| 0 <= k < |s| && s[k] == sorted[i];
      assert IsAsciiDigit(s[k].time[0]);
    }
  }

  // ---------------------------------------------------------------------------
  // parseResponse: text.match(/\{[\s\S]*\}/)
  // ---------------------------------------------------------------------------

  /** The first index at or after `k` holding `c`. */
  function FirstOf(t: string, c: char, k: nat): (r: Option<nat>)
    requires k <= |t|
    ensures r.Some? ==> k <= r.value < |t| && t[r.value] == c
    ensures r.Some? ==> forall m :: k <= m < r.value ==> t[m] != c
    ensures r.None? ==> forall m :: k <= m < |t| ==> t[m] != c
    decreases |t| - k
  {
    if k == |t| then None else if t[k] == c then Some(k) else FirstOf(t, c, k + 1)
  }

  /** The last index below `k` holding `c`. */
  function LastOf(t: string, c: char, k: nat): (r: Option<nat>)
    requires k <= |t|
    ensures r.Some? ==> r.value < k && t[r.value] == c
    ensures r.Some? ==> forall m :: r.value < m < k ==> t[m] != c
    ensures r.None? ==> forall m :: 0 <= m < k ==> t[m] != c
  {
    if k == 0 then None else if t[k - 1] == c then Some(k - 1) else LastOf(t, c, k - 1)
  }

  /** The greedy match: from the first `{` to the last `}`, when that `}` comes
      after the `{`. */
  function ExtractJson(t: string): (r: Option<string>)
    ensures r.Some? <==> exists i, j :: 0 <= i < j < |t| && t[i] == '{' && t[j] == '}'
    ensures r.Some? ==>
      var i := FirstOf(t, '{', 0).value;
      var j := LastOf(t, '}', |t|).value;
      && r.value == t[i..j + 1]
      && (forall m :: 0 <= m < i ==> t[m] != '{')
      && (forall m :: j < m < |t| ==> t[m] != '}')
  {
    match (FirstOf(t, '{', 0), LastOf(t, '}', |t|))
    case (Some(i), Some(j)) =>
      if i < j then Some(t[i..j + 1]) else None
    case _ => None
  }

  /** A JSON object wrapped in chatter without braces comes out whole. */
  lemma {:induction false} ExtractJsonRoundTrip(before: string, body: string, after: string)
    requires forall m :: 0 <= m < |before| ==> before[m] != '{'
    requires forall m :: 0 <= m < |after| ==> after[m] != '}'
    ensures ExtractJson(before + "{" + body + "}" + after) == Some("{" + body + "}")
  {
    var t := before + "{" + body + "}" + after;
    var i := |before|;
    var j := |before| + 1 + |body|;
    assert t[i] == '{' && t[j] == '}';
    forall m | 0 <= m < i ensures t[m] != '{' {
      assert t[m] == before[m];
    }
    forall m | j < m < |t| ensures t[m] != '}' {
      assert t[m] == after[m - j - 1];
    }
    assert FirstOf(t, '{', 0) == Some(i);
    assert LastOf(t, '}', |t|) == Some(j);
    assert t[i..j + 1] == "{" + body + "}";
  }

  /** `parseResponse`: the braces cut out and handed to the JSON parser; a
      missing match or a parse failure is the thrown "Invalid AI response format". */
  function ParseResponse(text: string, parseJson: string -> Option<Plan>): (r: Result<Plan>)
    ensures ExtractJson(text).None? ==> r == Err("Invalid AI response format")
    ensures ExtractJson(text).Some? && parseJson(ExtractJson(text).value).None? ==>
      r == Err("Invalid AI response format")
    ensures r.Ok? ==> ExtractJson(text).Some? && parseJson(ExtractJson(text).value) == Some(r.value)
  {
    match ExtractJson(text)
    case None => Err("Invalid AI response format")
    case Some(json) =>
      match parseJson(json)
      case None => Err("Invalid AI response format")
      case Some(plan) => Ok(plan)
  }

  /** `generateDailyPlan`: the parsed remote plan, or, on any failure, the
      fallback plan as written, whose own failure escapes to the caller. */
  function GenerateDailyPlan(p: Profile, remote: Result<string>, parseJson: string -> Option<Plan>): (r: Result<Plan>)
    ensures remote.Err? ==> r == GenerateFallbackPlan(p)
    ensures remote.Ok? && ParseResponse(remote.value, parseJson).Err? ==> r == GenerateFallbackPlan(p)
    ensures remote.Ok? && ParseResponse(remote.value, parseJson).Ok? ==>
      r == Ok(ParseResponse(remote.value, parseJson).value)
    ensures r.Err? ==> r == Err(LocaleCompareError)
  {
    match remote
    case Err(_) => GenerateFallbackPlan(p)
    case Ok(text) =>
      match ParseResponse(text, parseJson)
      case Ok(plan) => Ok(plan)
      case Err(_) => GenerateFallbackPlan(p)
  }

  /** `generateDailyPlan` as evidently intended: the fallback never fails, an
      absent time reading as the empty string (`(a.time || "")`). */
  function GenerateDailyPlanIntended(p: Profile, remote: Result<string>, parseJson: string -> Option<Plan>): (r: Plan)
    ensures remote.Err? ==> r == FallbackPlan(p)
    ensures remote.Ok? && ParseResponse(remote.value, parseJson).Err? ==> r == FallbackPlan(p)
    ensures remote.Ok? && ParseResponse(remote.value, parseJson).Ok? ==>
      r == ParseResponse(remote.value, parseJson).value
  {
    match remote
    case Err(_) => FallbackPlan(p)
    case Ok(text) =>
      match ParseResponse(text, parseJson)
      case Ok(plan) => plan
      case Err(_) => FallbackPlan(p)
  }

  /** The intended generator always yields a plan; when it falls back, the
      plan holds exactly the events whose toggles are on, whatever the stored
      times. Where the sleep times are present it is the generator as written. */
  lemma IntendedPlanAlwaysProduced(p: Profile, remote: Result<string>, parseJson: string -> Option<Plan>, e: DailyEvent)
    ensures (remote.Err? || ParseResponse(remote.value, parseJson).Err?) ==>
      var r := GenerateDailyPlanIntended(p, remote, parseJson);
      r.dailyEvents.Some? && (e in r.dailyEvents.value <==> Origin(p, e))
    ensures p.sleepSchedule.bedtime != "" && p.sleepSchedule.wakeTime != "" ==>
      GenerateDailyPlan(p, remote, parseJson) == Ok(GenerateDailyPlanIntended(p, remote, parseJson))
  {
    FallbackMembers(p, e);
    if p.sleepSchedule.bedtime != "" && p.sleepSchedule.wakeTime != "" {
      FallbackAsWrittenAgrees(p);
    }
  }

  /** A reply with no braces at all yields the fallback plan. */
  lemma BracelessReplyFallsBack(p: Profile, text: string, parseJson: string -> Option<Plan>)
    requires forall m :: 0 <= m < |text| ==> text[m] != '{'
    ensures GenerateDailyPlan(p, Ok(text), parseJson) == GenerateFallbackPlan(p)
  {
  }

  /** The profile the profile route stores for the body `{}`: no numbers, no
      times, no goals, and the schema's defaults, activity level `moderate`
      and every toggle on. */
  const EmptyStoredProfile: Profile := Profile(
    0.0, 0.0, 0.0, "moderate",
    WorkSchedule("", "", []),
    SleepSchedule("", ""),
    [],
    Preferences(true, true, true, true, true, true, true),
    None)

  /** As written, that profile gets no plan once the remote call fails: the
      sleep event, pushed last without a time, makes the sort throw. */
  lemma EmptyProfilePlanFails(error: string, parseJson: string -> Option<Plan>)
    ensures GenerateDailyPlan(EmptyStoredProfile, Err(error), parseJson) == Err(LocaleCompareError)
    ensures GenerateDailyPlanIntended(EmptyStoredProfile, Err(error), parseJson).dailyEvents.Some?
  {
    FallbackThrowsExactly(EmptyStoredProfile);
  }

  // ---------------------------------------------------------------------------
  // buildPrompt
  // ---------------------------------------------------------------------------

  /** The names of the toggles among `keys` that are on, in order. */
  function EnabledAmong(prefs: Preferences, keys: seq<PreferenceKey>): (r: seq<string>)
    ensures |r| <= |keys|
    ensures Subsequence(r, Names(keys))
    ensures forall n :: n in r <==> exists i :: 0 <= i < |keys| && Get(prefs, keys[i]) && keys[i].Name() == n
  {
    if keys == [] then []
    else
      var rest := EnabledAmong(prefs, keys[1..]);
      assert forall i :: 1 <= i < |keys| ==> keys[i] == keys[1..][i - 1];
      assert Subsequence(rest, [keys[0].Name()] + Names(keys[1..])) by {
        SubsequenceCons(rest, Names(keys[1..]), keys[0].Name());
      }
      var names := [keys[0].Name()] + Names(keys[1..]);
      assert names == Names(keys) && names[1..] == Names(keys[1..]);
      if Get(prefs, keys[0]) then
        assert ([keys[0].Name()] + rest)[1..] == rest;
        [keys[0].Name()] + rest
      else rest
  }

  /** The property names of `keys`, in order. */
  function Names(keys: seq<PreferenceKey>): (r: seq<string>)
    ensures |r| == |keys|
  {
    if keys == [] then [] else [keys[0].Name()] + Names(keys[1..])
  }

  /** The seven property names in declaration order. */
  const FeatureNames: seq<string> :=
    ["nutrition", "hydration", "movement", "sleep", "relaxation", "digitalWellness", "outdoorTime"]

  /** `Object.entries(preferences).filter(([k, v]) => v).map(([k]) => k)`: the
      names whose toggle is on, in declaration order. As the seven names are
      distinct, the two ensures below fix the list. */
  function EnabledFeatures(prefs: Preferences): (r: seq<string>)
    ensures |r| <= |AllKeys|
    ensures forall k: PreferenceKey :: k.Name() in r <==> Get(prefs, k)
    ensures Subsequence(r, FeatureNames)
  {
    assert Names(AllKeys) == FeatureNames;
    var r := EnabledAmong(prefs, AllKeys);
    forall k: PreferenceKey ensures k.Name() in r <==> Get(prefs, k) {
      assert k == AllKeys[KeyIndex(k)];
    }
    r
  }

  /** The position of a key in `AllKeys`. */
  function KeyIndex(k: PreferenceKey): (i: nat)
    ensures i < |AllKeys| && AllKeys[i] == k
  {
    match k
    case NutritionKey => 0
    case HydrationKey => 1
    case MovementKey => 2
    case SleepKey => 3
    case RelaxationKey => 4
    case DigitalWellnessKey => 5
    case OutdoorTimeKey => 6
  }

  /** All toggles on list all seven names in order. */
  lemma AllFeaturesEnabled()
    ensures EnabledFeatures(Preferences(true, true, true, true, true, true, true))
      == ["nutrition", "hydration", "movement", "sleep", "relaxation", "digitalWellness", "outdoorTime"]
  {
    var prefs := Preferences(true, true, true, true, true, true, true);
    var keys := AllKeys;
    var names := ["nutrition", "hydration", "movement", "sleep", "relaxation", "digitalWellness", "outdoorTime"];
    var n := 7;
    while n > 0
      invariant 0 <= n <= 7
      invariant EnabledAmong(prefs, keys[n..]) == names[n..]
    {
      n := n - 1;
      assert keys[n..][1..] == keys[n + 1..];
      assert names[n..] == [keys[n].Name()] + names[n + 1..];
    }
  }

  /** The optional block appended after the profile summary. */
  datatype Modifications =
    | NoModifications
    | CurrentPlanBlock(events: seq<DailyEvent>, request: string)
    | ImportantLine(request: string)

  /** The parts of the prompt that depend on the profile; its fixed wording is
      not modelled. */
  datatype Prompt = Prompt(
    activityLevel: string,
    workStart: string,
    workEnd: string,
    bedtime: string,
    wakeTime: string,
    goals: seq<string>,
    features: seq<string>,
    modifications: Modifications)

  /** `buildPrompt`. */
  function BuildPrompt(p: Profile, currentPlan: Option<Plan>): (r: Prompt)
    ensures r.modifications.CurrentPlanBlock? <==> currentPlan.Some? && Truthy(p.planModifications)
    ensures r.modifications.ImportantLine? <==> currentPlan.None? && Truthy(p.planModifications)
    ensures r.modifications.NoModifications? <==> !Truthy(p.planModifications)
    ensures r.modifications.CurrentPlanBlock? ==>
      r.modifications.events == currentPlan.value.dailyEvents.GetOr([])
    ensures !r.modifications.NoModifications? ==> r.modifications.request == p.planModifications.value
    ensures r.features == EnabledFeatures(p.preferences) && r.goals == p.goals
  {
    var mods :=
      if currentPlan.Some? && Truthy(p.planModifications) then
        CurrentPlanBlock(currentPlan.value.dailyEvents.GetOr([]), p.planModifications.value)
      else if Truthy(p.planModifications) then ImportantLine(p.planModifications.value)
      else NoModifications;
    Prompt(p.activityLevel, p.workSchedule.startTime, p.workSchedule.endTime, p.sleepSchedule.bedtime,
           p.sleepSchedule.wakeTime, p.goals, EnabledFeatures(p.preferences), mods)
  }
}

=== FILE: legacy_chat_service.dfy ===
/** The legacy chat service (`chatService_old.js`): a two-state follow-up machine
    (idle / awaiting `meal_time_change`), a free-text time parser, a fixed-priority
    list of keyword matchers and a keyword fallback. The remote model call is the
    parameter `remote`: its text, or the message of the error it threw. */
module LegacyChatService {
  import opened Base
  import opened Text
  import opened Events
  import opened Profiles
  import opened ChatTypes

  // ---------------------------------------------------------------------------
  // Keywords (Hebrew; matched against the lower-cased message)
  // ---------------------------------------------------------------------------

  const Prefer: string := "מעדיף"
  const Not: string := "לא"
  const Food: string := "אוכל"
  const Two: string := "שתים"
  const TwoPm: string := "14:00"
  const Noon: string := "צהריים"
  const Meal: string := "ארוחה"
  const TimeWord: string := "זמן"
  const PlanWord: string := "תוכנית"
  const Schedule: string := "לוח זמנים"
  const Water: string := "מים"
  const Cup: string := "כוס"
  const Drinking: string := "שתיה"
  const SleepWord: string := "שינה"
  const Sleeping: string := "ישן"
  const ToSleep: string := "לישון"
  const Sport: string := "ספורט"
  const Activity: string := "פעילות"
  const Exercise: string := "תרגיל"
  const ThanksWord: string := "תודה"
  const ThanksMuch: string := "תודה רבה"
  const HelpWord: string := "עזרה"

  /** The keywords whose presence marks a remote reply as needing a plan update. */
  const UpdateKeywords: seq<string> := [
    "שינוי", "שינה", "עבודה", "לוח זמנים", "שעות", "התחלתי", "הפסקתי",
    "לא יכול", "בעיה", "קשה", "עדכון", "שנה", "התאם"
  ]

  /** Defaults used when the profile lacks the value. */
  const DefaultWeight: real := 70.0
  const DefaultBedtime: string := "23:00"
  const DefaultWakeTime: string := "07:00"
  const DefaultActivity: string := "בינונית"

  // ---------------------------------------------------------------------------
  // Intent matchers (on the lower-cased message `m`)
  // ---------------------------------------------------------------------------

  predicate AsksMealChange(m: string) {
    || (Contains(m, Prefer) && Contains(m, Not))
    || (Contains(m, Food) && (Contains(m, Two) || Contains(m, TwoPm) || Contains(m, Noon)))
    || (Contains(m, Meal) && Contains(m, TimeWord))
  }

  predicate AsksPlan(m: string) {
    Contains(m, PlanWord) || Contains(m, Schedule)
  }

  predicate AsksWater(m: string) {
    Contains(m, Water) || Contains(m, Cup) || Contains(m, Drinking)
  }

  predicate AsksSleep(m: string) {
    Contains(m, SleepWord) || Contains(m, Sleeping) || Contains(m, ToSleep)
  }

  predicate AsksExercise(m: string) {
    Contains(m, Sport) || Contains(m, Activity) || Contains(m, Exercise)
  }

  predicate SaysThanks(m: string) {
    Contains(m, ThanksWord) || Contains(m, ThanksMuch)
  }

  predicate AsksHelp(m: string) {
    Contains(m, HelpWord) || Contains(m, "?")
  }

  /** `currentPlan && currentPlan.dailyEvents`. */
  predicate HasEvents(plan: Option<Plan>) {
    plan.Some? && plan.value.dailyEvents.Some?
  }

  /** The events the meal-change flow treats as meals (no `Lunch` test here). */
  predicate IsMealEvent(e: DailyEvent) {
    e.category == Nutrition || Contains(e.title, Meal) || Contains(e.title, Food)
  }

  function MealEvents(events: seq<DailyEvent>): (r: seq<DailyEvent>)
    ensures forall i :: 0 <= i < |r| ==> IsMealEvent(r[i])
    ensures forall e :: multiset(r)[e] == if IsMealEvent(e) then multiset(events)[e] else 0
    ensures Subsequence(r, events)
  {
    Filter(events, IsMealEvent)
  }

  /** The state the meal-change prompt opens. */
  function MealChangeState(events: seq<DailyEvent>): (s: ChatState)
    ensures s.isWaitingForResponse && s.context == Some(MealTimeChange) && WellFormed(s)
    ensures s.data.value.originalEvents == events
  {
    ChatState(true, Some(MealTimeChange), Some(ChatData(events)))
  }

  // ---------------------------------------------------------------------------
  // tryLocalResponse
  // ---------------------------------------------------------------------------

  /** Non-empty replies the matchers can produce: they never ask for a plan
      update, never clear state, and open only the meal-change follow-up. */
  predicate LocalReplyShape(r: Reply) {
    && !r.needsPlanUpdate && !r.clearChatState && r.planUpdate.None?
    && r.message.Canned?
    && (r.chatState.Some? <==> r.message.template.MealTimePrompt?)
    && (r.chatState.Some? ==> r.chatState.value == MealChangeState(r.message.template.mealEvents))
  }

  /** The matchers, first match wins: meal change, plan display (both only with
      a plan that has events), water, sleep, exercise; otherwise no reply. */
  function TryLocalResponse(message: string, profile: Profile, plan: Option<Plan>): (r: Option<Reply>)
    ensures var m := Lower(message);
      r.Some? <==> (HasEvents(plan) && (AsksMealChange(m) || AsksPlan(m)))
                   || AsksWater(m) || AsksSleep(m) || AsksExercise(m)
    ensures r.Some? ==> LocalReplyShape(r.value)
    ensures var m := Lower(message);
      r.Some? && r.value.message.template.MealTimePrompt? <==> HasEvents(plan) && AsksMealChange(m)
    ensures r.Some? && r.value.message.template.MealTimePrompt? ==>
      r.value.message.template.mealEvents == MealEvents(plan.value.dailyEvents.value)
    ensures var m := Lower(message);
      r.Some? && r.value.message.template.PlanOverview? <==>
        HasEvents(plan) && !AsksMealChange(m) && AsksPlan(m)
    ensures var m := Lower(message);
      r.Some? && r.value.message.template.WaterAdvice? <==>
        !(HasEvents(plan) && (AsksMealChange(m) || AsksPlan(m))) && AsksWater(m)
    ensures var m := Lower(message);
      r.Some? && r.value.message.template.SleepAdvice? <==>
        !(HasEvents(plan) && (AsksMealChange(m) || AsksPlan(m))) && !AsksWater(m) && AsksSleep(m)
    ensures var m := Lower(message);
      r.Some? && r.value.message.template.ExerciseAdvice? <==>
        !(HasEvents(plan) && (AsksMealChange(m) || AsksPlan(m))) && !AsksWater(m) && !AsksSleep(m)
        && AsksExercise(m)
  {
    var m := Lower(message);
    if AsksMealChange(m) && HasEvents(plan) then
      var meals := MealEvents(plan.value.dailyEvents.value);
      Some(Reply(Canned(MealTimePrompt(meals)), false, Some(MealChangeState(meals)), false, None))
    else if AsksPlan(m) && HasEvents(plan) then
      Some(Plain(Canned(PlanOverview(plan.value.dailyEvents.value))))
    else if AsksWater(m) then
      Some(Plain(Canned(WaterAdvice(if profile.weight != 0.0 then profile.weight else DefaultWeight))))
    else if AsksSleep(m) then
      var bed := profile.sleepSchedule.bedtime;
      var wake := profile.sleepSchedule.wakeTime;
      Some(Plain(Canned(SleepAdvice(if bed != "" then bed else DefaultBedtime,
                                    if wake != "" then wake else DefaultWakeTime))))
    else if AsksExercise(m) then
      var level := profile.activityLevel;
      Some(Plain(Canned(ExerciseAdvice(if level != "" then level else DefaultActivity))))
    else None
  }

  /** Without a plan only the water, sleep and exercise matchers can fire. */
  lemma LocalWithoutPlan(message: string, profile: Profile)
    ensures var r := TryLocalResponse(message, profile, None);
      r.Some? ==> r.value.message.template.WaterAdvice? || r.value.message.template.SleepAdvice?
                  || r.value.message.template.ExerciseAdvice?
    ensures var m := Lower(message);
      TryLocalResponse(message, profile, None).Some? <==> AsksWater(m) || AsksSleep(m) || AsksExercise(m)
  {
  }

  // ---------------------------------------------------------------------------
  // The time parser of the follow-up: /(\d{1,2})[:\.](\d{2})|(\d{1,2})/
  // ---------------------------------------------------------------------------

  predicate DigitAt(s: string, j: int) {
    0 <= j < |s| && IsAsciiDigit(s[j])
  }

  predicate SeparatorAt(s: string, j: int) {
    0 <= j < |s| && (s[j] == ':' || s[j] == '.')
  }

  /** The index of the first ASCII digit at or after `i` (`|s|` if none). */
  function FirstDigit(s: string, i: nat): (r: nat)
    requires i <= |s|
    ensures i <= r <= |s|
    ensures forall k :: i <= k < r ==> !IsAsciiDigit(s[k])
    ensures r < |s| ==> IsAsciiDigit(s[r])
    decreases |s| - i
  {
    if i == |s| || IsAsciiDigit(s[i]) then i else FirstDigit(s, i + 1)
  }

  /** A normalised time: two digits, a colon, two digits (no range check). */
  predicate IsNormalizedTime(t: string) {
    |t| == 5 && IsAsciiDigit(t[0]) && IsAsciiDigit(t[1]) && t[2] == ':'
    && IsAsciiDigit(t[3]) && IsAsciiDigit(t[4])
  }

  /** The normalised time of the match that starts at the digit `s[i]`: the
      first alternative with a two-digit hour, then with a one-digit hour, then
      the bare-hour alternative (greedy: two digits before one). */
  function TimeAt(s: string, i: nat): (t: string)
    requires DigitAt(s, i)
    ensures IsNormalizedTime(t)
  {
    if DigitAt(s, i + 1) && SeparatorAt(s, i + 2) && DigitAt(s, i + 3) && DigitAt(s, i + 4) then
      PadStart2(s[i..i + 2]) + ":" + s[i + 3..i + 5]
    else if SeparatorAt(s, i + 1) && DigitAt(s, i + 2) && DigitAt(s, i + 3) then
      PadStart2(s[i..i + 1]) + ":" + s[i + 2..i + 4]
    else if DigitAt(s, i + 1) then
      PadStart2(s[i..i + 2]) + ":00"
    else
      PadStart2(s[i..i + 1]) + ":00"
  }

  /** The leftmost match of the pattern, normalised to `HH:MM`. Every
      alternative starts with a digit and the bare-hour one matches any digit,
      so the match starts at the first digit; there is none without a digit. */
  function ExtractTime(message: string): (r: Option<string>)
    ensures r.Some? <==> HasAsciiDigit(message)
    ensures r.Some? ==> IsNormalizedTime(r.value)
  {
    var i := FirstDigit(message, 0);
    if i < |message| then Some(TimeAt(message, i)) else None
  }

  // ---------------------------------------------------------------------------
  // handleFollowUpResponse
  // ---------------------------------------------------------------------------

  /** The follow-up resolver. In `meal_time_change` a message with a time
      yields the plan update and clears the state; one without keeps the state
      and asks again. Any other context answers "let's start over" and clears. */
  function HandleFollowUp(message: string, state: ChatState): (r: Reply)
    requires state.isWaitingForResponse && WellFormed(state)
    ensures r.chatState.None?
    ensures state.context == Some(MealTimeChange) ==>
      (r.needsPlanUpdate <==> HasAsciiDigit(message)) && (r.clearChatState <==> HasAsciiDigit(message))
    ensures state.context == Some(MealTimeChange) && HasAsciiDigit(message) ==>
      && r.planUpdate == Some(PlanUpdate(MealTimeChange, ExtractTime(message).value,
                                         state.data.value.originalEvents))
      && r.message == Canned(MealTimeConfirmed(ExtractTime(message).value))
    ensures state.context == Some(MealTimeChange) && !HasAsciiDigit(message) ==>
      r == Plain(Canned(TimeNotUnderstood))
    ensures state.context != Some(MealTimeChange) ==>
      r.clearChatState && !r.needsPlanUpdate && r.planUpdate.None? && r.message == Canned(StartOver)
  {
    if state.context == Some(MealTimeChange) then
      match ExtractTime(message)
      case Some(t) =>
        Reply(Canned(MealTimeConfirmed(t)), true, None, true,
              Some(PlanUpdate(MealTimeChange, t, state.data.value.originalEvents)))
      case None =>
        Plain(Canned(TimeNotUnderstood))
    else
      Reply(Canned(StartOver), false, None, true, None)
  }

  // ---------------------------------------------------------------------------
  // checkIfPlanUpdateNeeded, getFallbackResponse, handleUserMessage
  // ---------------------------------------------------------------------------

  /** True iff the lower-cased message contains one of the update keywords. */
  function CheckIfPlanUpdateNeeded(message: string): (b: bool)
    ensures b <==> exists k :: 0 <= k < |UpdateKeywords| && Contains(Lower(message), UpdateKeywords[k])
  {
    ContainsAny(Lower(message), UpdateKeywords)
  }

  /** The reply when the remote call failed: the matchers without a plan, then
      thanks, then help (`עזרה` or `?`), then the generic reply. */
  function FallbackResponse(message: string, profile: Profile): (r: Reply)
    ensures !r.needsPlanUpdate && KeepsState(r) && r.planUpdate.None?
    ensures TryLocalResponse(message, profile, None).Some? ==> r == TryLocalResponse(message, profile, None).value
    ensures var m := Lower(message);
      !(AsksWater(m) || AsksSleep(m) || AsksExercise(m)) ==>
        r.message == Canned(if SaysThanks(m) then Thanks else if AsksHelp(m) then Help else Generic)
  {
    var m := Lower(message);
    match TryLocalResponse(message, profile, None)
    case Some(local) => local
    case None =>
      if SaysThanks(m) then Plain(Canned(Thanks))
      else if AsksHelp(m) then Plain(Canned(Help))
      else Plain(Canned(Generic))
  }

  /** `handleUserMessage`: while a follow-up is pending only the resolver runs;
      otherwise the local matchers, then the remote reply (flagged by the update
      keywords), then the fallback when the remote call failed. */
  function HandleUserMessage(message: string, profile: Profile, plan: Option<Plan>,
                             state: ChatState, remote: Result<string>): (r: Reply)
    requires WellFormed(state)
    ensures state.isWaitingForResponse ==> r == HandleFollowUp(message, state)
    ensures !state.isWaitingForResponse && TryLocalResponse(message, profile, plan).Some? ==>
      r == TryLocalResponse(message, profile, plan).value
    ensures !state.isWaitingForResponse && TryLocalResponse(message, profile, plan).None? && remote.Ok? ==>
      r == Reply(Free(remote.value), CheckIfPlanUpdateNeeded(message), None, false, None)
    ensures r.chatState.Some? ==> WellFormed(r.chatState.value) && r.chatState.value.isWaitingForResponse
    ensures r.planUpdate.Some? ==> r.needsPlanUpdate && r.clearChatState && state.isWaitingForResponse
  {
    if state.isWaitingForResponse then
      HandleFollowUp(message, state)
    else
      match TryLocalResponse(message, profile, plan)
      case Some(local) => local
      case None =>
        match remote
        case Ok(text) => Reply(Free(text), CheckIfPlanUpdateNeeded(message), None, false, None)
        case Err(_) => FallbackResponse(message, profile)
  }

  // ---------------------------------------------------------------------------
  // Properties of the time parser
  // ---------------------------------------------------------------------------

  /** A text with no digit in it. */
  predicate DigitFree(p: string) {
    forall k :: 0 <= k < |p| ==> !IsAsciiDigit(p[k])
  }

  lemma FirstDigitAfterPrefix(p: string, rest: string)
    requires DigitFree(p) && |rest| > 0 && IsAsciiDigit(rest[0])
    ensures FirstDigit(p + rest, 0) == |p|
  {
    var s := p + rest;
    assert forall k :: 0 <= k < |p| ==> s[k] == p[k];
    assert s[|p|] == rest[0];
  }

  /** A normalised time after any digit-free text is read back unchanged,
      whatever follows it, and so is its `HH.MM` spelling. */
  lemma {:induction false} ExtractTimeRoundTrip(p: string, t: string, q: string, sep: char)
    requires DigitFree(p) && IsNormalizedTime(t) && (sep == ':' || sep == '.')
    ensures ExtractTime(p + t + q) == Some(t)
    ensures ExtractTime(p + t[..2] + [sep] + t[3..] + q) == Some(t)
  {
    assert t == [t[0], t[1], ':', t[3], t[4]];
    var spelled := [t[0], t[1], sep, t[3], t[4]];
    assert p + t[..2] + [sep] + t[3..] + q == p + spelled + q;
    ExtractTimeTwoDigitHour(p, t[0], t[1], ':', t[3], t[4], q);
    ExtractTimeTwoDigitHour(p, t[0], t[1], sep, t[3], t[4], q);
  }

  /** Two hour digits, a separator and two minute digits come out as they are,
      with a colon. */
  lemma ExtractTimeTwoDigitHour(p: string, h1: char, h2: char, sep: char, m1: char, m2: char, q: string)
    requires DigitFree(p) && IsAsciiDigit(h1) && IsAsciiDigit(h2) && IsAsciiDigit(m1) && IsAsciiDigit(m2)
    requires sep == ':' || sep == '.'
    ensures ExtractTime(p + [h1, h2, sep, m1, m2] + q) == Some([h1, h2, ':', m1, m2])
  {
    var s := p + [h1, h2, sep, m1, m2] + q;
    assert s == p + ([h1, h2, sep, m1, m2] + q);
    FirstDigitAfterPrefix(p, [h1, h2, sep, m1, m2] + q);
    var i := |p|;
    assert s[i] == h1 && s[i + 1] == h2 && s[i + 2] == sep && s[i + 3] == m1 && s[i + 4] == m2;
    assert s[i..i + 2] == [h1, h2] && s[i + 3..i + 5] == [m1, m2];
    assert PadStart2([h1, h2]) == [h1, h2];
    assert TimeAt(s, i) == [h1, h2] + ":" + [m1, m2] == [h1, h2, ':', m1, m2];
    assert ExtractTime(s) == Some(TimeAt(s, i));
  }

  /** A one-digit hour before the separator is left-padded with a zero. */
  lemma ExtractTimeOneDigitHour(p: string, h: char, sep: char, m1: char, m2: char, q: string)
    requires DigitFree(p) && IsAsciiDigit(h) && IsAsciiDigit(m1) && IsAsciiDigit(m2)
    requires sep == ':' || sep == '.'
    ensures ExtractTime(p + [h, sep, m1, m2] + q) == Some(['0', h, ':', m1, m2])
  {
    var s := p + [h, sep, m1, m2] + q;
    assert s == p + ([h, sep, m1, m2] + q);
    FirstDigitAfterPrefix(p, [h, sep, m1, m2] + q);
    var i := |p|;
    assert s[i] == h && s[i + 1] == sep && s[i + 2] == m1 && s[i + 3] == m2;
    assert s[i..i + 1] == [h] && s[i + 2..i + 4] == [m1, m2];
    assert !DigitAt(s, i + 1) && SeparatorAt(s, i + 1) && DigitAt(s, i + 2) && DigitAt(s, i + 3);
    assert PadStart2([h]) == ['0', h];
    assert TimeAt(s, i) == ['0', h] + ":" + [m1, m2] == ['0', h, ':', m1, m2];
    assert ExtractTime(s) == Some(TimeAt(s, i));
  }

  /** The separator and digit tests read the same past a prefix. */
  lemma ShiftedTests(a: string, q: string)
    ensures SeparatorAt(a + q, |a|) <==> SeparatorAt(q, 0)
    ensures DigitAt(a + q, |a| + 1) <==> DigitAt(q, 1)
    ensures DigitAt(a + q, |a| + 2) <==> DigitAt(q, 2)
  {
    if |q| > 0 { assert (a + q)[|a|] == q[0]; }
    if |q| > 1 { assert (a + q)[|a| + 1] == q[1]; }
    if |q| > 2 { assert (a + q)[|a| + 2] == q[2]; }
  }

  /** A bare two-digit hour not followed by a separator and two digits gets
      `:00`, with no range check on the hour. */
  lemma ExtractTimeBareHour(p: string, h1: char, h2: char, q: string)
    requires DigitFree(p) && IsAsciiDigit(h1) && IsAsciiDigit(h2)
    requires !(SeparatorAt(q, 0) && DigitAt(q, 1) && DigitAt(q, 2))
    ensures ExtractTime(p + [h1, h2] + q) == Some([h1, h2, ':', '0', '0'])
  {
    var s := p + [h1, h2] + q;
    assert s == p + ([h1, h2] + q);
    FirstDigitAfterPrefix(p, [h1, h2] + q);
    var i := |p|;
    assert s[i] == h1 && s[i + 1] == h2;
    assert !(SeparatorAt(s, i + 2) && DigitAt(s, i + 3) && DigitAt(s, i + 4)) by {
      ShiftedTests(p + [h1, h2], q);
    }
    assert s[i..i + 2] == [h1, h2];
    assert TimeAt(s, i) == [h1, h2] + ":00" == [h1, h2, ':', '0', '0'];
    assert ExtractTime(s) == Some(TimeAt(s, i));
  }

  /** A lone one-digit hour, followed by neither a digit nor a separator and
      two digits, is left-padded and gets `:00`. */
  lemma ExtractTimeBareOneDigit(p: string, h: char, q: string)
    requires DigitFree(p) && IsAsciiDigit(h) && !DigitAt(q, 0)
    requires !(SeparatorAt(q, 0) && DigitAt(q, 1) && DigitAt(q, 2))
    ensures ExtractTime(p + [h] + q) == Some(['0', h, ':', '0', '0'])
  {
    var s := p + [h] + q;
    assert s == p + ([h] + q);
    FirstDigitAfterPrefix(p, [h] + q);
    var i := |p|;
    assert s[i] == h;
    assert !DigitAt(s, i + 1) && !(SeparatorAt(s, i + 1) && DigitAt(s, i + 2) && DigitAt(s, i + 3)) by {
      ShiftedTests(p + [h], q);
      if |q| > 0 { assert s[i + 1] == q[0]; }
    }
    assert s[i..i + 1] == [h];
    assert PadStart2([h]) == ['0', h];
    assert TimeAt(s, i) == ['0', h] + ":00" == ['0', h, ':', '0', '0'];
    assert ExtractTime(s) == Some(TimeAt(s, i));
  }

  /** The likeliest answer to the meal-time question, an hour on its own. */
  lemma ExtractTimeExampleBareOneDigit()
    ensures ExtractTime("at 7 pm") == Some("07:00")
  {
    ExtractTimeBareOneDigit("at ", '7', " pm");
    assert "at 7 pm" == "at " + ['7'] + " pm";
  }

  /** The worked examples: `12:30`, `9.15`, `13`, the unchecked `99` and `123:45`,
      and a sentence without digits. */
  lemma ExtractTimeExamples()
    ensures ExtractTime("12:30") == Some("12:30")
    ensures ExtractTime("9.15") == Some("09:15")
    ensures ExtractTime("13") == Some("13:00")
    ensures ExtractTime("99") == Some("99:00")
    ensures ExtractTime("123:45") == Some("12:00")
    ensures ExtractTime("at 7:30 please") == Some("07:30")
    ensures ExtractTime("i prefer to eat later") == None
    ensures ExtractTime("at 7 pm") == Some("07:00")
  {
    ExtractTimeExampleBareOneDigit();
    ExtractTimeExample1();
    ExtractTimeExamplesOneDigit();
    ExtractTimeExamplesBare();
    ExtractTimeExampleNoDigit();
  }

  lemma ExtractTimeExampleNoDigit()
    ensures ExtractTime("i prefer to eat later") == None
  {
    var s := "i prefer to eat later";
    assert !HasAsciiDigit(s) by {
      forall k | 0 <= k < |s| ensures !IsAsciiDigit(s[k]) {}
    }
  }

  lemma ExtractTimeExample1()
    ensures ExtractTime("12:30") == Some("12:30")
  {
    ExtractTimeRoundTrip("", "12:30", "", ':');
    assert "12:30" == "" + "12:30" + "";
  }

  lemma ExtractTimeExamplesOneDigit()
    ensures ExtractTime("9.15") == Some("09:15")
    ensures ExtractTime("at 7:30 please") == Some("07:30")
  {
    ExtractTimeExampleDotted();
    ExtractTimeExampleInSentence();
  }

  lemma ExtractTimeExampleDotted()
    ensures ExtractTime("9.15") == Some("09:15")
  {
    ExtractTimeOneDigitHour("", '9', '.', '1', '5', "");
    assert "9.15" == "" + ['9', '.', '1', '5'] + "";
  }

  lemma ExtractTimeExampleInSentence()
    ensures ExtractTime("at 7:30 please") == Some("07:30")
  {
    ExtractTimeOneDigitHour("at ", '7', ':', '3', '0', " please");
    assert "at 7:30 please" == "at " + ['7', ':', '3', '0'] + " please";
  }

  lemma ExtractTimeExamplesBare()
    ensures ExtractTime("13") == Some("13:00")
    ensures ExtractTime("99") == Some("99:00")
    ensures ExtractTime("123:45") == Some("12:00")
  {
    ExtractTimeBareHour("", '1', '3', "");
    assert "13" == "" + ['1', '3'] + "";
    ExtractTimeBareHour("", '9', '9', "");
    assert "99" == "" + ['9', '9'] + "";
    ExtractTimeBareHour("", '1', '2', "3:45");
    assert "123:45" == "" + ['1', '2'] + "3:45";
  }

  // ---------------------------------------------------------------------------
  // Properties of the dispatcher
  // ---------------------------------------------------------------------------

  /** While a follow-up is pending the reply comes from the resolver alone: it
      is one of the resolver's three replies, opens no new state, and neither
      the remote call nor the plan nor the profile can change it. */
  lemma PendingFollowUpOnlyResolves(message: string, profile: Profile, plan: Option<Plan>, state: ChatState,
                                    remote: Result<string>, profile': Profile, plan': Option<Plan>,
                                    remote': Result<string>)
    requires WellFormed(state) && state.isWaitingForResponse
    ensures var r := HandleUserMessage(message, profile, plan, state, remote);
      && r == HandleUserMessage(message, profile', plan', state, remote')
      && r.message.Canned?
      && (r.message.template.MealTimeConfirmed? || r.message.template.TimeNotUnderstood?
          || r.message.template.StartOver?)
      && r.chatState.None?
  {
  }

  /** When the remote call fails after the matchers found nothing, the
      fallback's own call of the matchers finds nothing either (the water,
      sleep and exercise matchers ignore the plan), so the reply is thanks,
      help or the generic one. */
  lemma {:induction false} FailedRemoteGivesKeywordFallback(message: string, profile: Profile, plan: Option<Plan>,
                                                            state: ChatState, error: string)
    requires WellFormed(state) && !state.isWaitingForResponse
    requires TryLocalResponse(message, profile, plan).None?
    ensures var r := HandleUserMessage(message, profile, plan, state, Err(error));
      var m := Lower(message);
      r == Plain(Canned(if SaysThanks(m) then Thanks else if AsksHelp(m) then Help else Generic))
  {
    LocalWithoutPlan(message, profile);
  }

  /** The idle/awaiting machine: from idle, a reply either stays idle or enters
      `meal_time_change` with the plan's meal events; from awaiting
      `meal_time_change`, a message with a digit returns to idle and emits the
      plan update, one without stays put. */
  lemma MealTimeFlow(trigger: string, answer: string, profile: Profile, plan: Plan, remote: Result<string>)
    requires plan.dailyEvents.Some? && AsksMealChange(Lower(trigger))
    ensures var r1 := HandleUserMessage(trigger, profile, Some(plan), IdleState, remote);
      && r1.chatState == Some(MealChangeState(MealEvents(plan.dailyEvents.value)))
      && !r1.needsPlanUpdate
      && var s := r1.chatState.value;
         var r2 := HandleUserMessage(answer, profile, Some(plan), s, remote);
         && (HasAsciiDigit(answer) ==>
               r2.clearChatState && r2.needsPlanUpdate
               && r2.planUpdate == Some(PlanUpdate(MealTimeChange, ExtractTime(answer).value,
                                                   MealEvents(plan.dailyEvents.value))))
         && (!HasAsciiDigit(answer) ==> KeepsState(r2) && !r2.needsPlanUpdate)
  {
  }
}

=== FILE: onboarding.dfy ===
/** The onboarding form (`Onboarding.tsx`): a default profile, a goal toggle
    and a preference toggle, and the profile the form submits to the profile
    route. */
module Onboarding {
  import opened Base
  import opened Profiles
  import opened UserRoutes

  /** The form's starting state: every toggle on, no goal chosen, no
      instruction, and every time already in `HH:MM` form. */
  function DefaultProfile(): (p: Profile)
    ensures forall k :: Get(p.preferences, k)
    ensures p.goals == [] && p.planModifications.None?
    ensures ValidTime(p.workSchedule.startTime) && ValidTime(p.workSchedule.endTime)
    ensures ValidTime(p.sleepSchedule.bedtime) && ValidTime(p.sleepSchedule.wakeTime)
  {
    assert ValidTime("09:00") && ValidTime("17:00") && ValidTime("23:00") && ValidTime("07:00");
    Profile(
      25.0, 170.0, 70.0, "moderate",
      WorkSchedule("09:00", "17:00", ["monday", "tuesday", "wednesday", "thursday", "friday"]),
      SleepSchedule("23:00", "07:00"),
      [],
      Preferences(true, true, true, true, true, true, true),
      None)
  }

  /** The goal checkboxes the form offers, in display order. */
  const OfferedGoals: seq<string> := ["energy", "routine", "consistency", "balance"]

  /** The `min`/`max` attributes of the number inputs. */
  const FormAgeMin: real := 13.0
  const FormAgeMax: real := 120.0
  const FormHeightMin: real := 100.0
  const FormHeightMax: real := 250.0
  const FormWeightMin: real := 30.0
  const FormWeightMax: real := 300.0

  /** `handleGoalToggle`: a goal present is removed everywhere, an absent goal
      is appended; nothing else changes. */
  function ToggleGoal(p: Profile, goal: string): (r: Profile)
    ensures r == p.(goals := r.goals)
    ensures goal in p.goals ==> goal !in r.goals && Subsequence(r.goals, p.goals)
    ensures goal in p.goals ==> forall g :: g != goal ==> multiset(r.goals)[g] == multiset(p.goals)[g]
    ensures goal !in p.goals ==> r.goals == p.goals + [goal]
  {
    if goal in p.goals then
      p.(goals := Filter(p.goals, g => g != goal))
    else p.(goals := p.goals + [goal])
  }

  /** Toggling an absent goal twice gives the original list back. */
  lemma ToggleAbsentGoalTwice(p: Profile, goal: string)
    requires goal !in p.goals
    ensures ToggleGoal(ToggleGoal(p, goal), goal) == p
  {
    var once := ToggleGoal(p, goal);
    assert goal in once.goals;
    FilterAppend(p.goals, [goal], g => g != goal);
    FilterKeepsAll(p.goals, g => g != goal);
    assert Filter([goal], g => g != goal) == [];
  }

  /** No goal listed twice. */
  predicate NoDuplicates(goals: seq<string>) {
    forall i, j :: 0 <= i < j < |goals| ==> goals[i] != goals[j]
  }

  /** A list without duplicates keeps that property under every toggle. */
  lemma ToggleKeepsNoDuplicates(p: Profile, goal: string)
    requires NoDuplicates(p.goals)
    ensures NoDuplicates(ToggleGoal(p, goal).goals)
  {
    var r := ToggleGoal(p, goal).goals;
    if goal in p.goals {
      forall g ensures multiset(r)[g] <= 1 {
        DistinctCount(p.goals, g);
      }
      forall i, j | 0 <= i < j < |r| ensures r[i] != r[j] {
        if r[i] == r[j] {
          CountTwo(r, i, j);
        }
      }
    }
  }

  /** In a list without duplicates every element occurs at most once. */
  lemma {:induction false} DistinctCount(s: seq<string>, g: string)
    requires NoDuplicates(s)
    ensures multiset(s)[g] <= 1
  {
    if s != [] {
      assert NoDuplicates(s[1..]);
      DistinctCount(s[1..], g);
      assert s == [s[0]] + s[1..];
      if s[0] == g {
        assert g !in s[1..];
      }
    }
  }

  /** Two equal elements at different positions count twice. */
  lemma {:induction false} CountTwo(s: seq<string>, i: nat, j: nat)
    requires i < j < |s| && s[i] == s[j]
    ensures multiset(s)[s[i]] >= 2
  {
    assert s == s[..j] + [s[j]] + s[j + 1..];
    assert s[i] in s[..j];
    assert multiset(s) == multiset(s[..j]) + multiset{s[j]} + multiset(s[j + 1..]);
  }

  /** `handlePreferenceToggle`: one key negated, everything else unchanged. */
  function TogglePreference(p: Profile, k: PreferenceKey): (r: Profile)
    ensures r == p.(preferences := r.preferences)
    ensures Get(r.preferences, k) == !Get(p.preferences, k)
    ensures forall k' :: k' != k ==> Get(r.preferences, k') == Get(p.preferences, k')
  {
    p.(preferences := Set(p.preferences, k, !Get(p.preferences, k)))
  }

  /** Toggling a preference twice restores it. */
  lemma TogglePreferenceTwice(p: Profile, k: PreferenceKey)
    ensures TogglePreference(TogglePreference(p, k), k) == p
  {
    var r := TogglePreference(TogglePreference(p, k), k);
    assert forall k' :: Get(r.preferences, k') == Get(p.preferences, k');
    assert r.preferences == p.preferences by {
      assert Get(r.preferences, NutritionKey) == Get(p.preferences, NutritionKey);
      assert Get(r.preferences, HydrationKey) == Get(p.preferences, HydrationKey);
      assert Get(r.preferences, MovementKey) == Get(p.preferences, MovementKey);
      assert Get(r.preferences, SleepKey) == Get(p.preferences, SleepKey);
      assert Get(r.preferences, RelaxationKey) == Get(p.preferences, RelaxationKey);
      assert Get(r.preferences, DigitalWellnessKey) == Get(p.preferences, DigitalWellnessKey);
      assert Get(r.preferences, OutdoorTimeKey) == Get(p.preferences, OutdoorTimeKey);
    }
  }

  /** The JSON body `updateProfile(profile)` sends: every key present. */
  function ToBody(p: Profile): (b: ProfileBody)
    ensures b.age == Some(p.age) && b.height == Some(p.height) && b.weight == Some(p.weight)
    ensures b.goals == Some(p.goals)
    ensures b.sleepSchedule == Some(SleepScheduleBody(Some(p.sleepSchedule.bedtime), Some(p.sleepSchedule.wakeTime)))
    ensures b.activityLevel == Some(p.activityLevel)
    ensures b.workSchedule == Some(WorkScheduleBody(Some(p.workSchedule.startTime), Some(p.workSchedule.endTime),
                                                    Some(p.workSchedule.workDays)))
    ensures b.preferences.Some? && b.preferences.value.nutrition == Some(p.preferences.nutrition)
      && b.preferences.value.hydration == Some(p.preferences.hydration)
      && b.preferences.value.movement == Some(p.preferences.movement)
      && b.preferences.value.sleep == Some(p.preferences.sleep)
      && b.preferences.value.relaxation == Some(p.preferences.relaxation)
      && b.preferences.value.digitalWellness == Some(p.preferences.digitalWellness)
      && b.preferences.value.outdoorTime == Some(p.preferences.outdoorTime)
  {
    var prefs := p.preferences;
    ProfileBody(
      Some(p.age), Some(p.height), Some(p.weight), Some(p.activityLevel),
      Some(WorkScheduleBody(Some(p.workSchedule.startTime), Some(p.workSchedule.endTime),
                            Some(p.workSchedule.workDays))),
      Some(SleepScheduleBody(Some(p.sleepSchedule.bedtime), Some(p.sleepSchedule.wakeTime))),
      Some(p.goals),
      Some(PreferencesBody(Some(prefs.nutrition), Some(prefs.hydration), Some(prefs.movement), Some(prefs.sleep),
                           Some(prefs.relaxation), Some(prefs.digitalWellness), Some(prefs.outdoorTime))))
  }

  /** The body loses nothing of the form but the transient instruction: two
      forms submit the same body exactly when they agree on every other field. */
  lemma ToBodyLossless(p: Profile, q: Profile)
    requires p.planModifications == q.planModifications
    ensures ToBody(p) == ToBody(q) <==> p == q
  {
    if ToBody(p) == ToBody(q) {
      assert p.workSchedule == q.workSchedule && p.sleepSchedule == q.sleepSchedule;
      assert p.preferences == q.preferences;
    }
  }

  /** The default profile passes the server's schema. */
  lemma DefaultProfileValid()
    ensures Valid(ToBody(DefaultProfile()))
    ensures UpdateProfile(Account(EmptyBody, false), ToBody(DefaultProfile())).status == 200
  {
    assert ValidTime("09:00") && ValidTime("17:00") && ValidTime("23:00") && ValidTime("07:00");
  }

  /** The number inputs admit exactly the values the server accepts. */
  lemma FormBoundsMatchServer(x: real)
    ensures FormAgeMin <= x <= FormAgeMax <==> InRange(Some(x), AgeMin, AgeMax)
    ensures FormHeightMin <= x <= FormHeightMax <==> InRange(Some(x), HeightMin, HeightMax)
    ensures FormWeightMin <= x <= FormWeightMax <==> InRange(Some(x), WeightMin, WeightMax)
  {
  }

  /** The offered goals are exactly the goals the server accepts. */
  lemma OfferedGoalsAreServerGoals()
    ensures forall g :: g in OfferedGoals <==> g in Goals
  {
  }

  /** A click on the form: a goal checkbox (by its position) or a preference checkbox. */
  datatype Click = GoalClick(index: nat) | PreferenceClick(key: PreferenceKey)

  /** The form state after one click; a goal index past the offered list does nothing. */
  function ApplyClick(p: Profile, c: Click): Profile {
    match c
    case GoalClick(i) => if i < |OfferedGoals| then ToggleGoal(p, OfferedGoals[i]) else p
    case PreferenceClick(k) => TogglePreference(p, k)
  }

  /** The form state after a run of clicks. */
  function ApplyClicks(p: Profile, cs: seq<Click>): Profile
    decreases |cs|
  {
    if cs == [] then p else ApplyClicks(ApplyClick(p, cs[0]), cs[1..])
  }

  /** The fields the checkboxes cannot break. */
  predicate ClickSafe(p: Profile) {
    Valid(ToBody(p)) && NoDuplicates(p.goals)
  }

  /** One click keeps the submitted body valid and the goals duplicate-free. */
  lemma ClickKeepsValid(p: Profile, c: Click)
    requires ClickSafe(p)
    ensures ClickSafe(ApplyClick(p, c))
  {
    match c
    case GoalClick(i) =>
      if i < |OfferedGoals| {
        var g := OfferedGoals[i];
        var r := ToggleGoal(p, g);
        ToggleKeepsNoDuplicates(p, g);
        forall j | 0 <= j < |r.goals| ensures r.goals[j] in Goals {
          if g in p.goals {
            assert r.goals[j] in multiset(r.goals);
            assert r.goals[j] in multiset(p.goals);
          } else if j == |p.goals| {
            assert r.goals[j] == g;
          } else {
            assert r.goals[j] == p.goals[j];
          }
        }
      }
    case PreferenceClick(k) =>
  }

  /** Any run of checkbox clicks on the default form submits a valid body. */
  lemma {:induction false} ClicksKeepValid(p: Profile, cs: seq<Click>)
    requires ClickSafe(p)
    ensures ClickSafe(ApplyClicks(p, cs))
    decreases |cs|
  {
    if cs != [] {
      ClickKeepsValid(p, cs[0]);
      ClicksKeepValid(ApplyClick(p, cs[0]), cs[1..]);
    }
  }

  /** From the default form, every run of checkbox clicks is accepted by the server. */
  lemma DefaultFormAlwaysAccepted(cs: seq<Click>)
    ensures Valid(ToBody(ApplyClicks(DefaultProfile(), cs)))
  {
    DefaultProfileValid();
    ClicksKeepValid(DefaultProfile(), cs);
  }
}

=== FILE: profiles.dfy ===
/** The user profile the services read: demographics, schedule anchors, goals
    and the seven feature toggles. */
module Profiles {
  import opened Base

  /** The seven feature toggles, in their declaration order. */
  datatype Preferences = Preferences(
    nutrition: bool,
    hydration: bool,
    movement: bool,
    sleep: bool,
    relaxation: bool,
    digitalWellness: bool,
    outdoorTime: bool)

  /** The keys of `Preferences`, so that one toggle can be named. */
  datatype PreferenceKey =
    | NutritionKey | HydrationKey | MovementKey | SleepKey
    | RelaxationKey | DigitalWellnessKey | OutdoorTimeKey
  {
    /** The property name as it appears in the stored object. */
    function Name(): string {
      match this
      case NutritionKey => "nutrition"
      case HydrationKey => "hydration"
      case MovementKey => "movement"
      case SleepKey => "sleep"
      case RelaxationKey => "relaxation"
      case DigitalWellnessKey => "digitalWellness"
      case OutdoorTimeKey => "outdoorTime"
    }
  }

  /** Every key, in the order `Object.entries` lists the stored object's fields. */
  const AllKeys: seq<PreferenceKey> :=
    [NutritionKey, HydrationKey, MovementKey, SleepKey, RelaxationKey, DigitalWellnessKey, OutdoorTimeKey]

  /** `preferences[key]`. */
  function Get(p: Preferences, k: PreferenceKey): bool {
    match k
    case NutritionKey => p.nutrition
    case HydrationKey => p.hydration
    case MovementKey => p.movement
    case SleepKey => p.sleep
    case RelaxationKey => p.relaxation
    case DigitalWellnessKey => p.digitalWellness
    case OutdoorTimeKey => p.outdoorTime
  }

  /** `{ ...p, [k]: v }`. */
  function Set(p: Preferences, k: PreferenceKey, v: bool): (r: Preferences)
    ensures Get(r, k) == v
    ensures forall k' :: k' != k ==> Get(r, k') == Get(p, k')
  {
    match k
    case NutritionKey => p.(nutrition := v)
    case HydrationKey => p.(hydration := v)
    case MovementKey => p.(movement := v)
    case SleepKey => p.(sleep := v)
    case RelaxationKey => p.(relaxation := v)
    case DigitalWellnessKey => p.(digitalWellness := v)
    case OutdoorTimeKey => p.(outdoorTime := v)
  }

  datatype WorkSchedule = WorkSchedule(startTime: string, endTime: string, workDays: seq<string>)

  datatype SleepSchedule = SleepSchedule(bedtime: string, wakeTime: string)

  /** A complete profile. Numbers are JavaScript numbers (0 is falsy); a string
      field that is absent is the empty string (equally falsy). The server's
      schema refuses an empty time, so an empty sleep time is one never sent.
      `planModifications` is the transient free-text instruction. */
  datatype Profile = Profile(
    age: real,
    height: real,
    weight: real,
    activityLevel: string,
    workSchedule: WorkSchedule,
    sleepSchedule: SleepSchedule,
    goals: seq<string>,
    preferences: Preferences,
    planModifications: Option<string>)

  /** JavaScript truthiness of an optional string. */
  predicate Truthy(o: Option<string>) {
    o.Some? && o.value != ""
  }
}

=== FILE: text.dfy ===
/** The JavaScript string primitives the services rely on: `includes`, `indexOf`,
    `toLowerCase`, `trim`, `padStart` and the code-point order used for sorting times. */
module Text {
  import opened Base

  // ---------------------------------------------------------------------------
  // Substring search (`String.prototype.indexOf` / `includes`)
  // ---------------------------------------------------------------------------

  /** `sub` occurs in `s` starting at index `i`. */
  predicate OccursAt(s: string, sub: string, i: int) {
    0 <= i && i + |sub| <= |s| && s[i..i + |sub|] == sub
  }

  /** The first index at or after `k` where `sub` occurs in `s`. */
  function IndexOfFrom(s: string, sub: string, k: nat): (r: Option<nat>)
    ensures r.Some? ==> k <= r.value && OccursAt(s, sub, r.value)
    ensures r.Some? ==> forall i :: k <= i < r.value ==> !OccursAt(s, sub, i)
    ensures r.None? ==> forall i :: k <= i ==> !OccursAt(s, sub, i)
    decreases |s| - k
  {
    if k + |sub| > |s| then None
    else if s[k..k + |sub|] == sub then Some(k)
    else IndexOfFrom(s, sub, k + 1)
  }

  /** `s.indexOf(sub)`, with -1 rendered as `None`: the leftmost occurrence. */
  function IndexOf(s: string, sub: string): (r: Option<nat>)
    ensures r.Some? ==> OccursAt(s, sub, r.value)
    ensures r.Some? ==> forall i :: 0 <= i < r.value ==> !OccursAt(s, sub, i)
    ensures r.None? <==> forall i :: !OccursAt(s, sub, i)
  {
    IndexOfFrom(s, sub, 0)
  }

  /** `s.includes(sub)`. */
  predicate Contains(s: string, sub: string) {
    IndexOf(s, sub).Some?
  }

  /** `includes` holds exactly when some position carries the substring. */
  lemma ContainsIff(s: string, sub: string)
    ensures Contains(s, sub) <==> exists i :: OccursAt(s, sub, i)
  {
  }

  /** Witness form: one occurrence is enough for `includes`. */
  lemma ContainsAt(s: string, sub: string, i: int)
    requires OccursAt(s, sub, i)
    ensures Contains(s, sub)
  {
  }

  /** A string contains itself and every string contains the empty string. */
  lemma ContainsSelfAndEmpty(s: string)
    ensures Contains(s, s) && Contains(s, "")
  {
    assert OccursAt(s, s, 0);
    assert OccursAt(s, "", 0);
  }

  /** A string placed somewhere inside a concatenation is contained in it. */
  lemma ContainsInConcat(a: string, sub: string, b: string)
    ensures Contains(a + sub + b, sub)
  {
    assert (a + sub + b)[|a|..|a| + |sub|] == sub;
    assert OccursAt(a + sub + b, sub, |a|);
  }

  /** A string that holds `a + b` holds `a`. */
  lemma ContainsPrefixOf(s: string, a: string, b: string)
    requires Contains(s, a + b)
    ensures Contains(s, a)
  {
    var i := IndexOf(s, a + b).value;
    assert s[i..i + |a|] == (a + b)[..|a|] == a;
    assert OccursAt(s, a, i);
  }

  /** A string none of whose characters is `sub[0]` cannot hold `sub`. */
  lemma NotContainsWithoutFirstChar(s: string, sub: string)
    requires |sub| > 0 && forall k :: 0 <= k < |s| ==> s[k] != sub[0]
    ensures !Contains(s, sub)
  {
    forall i | 0 <= i && i + |sub| <= |s| ensures !OccursAt(s, sub, i) {
      assert s[i..i + |sub|][0] == s[i];
    }
    ContainsIff(s, sub);
  }

  /** `keywords.some(k => s.includes(k))`. */
  function ContainsAny(s: string, keywords: seq<string>): (r: bool)
    ensures r <==> exists k :: 0 <= k < |keywords| && Contains(s, keywords[k])
  {
    if |keywords| == 0 then false
    else Contains(s, keywords[0]) || ContainsAny(s, keywords[1..])
  }

  // ---------------------------------------------------------------------------
  // Characters
  // ---------------------------------------------------------------------------

  /** The regular-expression class `\d`: ASCII digits only. */
  predicate IsAsciiDigit(c: char) {
    '0' <= c <= '9'
  }

  predicate HasAsciiDigit(s: string) {
    exists i :: 0 <= i < |s| && IsAsciiDigit(s[i])
  }

  predicate IsAsciiUpper(c: char) {
    'A' <= c <= 'Z'
  }

  predicate IsAsciiLetter(c: char) {
    IsAsciiUpper(c) || 'a' <= c <= 'z'
  }

  function LowerChar(c: char): char {
    if IsAsciiUpper(c) then (c as int + 32) as char else c
  }

  /** `toLowerCase`, restricted to the ASCII letters (see README). */
  function Lower(s: string): (r: string)
    ensures |r| == |s|
    ensures forall i :: 0 <= i < |s| ==> r[i] == LowerChar(s[i])
    ensures forall i :: 0 <= i < |s| ==> !IsAsciiUpper(r[i])
  {
    if |s| == 0 then [] else [LowerChar(s[0])] + Lower(s[1..])
  }

  /** Lower-casing cannot create or destroy an occurrence of a keyword with no
      ASCII letter in it, which is every keyword the services look for. */
  lemma LowerKeepsCaselessMatch(s: string, kw: string)
    requires forall j :: 0 <= j < |kw| ==> !IsAsciiLetter(kw[j])
    ensures Contains(Lower(s), kw) <==> Contains(s, kw)
  {
    var l := Lower(s);
    forall i | 0 <= i && i + |kw| <= |s|
      ensures OccursAt(l, kw, i) <==> OccursAt(s, kw, i)
    {
      if OccursAt(l, kw, i) {
        forall j | 0 <= j < |kw| ensures s[i + j] == kw[j] {
          assert l[i + j] == kw[j];
        }
        assert s[i..i + |kw|] == kw;
      }
      if OccursAt(s, kw, i) {
        forall j | 0 <= j < |kw| ensures l[i + j] == kw[j] {
          assert s[i + j] == kw[j];
        }
        assert l[i..i + |kw|] == kw;
      }
    }
    ContainsIff(l, kw);
    ContainsIff(s, kw);
  }

  /** The characters `String.prototype.trim` strips: the ECMAScript WhiteSpace
      (tab, VT, FF, space, NBSP, ZWNBSP and the Zs category) and LineTerminator
      code points. */
  predicate IsJsWhitespace(c: char) {
    c == '\U{0009}' || c == '\U{000B}' || c == '\U{000C}' || c == '\U{0020}'
    || c == '\U{00A0}' || c == '\U{FEFF}' || c == '\U{1680}'
    || ('\U{2000}' <= c <= '\U{200A}') || c == '\U{202F}' || c == '\U{205F}' || c == '\U{3000}'
    || IsLineTerminator(c)
  }

  /** ECMAScript LineTerminator: the characters the regular-expression `.` refuses. */
  predicate IsLineTerminator(c: char) {
    c == '\U{000A}' || c == '\U{000D}' || c == '\U{2028}' || c == '\U{2029}'
  }

  predicate AllWhitespace(s: string) {
    forall i :: 0 <= i < |s| ==> IsJsWhitespace(s[i])
  }

  // ---------------------------------------------------------------------------
  // trim
  // ---------------------------------------------------------------------------

  /** The first index at or after `i` that does not hold whitespace (`|s|` if none). */
  function SkipWhitespace(s: string, i: nat): (r: nat)
    requires i <= |s|
    ensures i <= r <= |s|
    ensures forall k :: i <= k < r ==> IsJsWhitespace(s[k])
    ensures r < |s| ==> !IsJsWhitespace(s[r])
    decreases |s| - i
  {
    if i < |s| && IsJsWhitespace(s[i]) then SkipWhitespace(s, i + 1) else i
  }

  /** The end of `s[lo..j]` once its trailing whitespace is dropped. */
  function SkipWhitespaceBack(s: string, lo: nat, j: nat): (r: nat)
    requires lo <= j <= |s|
    ensures lo <= r <= j
    ensures forall k :: r <= k < j ==> IsJsWhitespace(s[k])
    ensures r > lo ==> !IsJsWhitespace(s[r - 1])
    decreases j
  {
    if j > lo && IsJsWhitespace(s[j - 1]) then SkipWhitespaceBack(s, lo, j - 1) else j
  }

  /** How many leading characters `trim` strips. */
  function TrimOffset(s: string): nat {
    SkipWhitespace(s, 0)
  }

  /** `s.trim()`: the slice of `s` left after removing leading and trailing
      whitespace; everything stripped is whitespace, the kept part neither starts
      nor ends with it, and the result is empty exactly when `s` is whitespace only. */
  function Trim(s: string): (r: string)
    ensures TrimOffset(s) + |r| <= |s| && r == s[TrimOffset(s)..TrimOffset(s) + |r|]
    ensures forall k :: 0 <= k < TrimOffset(s) ==> IsJsWhitespace(s[k])
    ensures forall k :: TrimOffset(s) + |r| <= k < |s| ==> IsJsWhitespace(s[k])
    ensures r == [] || (!IsJsWhitespace(r[0]) && !IsJsWhitespace(r[|r| - 1]))
    ensures r == [] <==> AllWhitespace(s)
  {
    var a := SkipWhitespace(s, 0);
    var e := SkipWhitespaceBack(s, a, |s|);
    s[a..e]
  }

  // ---------------------------------------------------------------------------
  // padStart(2, '0')
  // ---------------------------------------------------------------------------

  /** `s.padStart(2, '0')`: strings shorter than two characters get leading zeros. */
  function PadStart2(s: string): (r: string)
    ensures |s| >= 2 ==> r == s
    ensures |s| < 2 ==> |r| == 2 && r[2 - |s|..] == s && forall i :: 0 <= i < 2 - |s| ==> r[i] == '0'
  {
    if |s| >= 2 then s else seq(2 - |s|, _ => '0') + s
  }

  // ---------------------------------------------------------------------------
  // Code-point order (the model of `localeCompare` on times)
  // ---------------------------------------------------------------------------

  /** Lexicographic order on code points: `a` sorts no later than `b`. */
  predicate LexLe(a: string, b: string) {
    a == [] || (b != [] && (a[0] < b[0] || (a[0] == b[0] && LexLe(a[1..], b[1..]))))
  }

  lemma {:induction false} LexLeReflexive(a: string)
    ensures LexLe(a, a)
  {
    if a != [] {
      LexLeReflexive(a[1..]);
    }
  }

  lemma {:induction false} LexLeTotal(a: string, b: string)
    ensures LexLe(a, b) || LexLe(b, a)
  {
    if a != [] && b != [] && a[0] == b[0] {
      LexLeTotal(a[1..], b[1..]);
    }
  }

  lemma {:induction false} LexLeTransitive(a: string, b: string, c: string)
    requires LexLe(a, b) && LexLe(b, c)
    ensures LexLe(a, c)
  {
    if a != [] && b != [] && c != [] && a[0] == b[0] && b[0] == c[0] {
      LexLeTransitive(a[1..], b[1..], c[1..]);
    }
  }

  lemma {:induction false} LexLeAntisymmetric(a: string, b: string)
    requires LexLe(a, b) && LexLe(b, a)
    ensures a == b
  {
    if a != [] && b != [] {
      LexLeAntisymmetric(a[1..], b[1..]);
      assert a == [a[0]] + a[1..];
      assert b == [b[0]] + b[1..];
    }
  }
}

=== FILE: user_routes.dfy ===
/** The profile route (`routes/users.js`): a request body is checked against
    the profile schema and either refused with 400, changing nothing, or stored
    as the user's profile with the user marked as onboarded. */
module UserRoutes {
  import opened Base
  import opened Text
  import opened Profiles

  // ---------------------------------------------------------------------------
  // The time pattern /^([0-1]?[0-9]|2[0-3]):[0-5][0-9]$/
  // ---------------------------------------------------------------------------

  /** `[0-5][0-9]`. */
  predicate MinutePair(a: char, b: char) {
    '0' <= a <= '5' && IsAsciiDigit(b)
  }

  /** `[0-1][0-9]|2[0-3]`: the two-character hours. */
  predicate HourPair(a: char, b: char) {
    ('0' <= a <= '1' && IsAsciiDigit(b)) || (a == '2' && '0' <= b <= '3')
  }

  /** The whole string matches the anchored pattern: a one-digit hour
      (the optional `[0-1]` left out) or a two-character hour, a colon and two
      minute digits. */
  predicate ValidTime(s: string) {
    || (|s| == 4 && IsAsciiDigit(s[0]) && s[1] == ':' && MinutePair(s[2], s[3]))
    || (|s| == 5 && HourPair(s[0], s[1]) && s[2] == ':' && MinutePair(s[3], s[4]))
  }

  /** The value of a decimal digit. */
  function DigitValue(c: char): (n: nat)
    requires IsAsciiDigit(c)
    ensures n < 10
  {
    (c as int - '0' as int) as nat
  }

  /** The digit for a value below ten. */
  function DigitChar(n: nat): (c: char)
    requires n < 10
    ensures IsAsciiDigit(c) && DigitValue(c) == n
  {
    (n + '0' as int) as char
  }

  /** The hour a valid time denotes. */
  function TimeHour(s: string): nat
    requires ValidTime(s)
  {
    if |s| == 4 then DigitValue(s[0]) else 10 * DigitValue(s[0]) + DigitValue(s[1])
  }

  /** The minute a valid time denotes. */
  function TimeMinute(s: string): nat
    requires ValidTime(s)
  {
    if |s| == 4 then 10 * DigitValue(s[2]) + DigitValue(s[3]) else 10 * DigitValue(s[3]) + DigitValue(s[4])
  }

  /** A clock time written `H:MM` (hours below ten only) or `HH:MM`. */
  function Render(h: nat, m: nat, padded: bool): (s: string)
    requires h < 24 && m < 60 && (padded || h < 10)
    ensures |s| == (if padded then 5 else 4)
  {
    var hh := if padded then [DigitChar(h / 10), DigitChar(h % 10)] else [DigitChar(h)];
    hh + [':', DigitChar(m / 10), DigitChar(m % 10)]
  }

  /** Every accepted string is a clock time from 0:00 to 23:59, written with
      or without the leading zero of the hour. */
  lemma ValidTimeIsClockTime(s: string)
    requires ValidTime(s)
    ensures TimeHour(s) < 24 && TimeMinute(s) < 60
    ensures s == Render(TimeHour(s), TimeMinute(s), |s| == 5)
  {
    var h, m := TimeHour(s), TimeMinute(s);
    var r := Render(h, m, |s| == 5);
    if |s| == 4 {
      assert r[0] == DigitChar(h) == s[0];
      assert r[2] == DigitChar(m / 10) == s[2];
      assert r[3] == DigitChar(m % 10) == s[3];
    } else {
      assert r[0] == DigitChar(h / 10) == s[0];
      assert r[1] == DigitChar(h % 10) == s[1];
      assert r[3] == DigitChar(m / 10) == s[3];
      assert r[4] == DigitChar(m % 10) == s[4];
    }
  }

  /** Every clock time from 0:00 to 23:59 is accepted, padded or not, and
      reads back as itself. */
  lemma ClockTimeIsValid(h: nat, m: nat, padded: bool)
    requires h < 24 && m < 60 && (padded || h < 10)
    ensures ValidTime(Render(h, m, padded))
    ensures TimeHour(Render(h, m, padded)) == h && TimeMinute(Render(h, m, padded)) == m
  {
  }

  /** Rejected: an hour of 24, a one-digit minute, a minute of 60, a trailing
      blank. Accepted: "7:05" and "23:59". */
  lemma TimePatternExamples()
    ensures !ValidTime("24:00") && !ValidTime("9:5") && !ValidTime("12:60") && !ValidTime("12:30 ")
    ensures ValidTime("7:05") && ValidTime("23:59") && ValidTime("07:05")
  {
  }

  // ---------------------------------------------------------------------------
  // The profile schema
  // ---------------------------------------------------------------------------

  const AgeMin: real := 13.0
  const AgeMax: real := 120.0
  const HeightMin: real := 100.0
  const HeightMax: real := 250.0
  const WeightMin: real := 30.0
  const WeightMax: real := 300.0

  const ActivityLevels: set<string> := {"low", "moderate", "high"}
  const Goals: set<string> := {"energy", "routine", "consistency", "balance"}

  /** A request body: every key may be missing. */
  datatype WorkScheduleBody = WorkScheduleBody(
    startTime: Option<string>, endTime: Option<string>, workDays: Option<seq<string>>)

  datatype SleepScheduleBody = SleepScheduleBody(bedtime: Option<string>, wakeTime: Option<string>)

  datatype PreferencesBody = PreferencesBody(
    nutrition: Option<bool>, hydration: Option<bool>, movement: Option<bool>, sleep: Option<bool>,
    relaxation: Option<bool>, digitalWellness: Option<bool>, outdoorTime: Option<bool>)

  datatype ProfileBody = ProfileBody(
    age: Option<real>,
    height: Option<real>,
    weight: Option<real>,
    activityLevel: Option<string>,
    workSchedule: Option<WorkScheduleBody>,
    sleepSchedule: Option<SleepScheduleBody>,
    goals: Option<seq<string>>,
    preferences: Option<PreferencesBody>)

  /** The body with no keys at all. */
  const EmptyBody: ProfileBody := ProfileBody(None, None, None, None, None, None, None, None)

  /** A present number lies within inclusive bounds. */
  predicate InRange(x: Option<real>, lo: real, hi: real) {
    x.None? || (lo <= x.value && x.value <= hi)
  }

  /** A present time matches the pattern. */
  predicate TimeOk(t: Option<string>) {
    t.None? || ValidTime(t.value)
  }

  /** Which rule of the schema a body breaks. */
  datatype Violation =
    | AgeOutOfRange | HeightOutOfRange | WeightOutOfRange | UnknownActivityLevel
    | BadStartTime | BadEndTime | BadBedtime | BadWakeTime | UnknownGoal

  /** The body satisfies every rule of the schema. */
  predicate Valid(b: ProfileBody) {
    && InRange(b.age, AgeMin, AgeMax)
    && InRange(b.height, HeightMin, HeightMax)
    && InRange(b.weight, WeightMin, WeightMax)
    && (b.activityLevel.None? || b.activityLevel.value in ActivityLevels)
    && (b.workSchedule.None? || (TimeOk(b.workSchedule.value.startTime) && TimeOk(b.workSchedule.value.endTime)))
    && (b.sleepSchedule.None? || (TimeOk(b.sleepSchedule.value.bedtime) && TimeOk(b.sleepSchedule.value.wakeTime)))
    && (b.goals.None? || forall i :: 0 <= i < |b.goals.value| ==> b.goals.value[i] in Goals)
  }

  /** The first rule broken, in the order the schema lists its keys
      (`error.details[0]`); `None` for a valid body. */
  function FirstViolation(b: ProfileBody): (v: Option<Violation>)
    ensures v.None? <==> Valid(b)
    ensures v == Some(AgeOutOfRange) <==> !InRange(b.age, AgeMin, AgeMax)
    ensures v == Some(UnknownGoal) ==> b.goals.Some? && exists i :: 0 <= i < |b.goals.value| && b.goals.value[i] !in Goals
  {
    if !InRange(b.age, AgeMin, AgeMax) then Some(AgeOutOfRange)
    else if !InRange(b.height, HeightMin, HeightMax) then Some(HeightOutOfRange)
    else if !InRange(b.weight, WeightMin, WeightMax) then Some(WeightOutOfRange)
    else if b.activityLevel.Some? && b.activityLevel.value !in ActivityLevels then Some(UnknownActivityLevel)
    else if b.workSchedule.Some? && !TimeOk(b.workSchedule.value.startTime) then Some(BadStartTime)
    else if b.workSchedule.Some? && !TimeOk(b.workSchedule.value.endTime) then Some(BadEndTime)
    else if b.sleepSchedule.Some? && !TimeOk(b.sleepSchedule.value.bedtime) then Some(BadBedtime)
    else if b.sleepSchedule.Some? && !TimeOk(b.sleepSchedule.value.wakeTime) then Some(BadWakeTime)
    else if b.goals.Some? && exists i :: 0 <= i < |b.goals.value| && b.goals.value[i] !in Goals then Some(UnknownGoal)
    else None
  }

  /** Every key is optional: the empty body is valid. */
  lemma EmptyBodyValid()
    ensures FirstViolation(EmptyBody).None?
  {
  }

  /** The numeric bounds are inclusive at both ends. */
  lemma BoundsInclusive(b: ProfileBody)
    requires b.age.Some? && b.height.Some? && b.weight.Some?
    requires b.age.value in {AgeMin, AgeMax} && b.height.value in {HeightMin, HeightMax}
    requires b.weight.value in {WeightMin, WeightMax}
    ensures FirstViolation(b) != Some(AgeOutOfRange)
    ensures FirstViolation(b) != Some(HeightOutOfRange)
    ensures FirstViolation(b) != Some(WeightOutOfRange)
  {
  }

  // ---------------------------------------------------------------------------
  // PUT /profile
  // ---------------------------------------------------------------------------

  /** The stored account, as far as the route touches it. */
  datatype Account = Account(profile: ProfileBody, isOnboarded: bool)

  /** The route's answer and the account afterwards. */
  datatype UpdateResult = UpdateResult(status: nat, violation: Option<Violation>, account: Account)

  /** `PUT /profile`: 400 with the first violation and the account untouched,
      or 200 with the body stored as the profile and the user onboarded. */
  function UpdateProfile(a: Account, body: ProfileBody): (r: UpdateResult)
    ensures r.status == 400 <==> !Valid(body)
    ensures r.status == 400 ==> r.account == a && r.violation == FirstViolation(body)
    ensures r.status != 400 ==> r.status == 200 && r.account == Account(body, true) && r.violation.None?
  {
    match FirstViolation(body)
    case Some(v) => UpdateResult(400, Some(v), a)
    case None => UpdateResult(200, None, Account(body, true))
  }

  /** A stored profile always satisfies the schema once an update went through. */
  lemma StoredProfileValid(a: Account, body: ProfileBody)
    requires UpdateProfile(a, body).status == 200
    ensures Valid(UpdateProfile(a, body).account.profile)
  {
  }
}
